=== FILE: README.md ===
# Verified model of the bootcamp's dlt loaders

This project models the extract side of the ELT bootcamp's dlt loaders in Dafny. These are the
Python generators that dlt runs as resources. They read a CSV file, a JSON API, a browser
session or a staging directory, reshape each record and yield it for loading into ClickHouse.
The loaders modelled are:

- `covid_epidemiology`: streams a large CSV file in chunks, coerces the date and count columns,
  and stops at a row limit (module `Covid`).
- `lazada_scraped_data`: scrapes up to five search-result pages, canonicalises product links and
  drops duplicates (module `Lazada`).
- `Grp2_StudentInfo`: reads a local CSV file with `csv.DictReader` and cleans the column names
  (module `StudentLocal`).
- `restaurants` and `reviews`: read the Foodpanda CSV exports (module `Food`).
- `ph_regions_past_week`: fetches one week of weather for each of twelve Philippine regions,
  merged on (region code, date) (module `MeteoRegions`).
- `manila_historical_weather`: fetches one year of Manila weather (module `MeteoManila`).
- `wmo_code_descriptions`: flattens the WMO weather-code table, merged on the weather code
  (module `WmoCodes`).
- `gen1_pokemon`: fetches Pokémon 1 to 151 one by one and skips the ids that fail (module
  `Poke`).
- `oulad_all_files`, `oulad_dynamic` and the seven per-file OULAD resources (module `Oulad`).

Shared modules model the parts of Python and its libraries that the loaders rely on:

- `Wrappers`: Option and Result.
- `Extract`:
  - the Python exceptions raised;
  - a generator's observable run: the items yielded, plus the error if the body raised;
  - the resource descriptors (name, write disposition, primary key).
- `Text`: the `str` methods used.
- `Decimal`: `int(s)` and `str(n)`.
- `Dicts`: a Python dict, in insertion order.
- `Filters`: keeping the elements of a sequence that pass a test, in their order.
- `Csv`: `csv.DictReader`.
- `Json`: decoded JSON and the operations applied to it.
- `OpenMeteo`: the archive request and reply shared by both weather loaders.

Everything outside the process is a parameter:

- an HTTP exchange is a function from request to reply;
- the browser is a function from page URL to page;
- the staging directory is its listing;
- the clock is a day number;
- library parsers (`float`, `datetime.fromisoformat`, `pd.to_datetime`, `ast.literal_eval`) are
  functions returning an Option, where None stands for the exception they raise.

Where the source updates state step by step, the model does too:

- the chunk-cleaning loop, the row limit loop, the scraper loop, the scroll loop, the CSV row
  loops and the OULAD loops are methods with loop invariants, each proved against a reference
  function;
- a pandas DataFrame is a class whose `SetColumn` method updates it in place.

## Model

| member | source | states |
|---|---|---|
| Covid.ToCount | dlt/extract-loads/09-dlt-big-covid-pipeline.py:74 | `pd.to_numeric(errors="coerce").astype("Int64")` on one cell. Text the numeric parser rejects becomes null. A whole number becomes that integer. A number with a fractional part makes the cast raise TypeError. Integers are kept. |
| Covid.ToDate | dlt/extract-loads/09-dlt-big-covid-pipeline.py:66 | Date coercion gives a date exactly when the date parser accepts the text. Otherwise the cell becomes null. |
| Covid.CoerceColumnStep | dlt/extract-loads/09-dlt-big-covid-pipeline.py:65-74 | Coercing one more column extends the set of columns already coerced by that column. The other cells are unchanged. |
| Covid.CoercedOnAll | dlt/extract-loads/09-dlt-big-covid-pipeline.py:65-74 | Once the date column and all eight count columns are coerced, the chunk equals the reference coerced chunk. |
| Covid.CleanChunk | dlt/extract-loads/09-dlt-big-covid-pipeline.py:65-74 | The cleaning loop over the date column and the count columns gives exactly the reference result: TypeError when some present count column holds a fractional number, otherwise the coerced chunk. |
| Covid.CleanRunShape | dlt/extract-loads/09-dlt-big-covid-pipeline.py:58-74 | The cleaned stream holds one coerced chunk per source chunk, with the same columns and number of rows, up to the first rejected chunk. That chunk ends the stream with TypeError. The stream is complete exactly when no chunk is rejected. |
| Covid.UncoercedColumn | dlt/extract-loads/09-dlt-big-covid-pipeline.py:72-74 | Coercing other columns does not change whether a column not yet coerced makes the cast raise. |
| Covid.AcceptedAll | dlt/extract-loads/09-dlt-big-covid-pipeline.py:68-74 | A chunk whose present count columns all pass the cast is not rejected. |
| Covid.CleanStep | dlt/extract-loads/09-dlt-big-covid-pipeline.py:58-74 | A source chunk that cleans extends the cleaned stream by its cleaned form. The first chunk that is rejected ends the stream with its error. |
| Covid.AllRowsAppend | dlt/extract-loads/09-dlt-big-covid-pipeline.py:85 | The rows of two chunk sequences, put one after the other, are the rows of the first followed by the rows of the second. |
| Covid.TakeRowsUnder | dlt/extract-loads/09-dlt-big-covid-pipeline.py:81-92 | Chunks whose running total stays below the limit are yielded unchanged. |
| Covid.TakeRowsReach | dlt/extract-loads/09-dlt-big-covid-pipeline.py:78-92 | The chunk that reaches the limit is yielded cut to the rows still allowed, and it is the last chunk yielded. |
| Covid.TakeRowsIsRowPrefix | dlt/extract-loads/09-dlt-big-covid-pipeline.py:76-92 | With a positive limit, the rows yielded are exactly the first min(limit, total) source rows, in order. |
| Covid.TakeRowsShape | dlt/extract-loads/09-dlt-big-covid-pipeline.py:81-83 | Only the last yielded chunk can differ from its source chunk. It keeps its columns and a prefix of its rows. |
| Covid.UnderSnoc | dlt/extract-loads/09-dlt-big-covid-pipeline.py:85-92 | A chunk that keeps the running total below the limit is yielded whole, and every prefix of the stream stays below the limit. |
| Covid.ReachFinish | dlt/extract-loads/09-dlt-big-covid-pipeline.py:78-92 | The chunk that reaches the limit is cut to the rows still allowed. It completes the limited stream with exactly `limit` rows, and every earlier prefix stays below the limit. |
| Covid.ReachExit | dlt/extract-loads/09-dlt-big-covid-pipeline.py:78-92 | The generator stops at the chunk that reaches the limit. That chunk is cut only when it holds more rows than are still allowed. What was yielded is then the whole limited run, with exactly `limit` rows and no error. |
| Covid.KeepStep | dlt/extract-loads/09-dlt-big-covid-pipeline.py:85-88 | A chunk yielded whole adds its row count to the running total, and with a limit every prefix stays below it. |
| Covid.CovidEpidemiology | dlt/extract-loads/09-dlt-big-covid-pipeline.py:47-92 | The generator yields the limited stream of cleaned chunks and raises the first cleaning error met before the limit is reached. Without a limit it reads every chunk up to that error. A non-positive limit yields nothing after reading at most one chunk. A positive limit stops reading the chunk after the limit is reached, and never stops early. |
| Covid.ExitOnError | dlt/extract-loads/09-dlt-big-covid-pipeline.py:72-92 | An error met while the running total is still below the limit reaches the caller after every chunk already yielded. |
| Covid.ExitAtEnd | dlt/extract-loads/09-dlt-big-covid-pipeline.py:58-92 | When the source runs out below the limit, every cleaned chunk is yielded and nothing is raised. |
| Covid.ExitNonPositive | dlt/extract-loads/09-dlt-big-covid-pipeline.py:78-80 | A non-positive limit yields nothing and raises nothing once a chunk cleans. |
| Lazada.CanonicalUrl | dlt/extract-loads/06-dlt-laz-pipeline.py:9-16 | Gives None exactly for a missing or empty href. An href starting with "//" gets "https:" in front. Any other href starting with "/" gets the site origin in front. Any other href is kept as is. The result never starts with '/'. |
| Lazada.CanonicalUrlIdempotent | dlt/extract-loads/06-dlt-laz-pipeline.py:9-16 | Canonicalising a canonical URL changes nothing. |
| Lazada.PageUrlReadsBack | dlt/extract-loads/06-dlt-laz-pipeline.py:36 | Page 1 is fetched from the search URL. A later page adds a `page` parameter, and its number reads back from it. |
| Lazada.PageUrlInjective | dlt/extract-loads/06-dlt-laz-pipeline.py:35-36 | Two result pages numbered from 1 are requested from the same URL exactly when they are the same page. |
| Lazada.AutoScroll | dlt/extract-loads/06-dlt-laz-pipeline.py:18-26 | Scrolls at most max_steps times. It stops after the first scroll that leaves the height unchanged (0 before the first scroll), and only then or at the cap. |
| Lazada.Price | dlt/extract-loads/06-dlt-laz-pipeline.py:44-55 | No price element gives None. Otherwise the result is the price text with its leading and trailing whitespace removed, and no whitespace is left at either end. Whitespace is every character `str.isspace()` accepts, Unicode spaces included. |
| Lazada.ScrapeStops | dlt/extract-loads/06-dlt-laz-pipeline.py:35-39 | Once a page has timed out and raised, scraping more pages changes nothing. |
| Lazada.LazadaScrapedData | dlt/extract-loads/06-dlt-laz-pipeline.py:29-60 | The scraper loop yields exactly the reference run over pages 1 to 5, including the error of a page that times out. |
| Lazada.VisitCardKeeps | dlt/extract-loads/06-dlt-laz-pipeline.py:42-59 | Visiting one card keeps the scraper consistent and adds at most one product. That product is from this page and has a URL not yet seen. |
| Lazada.VisitCardsKeeps | dlt/extract-loads/06-dlt-laz-pipeline.py:41-59 | Visiting a page's cards keeps the scraper consistent. `seen` only grows and products are only appended. Every new product is from this page and has a URL that was not yet seen. |
| Lazada.ScrapeConsistent | dlt/extract-loads/06-dlt-laz-pipeline.py:30-59 | Every prefix of the page loop leaves the scraper consistent. |
| Lazada.ConsistentWiden | dlt/extract-loads/06-dlt-laz-pipeline.py:35 | A state consistent up to page m stays consistent for any later page bound. |
| Lazada.ScrapedProductsUnique | dlt/extract-loads/06-dlt-laz-pipeline.py:29-60 | Yielded products have pairwise distinct, non-empty canonical URLs and page numbers from 1 to 5 in non-decreasing order. |
| Lazada.Tag | dlt/extract-loads/06-dlt-laz-pipeline.py:41 | A page's cards are visited in listing order, each tagged with the page number. |
| Lazada.VisitCardEffect | dlt/extract-loads/06-dlt-laz-pipeline.py:42-59 | A card that does not fail and carries a URL not yet seen appends its product (page, title, stripped price, URL). Any other card appends nothing. The URL a card carries is recorded in `seen` even when reading the card fails afterwards. |
| Lazada.ClaimedBySnoc | dlt/extract-loads/06-dlt-laz-pipeline.py:47-50 | The URLs recorded after one more card are those recorded before, plus the URL that card carries, if any. |
| Lazada.WinsSnoc | dlt/extract-loads/06-dlt-laz-pipeline.py:47-56 | The next card is yielded exactly when reading it does not fail and it carries a URL that no earlier card carries. |
| Lazada.VisitStep | dlt/extract-loads/06-dlt-laz-pipeline.py:42-59 | Visiting one more card keeps `seen` and the products equal to the reference over the cards visited so far. |
| Lazada.VisitCardsStep | dlt/extract-loads/06-dlt-laz-pipeline.py:41-59 | Visiting a page's cards keeps `seen` and the products equal to the reference over the cards visited so far. |
| Lazada.ScrapeIsFirstClaims | dlt/extract-loads/06-dlt-laz-pipeline.py:29-60 | Over pages 1..k, `seen` holds every URL a visited card carries. The products are those of the cards that are first to carry their URL and do not fail, in visiting order. Timeout is raised exactly when some page timed out. |
| Lazada.LoadedPageStep | dlt/extract-loads/06-dlt-laz-pipeline.py:35-59 | A page that loads after pages that all loaded adds its cards to the visited ones, keeping the state equal to the reference. |
| Lazada.StalledPageStep | dlt/extract-loads/06-dlt-laz-pipeline.py:35-38 | A page that times out, or follows one that did, adds no cards and leaves Timeout raised. |
| Lazada.WinnersSound | dlt/extract-loads/06-dlt-laz-pipeline.py:47-56 | Every reference product is the product of a card that is the first to carry its URL and does not fail. |
| Lazada.WinnerSource | dlt/extract-loads/06-dlt-laz-pipeline.py:47-56 | The card reference product i comes from: it does not fail, it is the first to carry its URL, and product i is its product. |
| Lazada.WinsPrefix | dlt/extract-loads/06-dlt-laz-pipeline.py:48 | Whether a card is yielded depends only on the cards visited up to it. |
| Lazada.WinnersComplete | dlt/extract-loads/06-dlt-laz-pipeline.py:47-56 | Every card that is first to carry its URL and does not fail has its product among the reference products. |
| Lazada.WinnerPosition | dlt/extract-loads/06-dlt-laz-pipeline.py:47-56 | The position among the reference products of a winning card's product. |
| Lazada.FailedClaimSuppresses | dlt/extract-loads/06-dlt-laz-pipeline.py:49-58 | A URL first carried by a card that fails after being added to `seen` never appears among the products. |
| Lazada.ScrapedFirstOccurrences | dlt/extract-loads/06-dlt-laz-pipeline.py:29-60 | The scraper's products are exactly the products of the cards that are the first to carry their URL and do not fail, in scrape order. |
| StudentLocal.CleanKey | run_student_pipeline_local.py:31 | Each space or hyphen becomes '_' and each ASCII capital is lowered. The length is kept, and the result has no space, no hyphen and no capital. |
| StudentLocal.CleanKeyIdempotent | run_student_pipeline_local.py:31 | Cleaning a cleaned key changes nothing. |
| StudentLocal.Default | run_student_pipeline_local.py:32 | A missing or empty value becomes ''. Any other value is kept. |
| StudentLocal.CleanedItems | run_student_pipeline_local.py:30-32 | One assignment per field of the row. |
| StudentLocal.CleanRow | run_student_pipeline_local.py:29-32 | The key-by-key loop builds the dict that the cleaned assignments give, applied in order. |
| StudentLocal.CleanRowShape | run_student_pipeline_local.py:29-32 | Keys are distinct and cleaned, and there are no more of them than raw fields. Each key holds the value of the last raw field that cleans to it. |
| StudentLocal.CleanRowCollision | run_student_pipeline_local.py:31-32 | Two raw field names that clean alike leave the row with fewer keys than fields. |
| StudentLocal.Grp2StudentInfo | run_student_pipeline_local.py:7-52 | A missing file raises FileNotFoundError. An empty file raises TypeError. A record longer than the header raises AttributeError. Otherwise the result is one cleaned row per data record, in file order. |
| StudentLocal.CleanRecords | run_student_pipeline_local.py:27-33 | The row loop gives AttributeError exactly when some record is longer than the header. Otherwise it gives the reference rows: one cleaned row per record, in order. |
| StudentLocal.CleanRecordRow | run_student_pipeline_local.py:28-32 | The key-by-key loop over one record builds that record's reference cleaned row. |
| StudentLocal.CleanedRecordsAll | run_student_pipeline_local.py:27-33 | The reference rows number one per record, and row i is record i cleaned. |
| Food.Index | dlt/dlt-food-pipeline.py:55-60 | `row[key]` raises KeyError(key) exactly when the column is absent, and otherwise gives the cell. |
| Food.OptionalFloat | dlt/dlt-food-pipeline.py:58 | A falsy cell gives None. Otherwise the float parse decides between the value and ValueError. |
| Food.ReviewerCount | dlt/dlt-food-pipeline.py:59 | A falsy cell gives None. Otherwise the result is the integer read after stripping parentheses from both ends, or ValueError when that is not an integer. |
| Food.NormaliseRestaurant | dlt/dlt-food-pipeline.py:54-61 | A record exists exactly when all six columns are present and both numbers parse. Its fields are the cells, the parsed rating and the parsed reviewer count. A missing StoreId raises KeyError. With every column present, only ValueError can be raised. |
| Food.ZuluToOffsetProperties | dlt/dlt-food-pipeline.py:83-84 | No 'Z' survives the rewrite. Text without 'Z' is left alone. |
| Food.Timestamp | dlt/dlt-food-pipeline.py:83-84 | A missing column raises KeyError and a None cell raises AttributeError. Otherwise the ISO parse of the cell, with 'Z' rewritten, gives the timestamp, or ValueError when it fails. |
| Food.Flag | dlt/dlt-food-pipeline.py:86-90 | A missing column gives false and a None cell raises AttributeError. Otherwise the flag is whether the lowered text is "true". |
| Food.ReviewerId | dlt/dlt-food-pipeline.py:87 | None exactly when the cell is missing or falsy. Otherwise the cell's text. |
| Food.LikeCount | dlt/dlt-food-pipeline.py:89 | A missing column gives 0. A None cell raises TypeError. Integer text gives its value, and any other text (empty text included) raises ValueError. |
| Food.Rating | dlt/dlt-food-pipeline.py:91-93 | A missing or falsy rating gives None. Otherwise the float parse of the cell gives the rating, or ValueError when it fails. |
| Food.DecodeReplies | dlt/dlt-food-pipeline.py:75-79 | Replies are the literal decoded from the cell (default "[]"). A cell that does not decode gives []. |
| Food.LiteralEvalAsWritten | dlt/dlt-food-pipeline.py:77 | As written, the evaluator call always fails. |
| Food.NormaliseReview | dlt/dlt-food-pipeline.py:72-94 | A record exists exactly when every field expression succeeds. Its fields are the cells, timestamps, flags, like count and ratings those expressions give, and its replies are the decoded replies. A missing StoreId raises KeyError. |
| Food.RepliesAsWrittenAreEmpty | dlt/dlt-food-pipeline.py:72-94 | As written, every review record has an empty reply list. |
| Food.RepliesLostAsWritten | dlt/dlt-food-pipeline.py:75-79 | Replies that decode to a non-empty list are kept by the corrected loader and lost as written. |
| Food.Restaurants | dlt/dlt-food-pipeline.py:46-61 | A missing file raises FileNotFound. Otherwise the run yields one normalised record per CSV row, in order, and ends with the error of the first row that raises. |
| Food.Reviews | dlt/dlt-food-pipeline.py:66-94 | A missing file raises FileNotFound. Otherwise the run yields one normalised review per CSV row, in order, and ends with the error of the first row that raises. |
| Food.RestaurantsOnePerRow | dlt/dlt-food-pipeline.py:50-61 | When no row raises, one restaurant record per CSV row, in file order. |
| Food.ReviewsOnePerRow | dlt/dlt-food-pipeline.py:70-94 | When no row raises, one review record per CSV row, in file order. |
| OpenMeteo.DailyParamNamesVariables | dlt/extract-loads/03-dlt-xtra-meteo-ph-regions.py:45-50 | The comma-joined `daily` parameter splits back into exactly the four variables, in order. |
| OpenMeteo.WindowEndingTwoDaysAgo | dlt/dlt-meteo-pipeline.py:12-14 | The window spans the requested number of days and ends two days before today. |
| OpenMeteo.ReadDaily | dlt/extract-loads/03-dlt-xtra-meteo-ph-regions.py:61-69 | An error status raises HttpError, then a missing `daily` raises KeyError("daily"), then a missing array raises KeyError. It succeeds exactly when all five arrays are present. |
| OpenMeteo.ZipDaily | dlt/extract-loads/03-dlt-xtra-meteo-ph-regions.py:71-82 | Row i holds index i of every array. The run completes exactly when no array is shorter than `time`, and otherwise raises IndexError after as many rows as the shortest array has. |
| OpenMeteo.DailyRun | dlt/dlt-meteo-pipeline.py:31-48 | A failed read yields nothing and raises its error. Otherwise the rows are the zipped arrays. |
| OpenMeteo.DailyRunDatesDistinct | dlt/extract-loads/03-dlt-xtra-meteo-ph-regions.py:71-82 | Distinct dates in `time` give yielded rows with distinct dates. |
| MeteoRegions.Codes | dlt/extract-loads/03-dlt-xtra-meteo-ph-regions.py:8-21 | One code per region, in table order. |
| MeteoRegions.PhRegionCodes | dlt/extract-loads/03-dlt-xtra-meteo-ph-regions.py:8-21 | The table lists the regions NCR and I to XI, in that order. |
| MeteoRegions.PhRegionsTable | dlt/extract-loads/03-dlt-xtra-meteo-ph-regions.py:8-21 | The table has twelve regions, and no two share a code. |
| MeteoRegions.PastWeek | dlt/extract-loads/03-dlt-xtra-meteo-ph-regions.py:40-42 | Seven days ending two days before today. |
| MeteoRegions.RegionRows | dlt/extract-loads/03-dlt-xtra-meteo-ph-regions.py:61-82 | Every row of a region's reply carries that region's fields and the day row in the same position, and raises what the reply raises. |
| MeteoRegions.RegionsFromShape | dlt/extract-loads/03-dlt-xtra-meteo-ph-regions.py:52-82 | The run completes exactly when no region's reply fails. Every row comes from a region of the table, and the first region's rows come first. |
| MeteoRegions.RegionsFromIsChain | dlt/extract-loads/03-dlt-xtra-meteo-ph-regions.py:52-82 | The regions are fetched one after another, and the first region that raises ends the run. |
| MeteoRegions.RegionsFromConcat | dlt/extract-loads/03-dlt-xtra-meteo-ph-regions.py:52-82 | With f the first failing region, the run is every row of the regions before f in table order, then the rows region f yields before raising, and it ends with region f's error. With no failing region it is every region's rows and no error. |
| MeteoRegions.RegionRowsKeysUnique | dlt/extract-loads/03-dlt-xtra-meteo-ph-regions.py:61-82 | A reply that lists each date once gives rows of that one region with unique merge keys. |
| MeteoRegions.ConcatKeysUnique | dlt/extract-loads/03-dlt-xtra-meteo-ph-regions.py:52-82 | One region's rows followed by rows of other regions keep unique merge keys when each part does. |
| MeteoRegions.RunCodes | dlt/extract-loads/03-dlt-xtra-meteo-ph-regions.py:52-59 | A run over some regions yields only rows that carry one of their codes. |
| MeteoRegions.MergeKeysUnique | dlt/extract-loads/03-dlt-xtra-meteo-ph-regions.py:30-34 | With distinct region codes and replies that list each date once, no two rows share the merge key (region_code, date). |
| MeteoRegions.PhRegionsPastWeekKeysUnique | dlt/extract-loads/03-dlt-xtra-meteo-ph-regions.py:30-82 | Over the twelve-region table and the past-week window, replies that list each date once give rows with unique merge keys. The run finishes without error exactly when no region fails. |
| MeteoManila.PastYear | dlt/dlt-meteo-pipeline.py:12-14 | 365 days ending two days before today. |
| MeteoManila.ManilaRequest | dlt/dlt-meteo-pipeline.py:16-29 | The request goes to the archive URL for the past-year window, at latitude 14.5995 and longitude 120.9842 (in 1/10000 degree), with the four daily variables and timezone Asia/Manila. |
| MeteoManila.ManilaHistoricalWeather | dlt/dlt-meteo-pipeline.py:31-48 | An error status raises before any row, and a reply without `daily` raises KeyError("daily"). Any failed read yields no rows and raises its error. Otherwise the run is the zipped arrays: one row per date holding index i of every array, stopping with IndexError where the shortest array ends. A completed run read all five arrays, none shorter than `time`. |
| Json.Or | dlt/extract-loads/03-dlt-wmo-codes-pipeline.py:30-31 | `v or d` is v when v is truthy and d otherwise. |
| Json.Index | dlt/extract-loads/05-dlt-poke-pipeline.py:20-30 | Subscripting succeeds exactly on an object holding the key. It raises KeyError for a missing key and TypeError on a non-object. |
| Json.DictGet | dlt/extract-loads/03-dlt-wmo-codes-pipeline.py:30-37 | `.get` on an object gives the value or the default. On anything else it raises AttributeError. |
| Json.Iterate | dlt/extract-loads/05-dlt-poke-pipeline.py:25-28 | Iteration gives a list's items, an object's keys as strings in order, or a string's characters as one-character strings in order. It raises TypeError exactly on null, booleans and numbers. |
| WmoCodes.HalfOf | dlt/extract-loads/03-dlt-wmo-codes-pipeline.py:30-31 | A falsy entry, or a missing or falsy half, gives {}. A truthy non-object entry raises AttributeError. Otherwise the result is the half. |
| WmoCodes.IntOf | dlt/extract-loads/03-dlt-wmo-codes-pipeline.py:33 | `int(k)` succeeds exactly when k is integer text, with its value, and raises ValueError otherwise. |
| WmoCodes.CodeRow | dlt/extract-loads/03-dlt-wmo-codes-pipeline.py:30-39 | The row exists exactly when the key reads as an integer and the entry is falsy or an object whose "day" and "night" halves are each absent, falsy or an object. Its code is that integer and its url is the table URL. Each description and icon is the half's "description" or "image" entry, or null when that entry or the half is missing or falsy. A falsy entry gives all nulls. |
| WmoCodes.WmoCodeDescriptions | dlt/extract-loads/03-dlt-wmo-codes-pipeline.py:23-39 | An error status raises HttpError and a non-object body raises AttributeError. Otherwise one row per entry in order, stopping at the entry that raises. |
| WmoCodes.RowsCarryKeys | dlt/extract-loads/03-dlt-wmo-codes-pipeline.py:29-39 | Every row's weather_code is its entry's key read as an integer, and its source_url is the table URL. |
| WmoCodes.CanonicalKeysGiveDistinctCodes | dlt/extract-loads/03-dlt-wmo-codes-pipeline.py:18-22 | Distinct keys, each written as Python prints integers, give pairwise distinct merge keys. |
| WmoCodes.NonCanonicalKeysCollide | dlt/extract-loads/03-dlt-wmo-codes-pipeline.py:29-33 | Keys "1" and "01" both give weather_code 1, so the merge key can repeat. |
| Poke.NamesOf | dlt/extract-loads/05-dlt-poke-pipeline.py:25-26 | One name per element, in order. It raises exactly when iteration or some element's lookup fails. |
| Poke.StatPair | dlt/extract-loads/05-dlt-poke-pipeline.py:28 | A stat item gives its stat name and its base_stat, in that order of evaluation. It raises exactly when either lookup fails or the name is a list or object, which cannot be a dict key. |
| Poke.BaseStats | dlt/extract-loads/05-dlt-poke-pipeline.py:28 | The dict is built from the items' stat pairs, keys compared as Python compares them (`True == 1`, `False == 0`). A later name equal to an earlier one overwrites its value and keeps the earlier name. It raises exactly when iteration or some item's pair fails. |
| Poke.BaseStatsTrueIsOne | dlt/extract-loads/05-dlt-poke-pipeline.py:28 | A stat named `true` followed by one named `1` gives one entry: the key `true` with the second value. |
| Poke.Shape | dlt/extract-loads/05-dlt-poke-pipeline.py:18-30 | A record is built exactly when every lookup succeeds: id, name, height, weight, the type and ability names, the stats dict and the sprite. id, name, height and weight are copied, and types and abilities are the names listed in the reply. base_stats is the dict built from `stats`. The sprite is copied when truthy and is "" otherwise. |
| Poke.Fetched | dlt/extract-loads/05-dlt-poke-pipeline.py:16-30 | A connection failure raises ConnectionError and an error status raises HttpError. Otherwise a decoded body is shaped, and an undecodable one raises ValueError. |
| Poke.Records | dlt/extract-loads/05-dlt-poke-pipeline.py:19-30 | One record per success, in order. |
| Poke.SuccessesOrdered | dlt/extract-loads/05-dlt-poke-pipeline.py:13-34 | Successes lie in the id range, in strictly increasing id order, each with the record its reply shapes to. |
| Poke.SuccessesComplete | dlt/extract-loads/05-dlt-poke-pipeline.py:15-34 | An id is yielded exactly when its request and shaping do not raise. A failing id is skipped. |
| Poke.Gen1Bound | dlt/extract-loads/05-dlt-poke-pipeline.py:13 | At most 151 records, and one exactly for each id from 1 to 151 whose request succeeds. |
| Poke.Gen1IdsIncrease | dlt/extract-loads/05-dlt-poke-pipeline.py:13-30 | When the API echoes the requested id, the records come in strictly increasing id order. |
| Poke.DetailUrlInjective | dlt/extract-loads/05-dlt-poke-pipeline.py:14 | Distinct ids are requested at distinct URLs. |
| Oulad.WithColumnShape | dlt/extract-loads/Grp2-dlt-student-pipeline.py:24 | After `df[name] = value`, every row holds the value under the name and keeps its other cells. No column is lost, and at most one is added. |
| Oulad.DataFrame.constructor | dlt/extract-loads/Grp2-dlt-student-pipeline.py:22 | A new frame holds the table that was read. |
| Oulad.DataFrame.SetColumn | dlt/extract-loads/Grp2-dlt-student-pipeline.py:24 | Updates the frame in place to the table with the column set. |
| Oulad.SourceTagOfStem | dlt/extract-loads/Grp2-dlt-student-pipeline.py:24 | A name with no '.' before its ".csv" suffix is tagged with its stem. |
| Oulad.ListedTags | dlt/extract-loads/Grp2-dlt-student-pipeline.py:10-24 | Each listed file's tag is its name without ".csv". |
| Oulad.TaggedPresent | dlt/extract-loads/Grp2-dlt-student-pipeline.py:19-24 | The tagged tables are the listed files that exist, in list order, each tagged with its own name. |
| Oulad.LoadTagged | dlt/extract-loads/Grp2-dlt-student-pipeline.py:22-24 | A new frame holds the file's table with `_source_file` set to the file's name without ".csv". |
| Oulad.LoadListed | dlt/extract-loads/Grp2-dlt-student-pipeline.py:19-27 | The file loop yields one tagged frame per listed file that exists, in list order, and prints one warning per missing file. |
| Oulad.PresentSplit | dlt/extract-loads/Grp2-dlt-student-pipeline.py:19-27 | Each name is loaded or warned about, never both. The loaded names are exactly those that exist. |
| Oulad.OuladAllFiles | dlt/extract-loads/Grp2-dlt-student-pipeline.py:7-27 | One tagged frame per listed file that exists, in list order, and one warning per missing file. A missing file never raises. |
| Oulad.AllFilesBound | dlt/extract-loads/Grp2-dlt-student-pipeline.py:10-27 | At most seven frames, and a listed file is loaded exactly when it exists. |
| Oulad.Globbed | dlt/extract-loads/Grp2-dlt-student-pipeline.py:79-80 | Globbing keeps only directory entries that match `*.csv`. |
| Oulad.GlobbedKeepsInOrder | dlt/extract-loads/Grp2-dlt-student-pipeline.py:79-80 | Every directory entry that matches `*.csv` is kept, and only those, in listing order. |
| Oulad.OuladDynamic | dlt/extract-loads/Grp2-dlt-student-pipeline.py:75-86 | One frame per globbed file, in listing order, each tagged with its name without ".csv". |
| Oulad.PerFile | dlt/extract-loads/Grp2-dlt-student-pipeline.py:29-71 | A per-file resource yields its table, untagged. A missing file raises FileNotFoundError naming the staged path. |
| Oulad.PerFileMatchesList | dlt/extract-loads/Grp2-dlt-student-pipeline.py:10-71 | The seven per-file resources read the listed files, in the same order. |
| Extract.MapUntilError | dlt/dlt-food-pipeline.py:53-61 | A generator loop yields the result of each item in order until one raises, and the run carries that error. |
| Extract.ChainConcat | dlt/extract-loads/03-dlt-xtra-meteo-ph-regions.py:52-82 | Generators run one after another until one raises. The chained run yields everything the runs before the first raising one yield, then what that run yields before raising, and it ends with that error. |
| Csv.Rows | dlt/dlt-food-pipeline.py:52-53 | DictReader yields one row per non-blank data record. |
| Csv.NonBlank | run_student_pipeline_local.py:23-27 | Every record kept is non-blank and comes from the input, and no more records are kept than there are. |
| Csv.NonBlankKeepsInOrder | run_student_pipeline_local.py:23-27 | Exactly the non-blank records are kept, in file order: the kept records are the input records at the non-blank positions, in increasing order. |
| Dicts.GetSomeIffKey | run_student_pipeline_local.py:32 | A lookup finds a value exactly when the key is present. |
| Dicts.Assign | run_student_pipeline_local.py:32 | `d[k] = v` keeps the key order and appends a new key at the end. |
| Dicts.GetAssign | run_student_pipeline_local.py:32 | After `d[k] = v`, k holds v and every other key is unchanged. |
| Dicts.FromPairsLastWins | run_student_pipeline_local.py:29-32 | A dict built by successive assignments holds the last value assigned to each key. |
| Dicts.FromPairsKeys | run_student_pipeline_local.py:29-32 | Such a dict has distinct keys, exactly the keys assigned, and no more entries than assignments. |
| Dicts.FromPairsCollision | run_student_pipeline_local.py:29-32 | Assigning the same key twice leaves fewer entries than assignments. |
| Dicts.AssignAsAppend | dlt/extract-loads/05-dlt-poke-pipeline.py:28 | Assigning a key equal to none held appends it with its value. |
| Dicts.AssignAsReplace | dlt/extract-loads/05-dlt-poke-pipeline.py:28 | Assigning a key equal to a held one replaces that item's value only, keeping its key and place. |
| Dicts.FirstKeyAsSnoc | dlt/extract-loads/05-dlt-poke-pipeline.py:28 | The first key equal to k among one more pair: unchanged if there was one, otherwise the new pair's key if it is equal. |
| Dicts.FirstKeyAsFound | dlt/extract-loads/05-dlt-poke-pipeline.py:28 | When a first equal key exists, some pair carries a key equal to k. |
| Dicts.ReferencesSnoc | dlt/extract-loads/05-dlt-poke-pipeline.py:28 | One more pair: the first equal key as above, and the last value becomes the new pair's when its key is equal. |
| Dicts.CoveredSnoc | dlt/extract-loads/05-dlt-poke-pipeline.py:28 | Every pair's key stays represented when items keep their keys and the new pair's key is held. |
| Dicts.ItemsReplace | dlt/extract-loads/05-dlt-poke-pipeline.py:28 | A pair whose key is already held keeps the dict one item per group of equal keys, with the group's first key and last value. |
| Dicts.ItemsAppend | dlt/extract-loads/05-dlt-poke-pipeline.py:28 | A pair whose key is not held yet keeps the dict one item per group of equal keys, with the group's first key and last value. |
| Dicts.FromPairsAsItems | dlt/extract-loads/05-dlt-poke-pipeline.py:28 | A dict built by successive assignments, keys compared as Python compares them, holds one item per group of equal keys. Each item has the group's first key and last value, no two items hold equal keys, and every assigned key is represented. |
| Decimal.ParseInt | dlt/extract-loads/03-dlt-wmo-codes-pipeline.py:33 | `int()` accepts exactly an optional sign followed by one or more digits. It gives the digits' value, negated after a '-'. |
| Decimal.ParseRender | dlt/extract-loads/03-dlt-wmo-codes-pipeline.py:33 | Reading back a printed natural number gives that number. |
| Decimal.ParseRenderInt | dlt/extract-loads/03-dlt-wmo-codes-pipeline.py:33 | Reading back a printed integer gives that integer. |
| Decimal.RenderInjective | dlt/extract-loads/05-dlt-poke-pipeline.py:14 | Distinct natural numbers print differently. |
| Text.ReplaceAllRemovesChar | dlt/dlt-food-pipeline.py:83 | Replacing a character by text that does not contain it removes every occurrence. |
| Text.ReplaceAllNoMatch | dlt/dlt-food-pipeline.py:83 | Text without the pattern is unchanged. |
| Text.ReplaceAllDropsSuffix | dlt/extract-loads/Grp2-dlt-student-pipeline.py:24 | Removing a suffix whose first character does not occur in the stem gives the stem. |
| Text.StripIsTrimmedSlice | dlt/extract-loads/06-dlt-laz-pipeline.py:55 | A text is the stripped form of the input exactly when it is the input with a prefix and a suffix of stripped characters removed and with no stripped character at either end. |
| Text.StripSeparatorsAndUnicodeSpaces | dlt/extract-loads/06-dlt-laz-pipeline.py:55 | `.strip()` with no argument removes the information separators 0x1C-0x1F and Unicode spaces such as the no-break and ideographic spaces. |
| Text.TrimmedUnique | dlt/extract-loads/06-dlt-laz-pipeline.py:55 | An input has only one such trimmed form. |
| Text.SplitJoin | dlt/extract-loads/03-dlt-xtra-meteo-ph-regions.py:45-50 | Joining parts that do not contain the separator and splitting again gives the parts. |

## Left out

- I/O is not modelled: downloads, `curl`/`unzip`, `open`, the network, the browser and the clock are parameters, and `print` calls are not modelled. The one exception is the OULAD missing-file warning, which is returned as a list of lines.
- The pipeline runners (`run`, `run_approach_*`, `dlt.pipeline`, `pipeline.run`) and dlt's loading, schema inference and merge semantics are not modelled. Resource names, write dispositions and primary keys are recorded as constants only.
- The retrying HTTP sessions (`Retry`, `HTTPAdapter`, backoff, timeouts) are not modelled: a reply is the outcome after any retries. Timeouts and the Playwright `wait_for_timeout` pauses are not modelled either.
- Floating point is not modelled. Latitudes and longitudes are integers in 1/10000 degree. JSON numbers are integers. Temperatures, ratings and precipitation are `real` values copied through or produced by an abstract parser.
- JSON objects are the dicts `json.loads` builds, so their keys are taken to be distinct. The model's `Obj` does not enforce this, and a repeated key, which `json.loads` collapses to its last value, is not modelled.
- Dict keys taken from JSON are compared as Python compares them for null, booleans, integers and text (`True == 1`, `False == 0`). Since JSON numbers are integers here, the float case (`1.0 == 1`) does not arise.
- Dates and times are day numbers or instants. `isoformat` rendering and the YYYY-MM-DD text of the request window are not modelled.
- `pd.read_csv` chunking, the pyarrow backend, parse errors and `chunk_rows` are not modelled: the source is the sequence of chunks the reader would produce. `pd.to_numeric` is an abstract parser from text to a number (so "1.0" and "1e3" are whole numbers when the parser says so), and `pd.to_datetime` is an abstract parser from text to a day. The `astype("Int64")` cast is modelled: it raises TypeError on a number with a fractional part.
- `Covid.ToCount`: whole numbers outside the 64-bit range, which the Int64 cast rejects, are not modelled. Every whole number becomes a count.
- `Decimal.ParseInt`: Python's `int()` also accepts surrounding whitespace and digit-separating underscores. The model accepts only an optional sign and ASCII digits.
- `Text.Lower` treats ASCII only. Unicode case mapping is not modelled.
- `Lazada.CanonicalUrl`: `urljoin` is modelled as origin + path. Dot-segment removal and query/fragment handling are not modelled.
- `Lazada.LazadaScrapedData`: which element lookups of a card fail is an input (`Failure`), and a page that times out raises as the source does. CSS selector matching is not modelled.
- `Poke.Shape`: `base_stats_json` is kept as the dict passed to `json.dumps`. The JSON text is not rendered.
- `Oulad.Globbed`: hidden-file matching follows `glob`'s rule for a leading '.'. Sorting and filesystem order come from the listing that is given.
- `Oulad.OuladAllFiles`: directory entries are assumed to have distinct names, as in a real directory.
- The chinook, mpg, btc and deploy/explore scripts and the helper scripts are outside the modelled core.

## Findings

| source | as written | input that shows it | evidently intended | confidence | as-written member | corrected member |
|---|---|---|---|---|---|---|
| dlt/dlt-food-pipeline.py:75-79 | `ast.literal_eval` is called but `ast` is never imported, so the call raises NameError. The bare `except` catches it and every review gets `replies = []`. | A row whose `replies` cell is `"[{'text': 'thanks'}]"`: the record's replies are `[]` instead of one reply. | The Python literal in the cell is decoded, with `[]` only when decoding fails. | not executed | Food.LiteralEvalAsWritten (with Food.RepliesAsWrittenAreEmpty, Food.RepliesLostAsWritten) | Food.DecodeReplies |

=== FILE: covid.dfy ===
/**
 * `covid_epidemiology` in dlt/extract-loads/09-dlt-big-covid-pipeline.py:
 * stream the epidemiology CSV in chunks, coerce the date and count columns,
 * and stop once `row_limit` rows have been yielded. The CSV reader is the
 * sequence of chunks it would produce; `pulled` counts how many of them the
 * loop asked it for.
 */
module Covid {
  import opened Wrappers
  import opened Extract

  const CsvUrl := "https://storage.googleapis.com/covid19-open-data/v3/epidemiology.csv"

  const EpidemiologyResource := Resource("covid19_epidemiology", Append, [])

  /** A cell as the CSV reader gives it (Raw or Missing) or as the coercions leave it. */
  datatype Cell = Raw(text: string) | Missing | Count(n: int) | Date(day: int)

  type Row = map<string, Cell>

  /** A DataFrame chunk: its column names and its rows. */
  datatype Chunk = Chunk(columns: set<string>, rows: seq<Row>)

  /**
   * The library parsers the coercions call. None stands for text that
   * `errors="coerce"` turns into a null.
   */
  datatype Parsers = Parsers(
    date: string -> Option<int>,     // pd.to_datetime(...).dt.date, as a day number
    number: string -> Option<real>)  // pd.to_numeric(...)

  /** Lines 70-71: the eight count columns. */
  const CountColumns: seq<string> := [
    "new_confirmed", "new_deceased", "new_recovered", "new_tested",
    "cumulative_confirmed", "cumulative_deceased", "cumulative_recovered", "cumulative_tested"]

  /** A number with no fractional part. */
  predicate IsWhole(x: real) {
    x.Floor as real == x
  }

  /**
   * Line 74 on one cell: `pd.to_numeric(errors="coerce")` turns text that is
   * not a number into a null, and `.astype("Int64")` keeps a whole number as
   * an integer but raises TypeError on a number with a fractional part.
   */
  function ToCount(c: Cell, number: string -> Option<real>): (r: Result<Cell, Error>)
    ensures r.Err? ==> r.error == TypeError
    ensures r.Ok? ==> r.value.Count? || r.value.Missing?
    ensures c.Raw? ==> (r == Ok(Missing) <==> number(c.text).None?)
    ensures c.Raw? ==> (r.Err? <==> number(c.text).Some? && !IsWhole(number(c.text).value))
    ensures c.Raw? && r.Ok? && r.value.Count? ==> number(c.text) == Some(r.value.n as real)
    ensures c.Count? || c.Missing? ==> r == Ok(if c.Count? then c else Missing)
  {
    match c
    case Raw(s) =>
      (match number(s)
       case None => Ok(Missing)
       case Some(x) => if IsWhole(x) then Ok(Count(x.Floor)) else Err(TypeError))
    case Count(_) => Ok(c)
    case _ => Ok(Missing)
  }

  /** `pd.to_datetime(errors="coerce").dt.date` on one cell: unparsable text becomes null. */
  function ToDate(c: Cell, date: string -> Option<int>): (r: Cell)
    ensures r.Date? || r.Missing?
    ensures c.Raw? ==> (r.Date? <==> date(c.text).Some?)
    ensures c.Raw? && r.Date? ==> date(c.text) == Some(r.day)
  {
    match c
    case Raw(s) => (match date(s) case Some(d) => Date(d) case None => Missing)
    case Date(_) => c
    case _ => Missing
  }

  /** What lines 65-74 do to one cell of column `col` when the cast does not raise. */
  function CoerceCell(col: string, c: Cell, ps: Parsers): Cell {
    if col == "date" then ToDate(c, ps.date)
    else if col in CountColumns then
      (match ToCount(c, ps.number) case Ok(x) => x case Err(_) => c)
    else c
  }

  /** Column `col` holds a cell that makes the cast to Int64 raise. */
  predicate ColumnRejected(chunk: Chunk, col: string, number: string -> Option<real>) {
    exists i :: 0 <= i < |chunk.rows| && col in chunk.rows[i] && ToCount(chunk.rows[i][col], number).Err?
  }

  /** Some count column of the chunk holds such a cell, so cleaning the chunk raises. */
  predicate Rejected(chunk: Chunk, number: string -> Option<real>) {
    exists col :: col in CountColumns && col in chunk.columns && ColumnRejected(chunk, col, number)
  }

  /** Reference definition of the coerced chunk: every cell of an existing column coerced per its column. */
  function Coerced(chunk: Chunk, ps: Parsers): Chunk {
    Chunk(chunk.columns, seq(|chunk.rows|, i requires 0 <= i < |chunk.rows| =>
      map k | k in chunk.rows[i] ::
        if k in chunk.columns then CoerceCell(k, chunk.rows[i][k], ps) else chunk.rows[i][k]))
  }

  /** Reference definition of lines 65-74 on one chunk: TypeError when a count column is rejected, else the coerced chunk. */
  function Cleaned(chunk: Chunk, ps: Parsers): Result<Chunk, Error> {
    if Rejected(chunk, ps.number) then Err(TypeError) else Ok(Coerced(chunk, ps))
  }

  /** `chunk[col] = pd.to_datetime(...)` or `pd.to_numeric(...)`, as `col` calls for. */
  function CoerceColumn(chunk: Chunk, col: string, ps: Parsers): Chunk {
    Chunk(chunk.columns, seq(|chunk.rows|, i requires 0 <= i < |chunk.rows| =>
      if col in chunk.rows[i] then chunk.rows[i][col := CoerceCell(col, chunk.rows[i][col], ps)] else chunk.rows[i]))
  }

  /** `c` is `orig` with the columns named in `cols` (and present in the chunk) coerced. */
  ghost predicate CoercedOn(orig: Chunk, c: Chunk, cols: seq<string>, ps: Parsers) {
    && c.columns == orig.columns
    && |c.rows| == |orig.rows|
    && forall i :: 0 <= i < |orig.rows| ==>
      && c.rows[i].Keys == orig.rows[i].Keys
      && forall k :: k in orig.rows[i] ==>
        c.rows[i][k] == if k in orig.columns && k in cols then CoerceCell(k, orig.rows[i][k], ps) else orig.rows[i][k]
  }

  /** Coercing one more column extends what has been coerced by that column. */
  lemma CoerceColumnStep(orig: Chunk, c: Chunk, cols: seq<string>, col: string, ps: Parsers)
    requires CoercedOn(orig, c, cols, ps) && col !in cols
    ensures CoercedOn(orig, if col in c.columns then CoerceColumn(c, col, ps) else c, cols + [col], ps)
  {
    var c' := if col in c.columns then CoerceColumn(c, col, ps) else c;
    forall i | 0 <= i < |orig.rows|
      ensures c'.rows[i].Keys == orig.rows[i].Keys
      ensures forall k :: k in orig.rows[i] ==>
        c'.rows[i][k] == if k in orig.columns && k in cols + [col] then CoerceCell(k, orig.rows[i][k], ps) else orig.rows[i][k]
    {
      forall k | k in orig.rows[i]
        ensures c'.rows[i][k] == if k in orig.columns && k in cols + [col] then CoerceCell(k, orig.rows[i][k], ps) else orig.rows[i][k]
      {
        assert k in cols + [col] <==> k in cols || k == col;
      }
    }
  }

  /** A column not coerced yet is rejected in the partly coerced chunk exactly when it is in the original. */
  lemma UncoercedColumn(orig: Chunk, c: Chunk, cols: seq<string>, col: string, ps: Parsers)
    requires CoercedOn(orig, c, cols, ps) && col !in cols
    ensures ColumnRejected(c, col, ps.number) <==> ColumnRejected(orig, col, ps.number)
  {
    if ColumnRejected(c, col, ps.number) {
      var i :| 0 <= i < |c.rows| && col in c.rows[i] && ToCount(c.rows[i][col], ps.number).Err?;
      assert orig.rows[i][col] == c.rows[i][col];
    }
    if ColumnRejected(orig, col, ps.number) {
      var i :| 0 <= i < |orig.rows| && col in orig.rows[i] && ToCount(orig.rows[i][col], ps.number).Err?;
      assert orig.rows[i][col] == c.rows[i][col];
    }
  }

  /** Once the date and every count column are coerced, the chunk is the coerced chunk. */
  lemma CoercedOnAll(orig: Chunk, c: Chunk, ps: Parsers)
    requires CoercedOn(orig, c, ["date"] + CountColumns, ps)
    ensures c == Coerced(orig, ps)
  {
    var coerced := Coerced(orig, ps);
    forall i | 0 <= i < |c.rows| ensures c.rows[i] == coerced.rows[i] {
      forall k | k in orig.rows[i] ensures c.rows[i][k] == coerced.rows[i][k] {
        assert k !in ["date"] + CountColumns ==> CoerceCell(k, orig.rows[i][k], ps) == orig.rows[i][k];
      }
    }
  }

  /** No count column among the first `j` that the chunk has is rejected. */
  predicate AcceptedBefore(chunk: Chunk, j: nat, number: string -> Option<real>)
    requires j <= |CountColumns|
  {
    forall k :: 0 <= k < j && CountColumns[k] in chunk.columns ==> !ColumnRejected(chunk, CountColumns[k], number)
  }

  /** One more count column that is not rejected extends the accepted prefix. */
  lemma AcceptedStep(chunk: Chunk, j: nat, number: string -> Option<real>)
    requires j < |CountColumns| && AcceptedBefore(chunk, j, number)
    requires CountColumns[j] in chunk.columns ==> !ColumnRejected(chunk, CountColumns[j], number)
    ensures AcceptedBefore(chunk, j + 1, number)
  {
  }

  /** A chunk none of whose count columns is rejected is not rejected. */
  lemma AcceptedAll(chunk: Chunk, number: string -> Option<real>)
    requires AcceptedBefore(chunk, |CountColumns|, number)
    ensures !Rejected(chunk, number)
  {
    forall col | col in CountColumns && col in chunk.columns ensures !ColumnRejected(chunk, col, number) {
      var k :| 0 <= k < |CountColumns| && CountColumns[k] == col;
    }
  }

  /**
   * Lines 65-74: convert the date column, then each count column the chunk
   * has; the first count column whose cast is rejected raises TypeError.
   */
  method CleanChunk(chunk: Chunk, ps: Parsers) returns (r: Result<Chunk, Error>)
    ensures r == Cleaned(chunk, ps)
  {
    var c := chunk;
    CoerceColumnStep(chunk, c, [], "date", ps);
    if "date" in c.columns {
      c := CoerceColumn(c, "date", ps);
    }
    assert [] + ["date"] == ["date"] + CountColumns[..0];
    for j := 0 to |CountColumns|
      invariant CoercedOn(chunk, c, ["date"] + CountColumns[..j], ps)
      invariant AcceptedBefore(chunk, j, ps.number)
    {
      var col := CountColumns[j];
      UncoercedColumn(chunk, c, ["date"] + CountColumns[..j], col, ps);
      if col in c.columns && ColumnRejected(c, col, ps.number) {
        assert Rejected(chunk, ps.number);
        return Err(TypeError);
      }
      AcceptedStep(chunk, j, ps.number);
      CoerceColumnStep(chunk, c, ["date"] + CountColumns[..j], col, ps);
      assert ["date"] + CountColumns[..j + 1] == ["date"] + CountColumns[..j] + [col];
      if col in c.columns {
        c := CoerceColumn(c, col, ps);
      }
    }
    assert ["date"] + CountColumns[..|CountColumns|] == ["date"] + CountColumns;
    AcceptedAll(chunk, ps.number);
    CoercedOnAll(chunk, c, ps);
    return Ok(c);
  }

  /** The cleaned stream the loop sees: each chunk cleaned in turn, until one raises. */
  function CleanRun(source: seq<Chunk>, ps: Parsers): Run<Chunk> {
    MapUntilError(source, chunk => Cleaned(chunk, ps))
  }

  /**
   * The cleaned stream holds one coerced chunk per source chunk, with the same
   * columns and rows, up to the first rejected chunk, which raises TypeError;
   * it is complete exactly when no chunk is rejected.
   */
  lemma CleanRunShape(source: seq<Chunk>, ps: Parsers)
    ensures var r := CleanRun(source, ps);
      && |r.yielded| <= |source|
      && (forall i :: 0 <= i < |r.yielded| ==>
            && !Rejected(source[i], ps.number) && r.yielded[i] == Coerced(source[i], ps)
            && r.yielded[i].columns == source[i].columns && |r.yielded[i].rows| == |source[i].rows|)
      && (r.raised.None? <==> forall i :: 0 <= i < |source| ==> !Rejected(source[i], ps.number))
      && (r.raised.None? ==> |r.yielded| == |source|)
      && (r.raised.Some? ==> r.raised.value == TypeError && Rejected(source[|r.yielded|], ps.number))
  {
  }

  /** The rows of a sequence of chunks, concatenated in order. */
  function AllRows(cs: seq<Chunk>): seq<Row>
    decreases |cs|
  {
    if cs == [] then [] else cs[0].rows + AllRows(cs[1..])
  }

  lemma {:induction false} AllRowsAppend(a: seq<Chunk>, b: seq<Chunk>)
    ensures AllRows(a + b) == AllRows(a) + AllRows(b)
    decreases |a|
  {
    if a != [] {
      assert (a + b)[0] == a[0];
      assert (a + b)[1..] == a[1..] + b;
      AllRowsAppend(a[1..], b);
    } else {
      assert a + b == b;
    }
  }

  /** `chunk.iloc[:n]`. */
  function Trim(c: Chunk, n: nat): Chunk
    requires n <= |c.rows|
  {
    Chunk(c.columns, c.rows[..n])
  }

  /**
   * Reference definition of the limited stream: whole chunks while they fit
   * under the limit, then the chunk that reaches it cut to the rows still
   * allowed, then nothing.
   */
  function TakeRows(cs: seq<Chunk>, n: int): seq<Chunk>
    decreases |cs|
  {
    if cs == [] || n <= 0 then []
    else if |cs[0].rows| >= n then [Trim(cs[0], n)]
    else [cs[0]] + TakeRows(cs[1..], n - |cs[0].rows|)
  }

  /** What the generator yields from the cleaned chunks for a given `row_limit`. */
  function Limited(cs: seq<Chunk>, rowLimit: Option<int>): seq<Chunk> {
    match rowLimit
    case None => cs
    case Some(n) => TakeRows(cs, n)
  }

  /**
   * Whether the loop gets as far as the chunk after `cs`: with no limit it
   * always does; a non-positive limit stops it after the first chunk; a
   * positive one stops it once the limit is reached.
   */
  predicate ReadsPast(cs: seq<Chunk>, rowLimit: Option<int>) {
    match rowLimit
    case None => true
    case Some(n) => if n <= 0 then cs == [] else |AllRows(cs)| < n
  }

  /**
   * Reference definition of the generator's run: the limited cleaned chunks,
   * and the cleaning error when the loop reads as far as the chunk that raised.
   */
  function LimitedRun(run: Run<Chunk>, rowLimit: Option<int>): Run<Chunk> {
    Run(Limited(run.yielded, rowLimit), if ReadsPast(run.yielded, rowLimit) then run.raised else None)
  }

  /** Chunks that stay under the limit pass untouched. */
  lemma {:induction false} TakeRowsUnder(cs: seq<Chunk>, n: int)
    requires |AllRows(cs)| < n
    ensures TakeRows(cs, n) == cs
    decreases |cs|
  {
    if cs != [] {
      TakeRowsUnder(cs[1..], n - |cs[0].rows|);
    }
  }

  /** The chunk at which the limit is reached is the last one, cut to the rows still allowed. */
  lemma {:induction false} TakeRowsReach(cs: seq<Chunk>, k: nat, n: int)
    requires k < |cs|
    requires |AllRows(cs[..k])| < n <= |AllRows(cs[..k + 1])|
    ensures n - |AllRows(cs[..k])| <= |cs[k].rows|
    ensures TakeRows(cs, n) == cs[..k] + [Trim(cs[k], n - |AllRows(cs[..k])|)]
    decreases k
  {
    AllRowsAppend(cs[..k], [cs[k]]);
    assert cs[..k + 1] == cs[..k] + [cs[k]];
    assert AllRows([cs[k]]) == cs[k].rows;
    if k > 0 {
      assert cs[..k] == [cs[0]] + cs[1..][..k - 1];
      assert cs[..k + 1] == [cs[0]] + cs[1..][..k];
      TakeRowsReach(cs[1..], k - 1, n - |cs[0].rows|);
    }
  }

  /**
   * With a positive limit, the yielded rows are exactly the first
   * min(limit, total) source rows, in order.
   */
  lemma {:induction false} TakeRowsIsRowPrefix(cs: seq<Chunk>, n: int)
    requires n > 0
    ensures var total := |AllRows(cs)|;
      AllRows(TakeRows(cs, n)) == AllRows(cs)[..if n < total then n else total]
    decreases |cs|
  {
    if cs != [] {
      if |cs[0].rows| >= n {
        assert AllRows(TakeRows(cs, n)) == cs[0].rows[..n] + AllRows([]);
      } else {
        TakeRowsIsRowPrefix(cs[1..], n - |cs[0].rows|);
        assert TakeRows(cs, n) == [cs[0]] + TakeRows(cs[1..], n - |cs[0].rows|);
      }
    }
  }

  /**
   * Only the last yielded chunk can differ from its source chunk, and it keeps
   * the source's columns and a prefix of its rows.
   */
  lemma {:induction false} TakeRowsShape(cs: seq<Chunk>, n: int)
    ensures var r := TakeRows(cs, n);
      && |r| <= |cs|
      && (forall i :: 0 <= i < |r| - 1 ==> r[i] == cs[i])
      && (|r| > 0 ==> r[|r| - 1].columns == cs[|r| - 1].columns
                      && r[|r| - 1].rows <= cs[|r| - 1].rows)
    decreases |cs|
  {
    if cs != [] && n > 0 && |cs[0].rows| < n {
      TakeRowsShape(cs[1..], n - |cs[0].rows|);
    }
  }

  /** Every prefix of `ys`, `ys` itself included, stays under `n` rows. */
  ghost predicate Under(ys: seq<Chunk>, n: int) {
    forall k :: 0 <= k <= |ys| ==> |AllRows(ys[..k])| < n
  }

  /** `chunk.iloc[:len(chunk)]` is the chunk itself. */
  lemma TrimAll(c: Chunk)
    ensures Trim(c, |c.rows|) == c
  {
    assert c.rows[..|c.rows|] == c.rows;
  }

  /** A chunk that keeps the running total under the limit keeps every prefix under it. */
  lemma UnderSnoc(ys: seq<Chunk>, c: Chunk, n: int)
    requires Under(ys, n) && |AllRows(ys)| + |c.rows| < n
    ensures Under(ys + [c], n)
    ensures |AllRows(ys + [c])| == |AllRows(ys)| + |c.rows|
  {
    AllRowsAppend(ys, [c]);
    assert AllRows([c]) == c.rows;
    var zs := ys + [c];
    forall k | 0 <= k <= |zs| ensures |AllRows(zs[..k])| < n {
      if k <= |ys| {
        assert zs[..k] == ys[..k];
      } else {
        assert zs[..k] == zs;
      }
    }
  }

  /** A chunk yielded whole adds its rows to the running total, and keeps a limited stream under its limit. */
  lemma KeepStep(ys: seq<Chunk>, c: Chunk, rowLimit: Option<int>)
    requires rowLimit.Some? ==> Under(ys, rowLimit.value) && |AllRows(ys)| + |c.rows| < rowLimit.value
    ensures |AllRows(ys + [c])| == |AllRows(ys)| + |c.rows|
    ensures rowLimit.Some? ==> Under(ys + [c], rowLimit.value)
  {
    if rowLimit.Some? {
      UnderSnoc(ys, c, rowLimit.value);
    } else {
      AllRowsAppend(ys, [c]);
      assert AllRows([c]) == c.rows;
    }
  }

  /** A prefix of the chunks holds no more rows than all of them. */
  lemma PrefixRows(cs: seq<Chunk>, p: nat)
    requires p <= |cs|
    ensures |AllRows(cs[..p])| <= |AllRows(cs)|
  {
    AllRowsAppend(cs[..p], cs[p..]);
    assert cs[..p] + cs[p..] == cs;
  }

  /**
   * The chunk that reaches the limit `n` ends the stream: cut to the rows
   * still allowed, it completes the limited stream with exactly `n` rows, and
   * every earlier prefix stays under the limit.
   */
  lemma ReachFinish(cs: seq<Chunk>, p: nat, n: int, e: Option<Error>)
    requires 0 < p <= |cs| && Under(cs[..p - 1], n)
    requires n <= |AllRows(cs[..p - 1])| + |cs[p - 1].rows|
    ensures var m := n - |AllRows(cs[..p - 1])|;
      && 0 < m <= |cs[p - 1].rows|
      && var ys := cs[..p - 1] + [Trim(cs[p - 1], m)];
      && TakeRows(cs, n) == ys
      && |AllRows(ys)| == n
      && forall k :: 0 <= k < p ==> |AllRows(ys[..k])| < n
    ensures LimitedRun(Run(cs, e), Some(n)) == Run(TakeRows(cs, n), None)
  {
    var before := cs[..p - 1];
    assert before[..|before|] == before;
    AllRowsAppend(before, [cs[p - 1]]);
    assert AllRows([cs[p - 1]]) == cs[p - 1].rows;
    assert cs[..p] == before + [cs[p - 1]];
    TakeRowsReach(cs, p - 1, n);
    PrefixRows(cs, p);
    var m := n - |AllRows(before)|;
    var last := Trim(cs[p - 1], m);
    var ys := before + [last];
    AllRowsAppend(before, [last]);
    assert AllRows([last]) == last.rows;
    forall k | 0 <= k < p ensures |AllRows(ys[..k])| < n {
      assert ys[..k] == before[..k];
    }
  }

  /**
   * The generator's exit at the limit, in the generator's terms: the chunks
   * yielded before the one that reaches `n`, then that chunk cut only when it
   * holds more rows than are still allowed, are the whole limited run.
   */
  lemma ReachExit(run: Run<Chunk>, p: nat, n: int, ys: seq<Chunk>)
    requires 0 < p <= |run.yielded| && Under(run.yielded[..p - 1], n)
    requires n <= |AllRows(run.yielded[..p - 1])| + |run.yielded[p - 1].rows|
    requires var m := n - |AllRows(run.yielded[..p - 1])|;
      && m > 0
      && ys == run.yielded[..p - 1]
               + [if |run.yielded[p - 1].rows| > m then Trim(run.yielded[p - 1], m) else run.yielded[p - 1]]
    ensures Run(ys, None) == LimitedRun(run, Some(n))
    ensures |ys| == p && |AllRows(ys)| == n
    ensures forall k :: 0 <= k < |ys| ==> |AllRows(ys[..k])| < n
  {
    var cs := run.yielded;
    ReachFinish(cs, p, n, run.raised);
    var m := n - |AllRows(cs[..p - 1])|;
    if |cs[p - 1].rows| <= m {
      TrimAll(cs[p - 1]);
    }
    assert run == Run(cs, run.raised);
  }

  /** The run ends with a cleaning error before the limit is reached: it is yielded whole, with the error. */
  lemma ExitOnError(cs: seq<Chunk>, e: Error, rowLimit: Option<int>)
    requires rowLimit.Some? && rowLimit.value <= 0 ==> cs == []
    requires rowLimit.Some? && rowLimit.value > 0 ==> Under(cs, rowLimit.value)
    ensures LimitedRun(Run(cs, Some(e)), rowLimit) == Run(cs, Some(e))
  {
    if rowLimit.Some? && rowLimit.value > 0 {
      assert cs[..|cs|] == cs;
      TakeRowsUnder(cs, rowLimit.value);
    }
  }

  /** The source runs out before the limit is reached: every cleaned chunk is yielded. */
  lemma ExitAtEnd(cs: seq<Chunk>, rowLimit: Option<int>)
    requires rowLimit.Some? && rowLimit.value <= 0 ==> cs == []
    requires rowLimit.Some? && rowLimit.value > 0 ==> Under(cs, rowLimit.value)
    ensures LimitedRun(Run(cs, None), rowLimit) == Run(cs, None)
  {
    if rowLimit.Some? && rowLimit.value > 0 {
      assert cs[..|cs|] == cs;
      TakeRowsUnder(cs, rowLimit.value);
    }
  }

  /**
   * One step of the cleaned stream: a source chunk that cleans extends the
   * stream by its cleaned form; the first one that is rejected ends it with
   * its error.
   */
  lemma CleanStep(source: seq<Chunk>, ps: Parsers, i: nat)
    requires i < |source| && i <= |CleanRun(source, ps).yielded|
    ensures var r := CleanRun(source, ps);
      var c := Cleaned(source[i], ps);
      && (c.Ok? ==> i < |r.yielded| && r.yielded[..i + 1] == r.yielded[..i] + [c.value])
      && (c.Err? ==> i == |r.yielded| && r.raised == Some(c.error) && r.yielded[..i] == r.yielded)
  {
    var r := CleanRun(source, ps);
    var c := Cleaned(source[i], ps);
    if c.Ok? {
      assert r.yielded[..i + 1] == r.yielded[..i] + [r.yielded[i]];
    }
  }

  /** A non-positive limit stops the loop at the first chunk that cleans: nothing is yielded and nothing raised. */
  lemma ExitNonPositive(run: Run<Chunk>, n: int)
    requires n <= 0 && |run.yielded| > 0
    ensures LimitedRun(run, Some(n)) == Run([], None)
  {
  }

  /**
   * Lines 47-92. `yielded` is what the generator yields, `raised` the error
   * that ended it, and `pulled` how many chunks it took from the reader.
   */
  method CovidEpidemiology(source: seq<Chunk>, rowLimit: Option<int>, ps: Parsers)
    returns (yielded: seq<Chunk>, raised: Option<Error>, pulled: nat)
    ensures Run(yielded, raised) == LimitedRun(CleanRun(source, ps), rowLimit)
    ensures pulled <= |source|
    ensures rowLimit.None? ==> pulled == |yielded| + (if raised.Some? then 1 else 0)
    ensures rowLimit.Some? && rowLimit.value <= 0 ==> yielded == [] && pulled == if |source| == 0 then 0 else 1
    ensures rowLimit.Some? && rowLimit.value > 0 ==>
      && pulled == |yielded| + (if raised.Some? then 1 else 0)
      && (pulled < |source| && raised.None? ==> |AllRows(yielded)| == rowLimit.value)
      && forall k :: 0 <= k < |yielded| ==> |AllRows(yielded[..k])| < rowLimit.value
  {
    ghost var R := CleanRun(source, ps);
    ghost var C := R.yielded;
    var rowsEmitted := 0;
    yielded, raised, pulled := [], None, 0;
    while pulled < |source|
      invariant pulled <= |C|
      invariant yielded == C[..pulled]
      invariant rowsEmitted == |AllRows(yielded)|
      invariant rowLimit.Some? && rowLimit.value <= 0 ==> pulled == 0
      invariant rowLimit.Some? && pulled > 0 ==> rowsEmitted < rowLimit.value
      invariant rowLimit.Some? && rowLimit.value > 0 ==> Under(yielded, rowLimit.value)
    {
      var cleaned := CleanChunk(source[pulled], ps);
      CleanStep(source, ps, pulled);
      ghost var before := yielded;
      pulled := pulled + 1;
      if cleaned.Err? {
        raised := Some(cleaned.error);
        ExitOnError(C, cleaned.error, rowLimit);
        return;
      }
      var chunk := cleaned.value;
      ghost var whole := chunk;
      assert C[..pulled] == before + [whole];
      if rowLimit.Some? {
        var remaining := rowLimit.value - rowsEmitted;
        if remaining <= 0 {
          ExitNonPositive(R, rowLimit.value);
          return;
        }
        if |chunk.rows| > remaining {
          chunk := Trim(chunk, remaining);
        }
      }
      rowsEmitted := rowsEmitted + |chunk.rows|;
      yielded := yielded + [chunk];
      if rowLimit.Some? && rowsEmitted >= rowLimit.value {
        assert whole == C[pulled - 1] && before == C[..pulled - 1];
        ReachExit(R, pulled, rowLimit.value, yielded);
        return;
      }
      assert chunk == whole;
      KeepStep(before, chunk, rowLimit);
    }
    assert C[..pulled] == C;
    ExitAtEnd(C, rowLimit);
  }
}

=== FILE: csv.dfy ===
/**
 * `csv.DictReader` over a file that `csv.reader` has already split into
 * records: the first record names the fields, blank records are skipped, a
 * short record fills its missing fields with None, and a long record's extra
 * values are kept apart (under the key None in Python).
 */
module Csv {
  import opened Wrappers
  import opened Dicts
  import opened Filters

  /** A delimited text file as `csv.reader` splits it into records. */
  datatype CsvFile = CsvFile(records: seq<seq<string>>)

  /** A DictReader row: field name to value, None where the record was short. */
  type Row = Dict<string, Option<string>>

  /** `reader.fieldnames`: the first record, or None for an empty file. */
  function FieldNames(f: CsvFile): Option<seq<string>> {
    if |f.records| == 0 then None else Some(f.records[0])
  }

  /** The records after the header, with the blank ones (`[]`) skipped. */
  function DataRecords(f: CsvFile): seq<seq<string>> {
    if |f.records| == 0 then [] else NonBlank(f.records[1..])
  }

  /** A record that holds at least one value. */
  predicate NonBlankRecord(rec: seq<string>) {
    rec != []
  }

  /** The records DictReader does not skip: every non-blank one, in file order. */
  function NonBlank(rs: seq<seq<string>>): (r: seq<seq<string>>)
    ensures |r| <= |rs|
    ensures forall i :: 0 <= i < |r| ==> r[i] != [] && r[i] in rs
    decreases |rs|
  {
    if rs == [] then []
    else if rs[|rs| - 1] == [] then NonBlank(rs[..|rs| - 1])
    else NonBlank(rs[..|rs| - 1]) + [rs[|rs| - 1]]
  }

  /** DictReader keeps every non-blank record, and only those, in file order. */
  lemma {:induction false} NonBlankKeepsInOrder(rs: seq<seq<string>>)
    ensures FilterOf(rs, NonBlankRecord, NonBlank(rs))
    decreases |rs|
  {
    if rs != [] {
      var init := rs[..|rs| - 1];
      var last := rs[|rs| - 1];
      NonBlankKeepsInOrder(init);
      FilterOfSnoc(init, last, NonBlankRecord, NonBlank(init));
      assert init + [last] == rs;
    }
  }

  /** The (name, value) assignments DictReader makes for one record, in order. */
  function Pairs(names: seq<string>, record: seq<string>): seq<(string, Option<string>)> {
    seq(|names|, i requires 0 <= i < |names| => (names[i], if i < |record| then Some(record[i]) else None))
  }

  /** The dict DictReader yields for one record, leaving out the extra values of a long record. */
  function DictRow(names: seq<string>, record: seq<string>): Row {
    FromPairs(Pairs(names, record))
  }

  /** A record with more values than there are field names: DictReader stores the surplus under the key None. */
  predicate HasRestKey(names: seq<string>, record: seq<string>) {
    |record| > |names|
  }

  /** Every row DictReader yields for the file, in file order. */
  function Rows(f: CsvFile): (rows: seq<Row>)
    ensures |rows| == |DataRecords(f)|
  {
    match FieldNames(f)
    case None => []
    case Some(names) =>
      var recs := DataRecords(f);
      seq(|recs|, i requires 0 <= i < |recs| => DictRow(names, recs[i]))
  }
}

=== FILE: decimal.dfy ===
/**
 * Python's `int(s)` and `str(n)` on decimal text, restricted to an optional
 * sign followed by ASCII digits (no surrounding whitespace, no underscores).
 */
module Decimal {
  import opened Wrappers

  predicate IsDigit(c: char) {
    '0' <= c <= '9'
  }

  predicate AllDigits(s: string) {
    forall i :: 0 <= i < |s| ==> IsDigit(s[i])
  }

  function DigitValue(c: char): nat
    requires IsDigit(c)
  {
    c as int - '0' as int
  }

  function DigitChar(d: nat): (c: char)
    requires d < 10
    ensures IsDigit(c) && DigitValue(c) == d
  {
    ('0' as int + d) as char
  }

  /** The number a non-empty run of digits denotes, most significant digit first. */
  function Value(s: string): nat
    requires AllDigits(s)
    decreases |s|
  {
    if s == [] then 0 else Value(s[..|s| - 1]) * 10 + DigitValue(s[|s| - 1])
  }

  /** `int(s)` for unsigned digit text; None stands for the ValueError Python raises. */
  function ParseNat(s: string): Option<nat> {
    if |s| > 0 && AllDigits(s) then Some(Value(s)) else None
  }

  /** Whether `s` starts with a sign character. */
  predicate Signed(s: string) {
    |s| > 0 && (s[0] == '-' || s[0] == '+')
  }

  /** `s` without its sign character, if it has one. */
  function Unsigned(s: string): string {
    if Signed(s) then s[1..] else s
  }

  /**
   * `int(s)`: accepts exactly an optional '+' or '-' sign followed by one or
   * more digits, and gives the digits' value, negated after a '-'.
   */
  function ParseInt(s: string): (r: Option<int>)
    ensures r.Some? <==> |Unsigned(s)| > 0 && AllDigits(Unsigned(s))
    ensures r.Some? ==> r.value == if s[0] == '-' then -(Value(Unsigned(s)) as int) else Value(Unsigned(s))
  {
    if |s| > 0 && s[0] == '-' then
      match ParseNat(s[1..])
      case Some(n) => Some(-(n as int))
      case None => None
    else if |s| > 0 && s[0] == '+' then
      match ParseNat(s[1..])
      case Some(n) => Some(n)
      case None => None
    else
      match ParseNat(s)
      case Some(n) => Some(n)
      case None => None
  }

  /** `str(n)` for a natural number: shortest digit text, no leading zeros. */
  function Render(n: nat): (r: string)
    ensures |r| > 0 && AllDigits(r)
    decreases n
  {
    if n < 10 then [DigitChar(n)] else Render(n / 10) + [DigitChar(n % 10)]
  }

  /** `str(i)` for any integer. */
  function RenderInt(i: int): string {
    if i < 0 then "-" + Render(-i) else Render(i)
  }

  /** Reading back what `Render` wrote gives the number. */
  lemma {:induction false} ParseRender(n: nat)
    ensures ParseNat(Render(n)) == Some(n)
    decreases n
  {
    var s := Render(n);
    if n < 10 {
      assert s[..0] == [];
    } else {
      assert s[..|s| - 1] == Render(n / 10);
      ParseRender(n / 10);
      assert Value(s) == Value(Render(n / 10)) * 10 + n % 10;
    }
  }

  /** Reading back what `RenderInt` wrote gives the integer. */
  lemma ParseRenderInt(i: int)
    ensures ParseInt(RenderInt(i)) == Some(i)
  {
    if i < 0 {
      ParseRender(-i);
      assert RenderInt(i)[1..] == Render(-i);
    } else {
      ParseRender(i);
      assert RenderInt(i)[0] != '-' && RenderInt(i)[0] != '+' by {
        assert IsDigit(Render(i)[0]);
      }
    }
  }

  /** Distinct numbers have distinct renderings. */
  lemma RenderInjective(a: nat, b: nat)
    ensures Render(a) == Render(b) ==> a == b
  {
    ParseRender(a);
    ParseRender(b);
  }

  /** Text that is exactly how Python prints the integer it parses to. */
  predicate IsCanonical(s: string) {
    ParseInt(s).Some? && RenderInt(ParseInt(s).value) == s
  }
}

=== FILE: dicts.dfy ===
/**
 * Python dictionaries as the loaders use them: items kept in insertion order,
 * `d[k] = v` overwriting an existing key in its place and appending a new one.
 */
module Dicts {
  import opened Wrappers

  /** The items of a dict, in insertion order. */
  type Dict<K, V> = seq<(K, V)>

  function Keys<K, V>(d: Dict<K, V>): (ks: seq<K>)
    ensures |ks| == |d|
    ensures forall i :: 0 <= i < |d| ==> ks[i] == d[i].0
  {
    seq(|d|, i requires 0 <= i < |d| => d[i].0)
  }

  predicate Distinct<T(==)>(xs: seq<T>) {
    forall i, j :: 0 <= i < j < |xs| ==> xs[i] != xs[j]
  }

  /** The keys of a dict with one more pair in front. */
  lemma KeysCons<K, V>(p: (K, V), d: Dict<K, V>)
    ensures Keys([p] + d) == [p.0] + Keys(d)
  {
  }

  /** `d.get(k)`: the value stored under `k`, if any. */
  function Get<K(==,!new), V>(d: Dict<K, V>, k: K): Option<V>
    decreases |d|
  {
    if d == [] then None
    else if d[0].0 == k then Some(d[0].1)
    else Get(d[1..], k)
  }

  lemma {:induction false} GetSomeIffKey<K(!new), V>(d: Dict<K, V>, k: K)
    ensures Get(d, k).Some? <==> k in Keys(d)
    decreases |d|
  {
    if d != [] {
      GetSomeIffKey(d[1..], k);
      assert Keys(d) == [d[0].0] + Keys(d[1..]);
    }
  }

  /** `d[k] = v`. */
  function Assign<K(==,!new), V>(d: Dict<K, V>, k: K, v: V): (r: Dict<K, V>)
    ensures k in Keys(d) ==> Keys(r) == Keys(d)
    ensures k !in Keys(d) ==> Keys(r) == Keys(d) + [k]
    decreases |d|
  {
    if d == [] then [(k, v)]
    else if d[0].0 == k then [(k, v)] + d[1..]
    else
      var rest := Assign(d[1..], k, v);
      KeysCons(d[0], d[1..]);
      KeysCons(d[0], rest);
      [d[0]] + rest
  }

  /** After `d[k] = v`, `k` holds `v` and every other key keeps its value. */
  lemma {:induction false} GetAssign<K(!new), V>(d: Dict<K, V>, k: K, v: V, k': K)
    ensures Get(Assign(d, k, v), k') == if k' == k then Some(v) else Get(d, k')
    decreases |d|
  {
    if d != [] && d[0].0 != k {
      GetAssign(d[1..], k, v, k');
    }
  }

  /** The dict built by assigning the pairs in order (`d = {}; for k, v in ps: d[k] = v`). */
  function FromPairs<K(==,!new), V>(ps: seq<(K, V)>): Dict<K, V>
    decreases |ps|
  {
    if ps == [] then []
    else Assign(FromPairs(ps[..|ps| - 1]), ps[|ps| - 1].0, ps[|ps| - 1].1)
  }

  /** Reference definition: the value of the last pair carrying key `k`. */
  function LastValue<K(==,!new), V>(ps: seq<(K, V)>, k: K): Option<V>
    decreases |ps|
  {
    if ps == [] then None
    else if ps[|ps| - 1].0 == k then Some(ps[|ps| - 1].1)
    else LastValue(ps[..|ps| - 1], k)
  }

  /** Later assignments win: a key ends up holding the value of its last pair. */
  lemma {:induction false} FromPairsLastWins<K(!new), V>(ps: seq<(K, V)>, k: K)
    ensures Get(FromPairs(ps), k) == LastValue(ps, k)
    decreases |ps|
  {
    if ps != [] {
      var init := ps[..|ps| - 1];
      FromPairsLastWins(init, k);
      GetAssign(FromPairs(init), ps[|ps| - 1].0, ps[|ps| - 1].1, k);
    }
  }

  /** Some pair carries key `k`. */
  ghost predicate HasKey<K, V>(ps: seq<(K, V)>, k: K) {
    exists i :: 0 <= i < |ps| && ps[i].0 == k
  }

  /** A key is carried by some pair exactly when it is carried by an earlier pair or by the last one. */
  lemma HasKeySnoc<K, V>(ps: seq<(K, V)>, k: K)
    requires ps != []
    ensures HasKey(ps, k) <==> HasKey(ps[..|ps| - 1], k) || ps[|ps| - 1].0 == k
  {
    var init := ps[..|ps| - 1];
    if HasKey(ps, k) {
      var i :| 0 <= i < |ps| && ps[i].0 == k;
      if i < |init| {
        assert init[i].0 == k;
      }
    }
    if HasKey(init, k) {
      var i :| 0 <= i < |init| && init[i].0 == k;
      assert ps[i].0 == k;
    }
  }

  lemma DistinctSnoc<T>(xs: seq<T>, x: T)
    requires Distinct(xs) && x !in xs
    ensures Distinct(xs + [x])
  {
    var ys := xs + [x];
    forall i, j | 0 <= i < j < |ys| ensures ys[i] != ys[j] {
      if j < |xs| {
        assert ys[i] == xs[i] && ys[j] == xs[j];
      } else {
        assert ys[i] == xs[i];
      }
    }
  }

  /** The keys of the built dict: exactly the keys of the pairs, each once, in order of first appearance. */
  lemma {:induction false} FromPairsKeys<K(!new), V>(ps: seq<(K, V)>)
    ensures Distinct(Keys(FromPairs(ps)))
    ensures forall k :: k in Keys(FromPairs(ps)) <==> HasKey(ps, k)
    ensures |FromPairs(ps)| <= |ps|
    decreases |ps|
  {
    if ps != [] {
      var init := ps[..|ps| - 1];
      var last := ps[|ps| - 1].0;
      FromPairsKeys(init);
      var before := Keys(FromPairs(init));
      if last !in before {
        DistinctSnoc(before, last);
      }
      forall k ensures k in Keys(FromPairs(ps)) <==> HasKey(ps, k) {
        HasKeySnoc(ps, k);
      }
    }
  }

  /** Two pairs with the same key make the dict smaller than the list of pairs. */
  lemma {:induction false} FromPairsCollision<K(!new), V>(ps: seq<(K, V)>, i: nat, j: nat)
    requires i < j < |ps| && ps[i].0 == ps[j].0
    ensures |FromPairs(ps)| < |ps|
    decreases |ps|
  {
    var init := ps[..|ps| - 1];
    FromPairsKeys(init);
    if j < |ps| - 1 {
      FromPairsCollision(init, i, j);
    } else {
      assert init[i].0 == ps[j].0;
      assert ps[j].0 in Keys(FromPairs(init));
    }
  }

  /*
   * Keys that compare equal without being the same value, as `True == 1` and
   * `False == 0` do in Python: `canon` maps every key to one representative of
   * the keys equal to it.
   */

  /** No two items hold equal keys. */
  predicate DistinctAs<K(==), V>(d: Dict<K, V>, canon: K -> K) {
    forall i, j :: 0 <= i < j < |d| ==> canon(d[i].0) != canon(d[j].0)
  }

  /** Some item holds a key equal to one with representative `c`. */
  ghost predicate HasKeyAs<K, V>(d: Dict<K, V>, c: K, canon: K -> K) {
    exists i :: 0 <= i < |d| && canon(d[i].0) == c
  }

  /** `d[k] = v`: an item with a key equal to `k` keeps its place and its own key and takes `v`; otherwise `(k, v)` is appended. */
  function AssignAs<K(==), V>(d: Dict<K, V>, k: K, v: V, canon: K -> K): Dict<K, V>
    decreases |d|
  {
    if d == [] then [(k, v)]
    else if canon(d[0].0) == canon(k) then [(d[0].0, v)] + d[1..]
    else [d[0]] + AssignAs(d[1..], k, v, canon)
  }

  /** The dict built by assigning the pairs in order, keys compared through `canon`. */
  function FromPairsAs<K(==), V>(ps: seq<(K, V)>, canon: K -> K): Dict<K, V>
    decreases |ps|
  {
    if ps == [] then []
    else AssignAs(FromPairsAs(ps[..|ps| - 1], canon), ps[|ps| - 1].0, ps[|ps| - 1].1, canon)
  }

  /** Reference definition: the key of the first pair whose key equals `k`. */
  function FirstKeyAs<K(==), V>(ps: seq<(K, V)>, k: K, canon: K -> K): Option<K>
    decreases |ps|
  {
    if ps == [] then None
    else if canon(ps[0].0) == canon(k) then Some(ps[0].0)
    else FirstKeyAs(ps[1..], k, canon)
  }

  /** Reference definition: the value of the last pair whose key equals `k`. */
  function LastValueAs<K(==), V>(ps: seq<(K, V)>, k: K, canon: K -> K): Option<V>
    decreases |ps|
  {
    if ps == [] then None
    else if canon(ps[|ps| - 1].0) == canon(k) then Some(ps[|ps| - 1].1)
    else LastValueAs(ps[..|ps| - 1], k, canon)
  }

  /** A key equal to none held is appended with its value. */
  lemma {:induction false} AssignAsAppend<K, V>(d: Dict<K, V>, k: K, v: V, canon: K -> K)
    requires forall i :: 0 <= i < |d| ==> canon(d[i].0) != canon(k)
    ensures AssignAs(d, k, v, canon) == d + [(k, v)]
    decreases |d|
  {
    if d != [] {
      assert forall i :: 0 <= i < |d| - 1 ==> d[1..][i] == d[i + 1];
      AssignAsAppend(d[1..], k, v, canon);
      assert d == [d[0]] + d[1..];
    }
  }

  /** A key equal to the one held by item `i` replaces that item's value only. */
  lemma {:induction false} AssignAsReplace<K, V>(d: Dict<K, V>, k: K, v: V, canon: K -> K, i: nat)
    requires DistinctAs(d, canon) && i < |d| && canon(d[i].0) == canon(k)
    ensures var r := AssignAs(d, k, v, canon);
      && |r| == |d|
      && r[i] == (d[i].0, v)
      && forall h :: 0 <= h < |d| && h != i ==> r[h] == d[h]
    decreases |d|
  {
    if i > 0 {
      assert canon(d[0].0) != canon(d[i].0);
      var tail := d[1..];
      assert tail[i - 1] == d[i];
      assert DistinctAs(tail, canon) by {
        assert forall a :: 0 <= a < |tail| ==> tail[a] == d[a + 1];
      }
      AssignAsReplace(tail, k, v, canon, i - 1);
      var r := AssignAs(d, k, v, canon);
      assert r == [d[0]] + AssignAs(tail, k, v, canon);
      forall h | 0 <= h < |d| && h != i ensures r[h] == d[h] {
        if h > 0 {
          assert r[h] == AssignAs(tail, k, v, canon)[h - 1];
          assert tail[h - 1] == d[h];
        }
      }
    }
  }

  /** The first key equal to `k` in one more pair. */
  lemma {:induction false} FirstKeyAsSnoc<K, V>(ps: seq<(K, V)>, x: (K, V), k: K, canon: K -> K)
    ensures FirstKeyAs(ps + [x], k, canon) ==
      if FirstKeyAs(ps, k, canon).Some? then FirstKeyAs(ps, k, canon)
      else if canon(x.0) == canon(k) then Some(x.0) else None
    decreases |ps|
  {
    if ps != [] {
      assert (ps + [x])[1..] == ps[1..] + [x];
      FirstKeyAsSnoc(ps[1..], x, k, canon);
    }
  }

  /** A pair whose key equals `k`, when there is a first one. */
  lemma {:induction false} FirstKeyAsFound<K, V>(ps: seq<(K, V)>, k: K, canon: K -> K) returns (j: nat)
    requires FirstKeyAs(ps, k, canon).Some?
    ensures j < |ps| && canon(ps[j].0) == canon(k)
    decreases |ps|
  {
    if canon(ps[0].0) == canon(k) {
      j := 0;
    } else {
      var j' := FirstKeyAsFound(ps[1..], k, canon);
      j := j' + 1;
    }
  }

  /**
   * `d` holds one item per group of equal keys among the pairs: the group's
   * first key with its last value, and every pair's key is represented.
   */
  ghost predicate ItemsOf<K, V>(ps: seq<(K, V)>, d: Dict<K, V>, canon: K -> K) {
    && DistinctAs(d, canon)
    && |d| <= |ps|
    && (forall i :: 0 <= i < |d| ==>
          FirstKeyAs(ps, d[i].0, canon) == Some(d[i].0) && LastValueAs(ps, d[i].0, canon) == Some(d[i].1))
    && (forall j :: 0 <= j < |ps| ==> HasKeyAs(d, canon(ps[j].0), canon))
  }

  /** How the two reference definitions see one more pair. */
  lemma ReferencesSnoc<K, V>(ps: seq<(K, V)>, x: (K, V), key: K, canon: K -> K)
    ensures FirstKeyAs(ps + [x], key, canon) ==
      if FirstKeyAs(ps, key, canon).Some? then FirstKeyAs(ps, key, canon)
      else if canon(x.0) == canon(key) then Some(x.0) else None
    ensures LastValueAs(ps + [x], key, canon) ==
      if canon(x.0) == canon(key) then Some(x.1) else LastValueAs(ps, key, canon)
  {
    FirstKeyAsSnoc(ps, x, key, canon);
    assert (ps + [x])[..|ps|] == ps;
  }

  /** Every pair's key stays represented when the items keep their keys and the new pair's key is held. */
  lemma CoveredSnoc<K, V>(ps: seq<(K, V)>, x: (K, V), d: Dict<K, V>, r: Dict<K, V>, canon: K -> K)
    requires forall j :: 0 <= j < |ps| ==> HasKeyAs(d, canon(ps[j].0), canon)
    requires |d| <= |r| && forall i :: 0 <= i < |d| ==> r[i].0 == d[i].0
    requires HasKeyAs(r, canon(x.0), canon)
    ensures forall j :: 0 <= j < |ps + [x]| ==> HasKeyAs(r, canon((ps + [x])[j].0), canon)
  {
    var qs := ps + [x];
    forall j | 0 <= j < |qs| ensures HasKeyAs(r, canon(qs[j].0), canon) {
      if j < |ps| {
        assert qs[j] == ps[j];
        var i :| 0 <= i < |d| && canon(d[i].0) == canon(ps[j].0);
        assert r[i].0 == d[i].0;
      }
    }
  }

  /** A pair whose key is already held updates that item's value. */
  lemma ItemsReplace<K, V>(ps: seq<(K, V)>, x: (K, V), d: Dict<K, V>, canon: K -> K, i0: nat)
    requires ItemsOf(ps, d, canon) && i0 < |d| && canon(d[i0].0) == canon(x.0)
    ensures ItemsOf(ps + [x], AssignAs(d, x.0, x.1, canon), canon)
  {
    var qs := ps + [x];
    var r := AssignAs(d, x.0, x.1, canon);
    AssignAsReplace(d, x.0, x.1, canon, i0);
    forall i | 0 <= i < |r|
      ensures FirstKeyAs(qs, r[i].0, canon) == Some(r[i].0) && LastValueAs(qs, r[i].0, canon) == Some(r[i].1)
    {
      ReferencesSnoc(ps, x, r[i].0, canon);
    }
    assert r[i0].0 == d[i0].0;
    CoveredSnoc(ps, x, d, r, canon);
  }

  /** A pair whose key is not held yet is appended. */
  lemma ItemsAppend<K, V>(ps: seq<(K, V)>, x: (K, V), d: Dict<K, V>, canon: K -> K)
    requires ItemsOf(ps, d, canon) && !HasKeyAs(d, canon(x.0), canon)
    ensures ItemsOf(ps + [x], AssignAs(d, x.0, x.1, canon), canon)
  {
    var qs := ps + [x];
    var r := AssignAs(d, x.0, x.1, canon);
    AssignAsAppend(d, x.0, x.1, canon);
    if FirstKeyAs(ps, x.0, canon).Some? {
      var j := FirstKeyAsFound(ps, x.0, canon);
    }
    forall i | 0 <= i < |r|
      ensures FirstKeyAs(qs, r[i].0, canon) == Some(r[i].0) && LastValueAs(qs, r[i].0, canon) == Some(r[i].1)
    {
      ReferencesSnoc(ps, x, r[i].0, canon);
      if i < |d| {
        assert r[i] == d[i];
      }
    }
    assert forall i :: 0 <= i < |d| ==> r[i] == d[i];
    assert r[|d|].0 == x.0;
    CoveredSnoc(ps, x, d, r, canon);
  }

  /**
   * The dict built pair by pair holds one item per group of equal keys:
   * the group's first key with its last value, and every pair's key is
   * represented.
   */
  lemma {:induction false} FromPairsAsItems<K, V>(ps: seq<(K, V)>, canon: K -> K)
    ensures var d := FromPairsAs(ps, canon);
      && DistinctAs(d, canon)
      && |d| <= |ps|
      && (forall i :: 0 <= i < |d| ==>
            FirstKeyAs(ps, d[i].0, canon) == Some(d[i].0) && LastValueAs(ps, d[i].0, canon) == Some(d[i].1))
      && (forall j :: 0 <= j < |ps| ==> HasKeyAs(d, canon(ps[j].0), canon))
    decreases |ps|
  {
    if ps != [] {
      var init := ps[..|ps| - 1];
      var x := ps[|ps| - 1];
      var d0 := FromPairsAs(init, canon);
      FromPairsAsItems(init, canon);
      assert ps == init + [x];
      if HasKeyAs(d0, canon(x.0), canon) {
        var i0 :| 0 <= i0 < |d0| && canon(d0[i0].0) == canon(x.0);
        ItemsReplace(init, x, d0, canon, i0);
      } else {
        ItemsAppend(init, x, d0, canon);
      }
    }
  }
}

=== FILE: extract.dfy ===
/**
 * What every loader generator shares: the Python exceptions the loaders can
 * raise, the observable run of a generator, and the resource declarations
 * handed to the pipeline framework (recorded as data only).
 */
module Extract {
  import opened Wrappers

  /** The exception classes the modelled loaders raise. */
  datatype Error =
    | KeyError(key: string)
    | ValueError
    | TypeError
    | AttributeError
    | IndexError
    | HttpError(status: int)
    | FileNotFound(path: string)
    | Timeout
    | ConnectionError

  /**
   * The observable run of a generator: the items it yielded, in order, and the
   * exception that ended it, if one did. Items yielded before a raise stay in
   * `yielded`.
   */
  datatype Run<T> = Run(yielded: seq<T>, raised: Option<Error>)

  /** Write dispositions a resource can declare. */
  datatype Disposition = Append | Replace | Merge

  /** A resource declaration: name, write disposition and declared primary key. */
  datatype Resource = Resource(name: string, disposition: Disposition, primaryKey: seq<string>)

  /** `Response.raise_for_status()` raises for client and server error codes. */
  predicate IsErrorStatus(status: int) {
    400 <= status < 600
  }

  /**
   * `r` is the run of a generator that yields f(x) for each x in order and
   * ends with f's error at the first x for which f raises.
   */
  ghost predicate RunOver<A, B>(r: Run<B>, xs: seq<A>, f: A -> Result<B, Error>) {
    && |r.yielded| <= |xs|
    && (forall i :: 0 <= i < |r.yielded| ==> f(xs[i]) == Ok(r.yielded[i]))
    && (r.raised.None? ==> |r.yielded| == |xs|)
    && (r.raised.Some? ==> |r.yielded| < |xs| && f(xs[|r.yielded|]) == Err(r.raised.value))
  }

  /**
   * A generator that yields f(x) for each x in order and ends with f's error at
   * the first x for which f raises.
   */
  function MapUntilError<A, B>(xs: seq<A>, f: A -> Result<B, Error>): (r: Run<B>)
    ensures RunOver(r, xs, f)
  {
    if xs == [] then Run([], None)
    else match f(xs[0])
      case Err(e) => Run([], Some(e))
      case Ok(y) =>
        var rest := MapUntilError(xs[1..], f);
        Run([y] + rest.yielded, rest.raised)
  }

  /**
   * Generators run one after another, each started only when the previous
   * one finished without raising: the first one that raises ends the whole
   * run with its error.
   */
  function Chain<T>(runs: seq<Run<T>>): Run<T>
    decreases |runs|
  {
    if runs == [] then Run([], None)
    else if runs[0].raised.Some? then runs[0]
    else
      var rest := Chain(runs[1..]);
      Run(runs[0].yielded + rest.yielded, rest.raised)
  }

  /** Everything the runs yield, one after another. */
  function Flatten<T>(runs: seq<Run<T>>): seq<T>
    decreases |runs|
  {
    if runs == [] then [] else runs[0].yielded + Flatten(runs[1..])
  }

  /**
   * With `f` the first run that raises (or the number of runs when none
   * does), the chained run yields everything the runs before `f` yield, then
   * what run `f` yields before raising, and ends with run `f`'s error.
   */
  lemma {:induction false} ChainConcat<T>(runs: seq<Run<T>>, f: nat)
    requires f <= |runs| && forall j :: 0 <= j < f ==> runs[j].raised.None?
    requires f < |runs| ==> runs[f].raised.Some?
    ensures f == |runs| ==> Chain(runs) == Run(Flatten(runs), None)
    ensures f < |runs| ==> Chain(runs) == Run(Flatten(runs[..f]) + runs[f].yielded, runs[f].raised)
    decreases |runs|
  {
    if runs != [] && f > 0 {
      var tail := runs[1..];
      ChainConcat(tail, f - 1);
      if f < |runs| {
        assert runs[..f][1..] == tail[..f - 1];
        assert Flatten(runs[..f]) == runs[0].yielded + Flatten(tail[..f - 1]);
      }
    } else if runs != [] {
      assert runs[..0] == [];
    }
  }
}

=== FILE: filters.dfy ===
/**
 * Order-preserving selection from a sequence, as a comprehension with an `if`
 * or a loop that appends the elements it keeps does it.
 */
module Filters {
  /** The positions of `xs` whose element `keep` accepts, in increasing order. */
  function Kept<T>(xs: seq<T>, keep: T -> bool): (ps: seq<nat>)
    ensures forall k :: 0 <= k < |ps| ==> ps[k] < |xs| && keep(xs[ps[k]])
    ensures forall k, l :: 0 <= k < l < |ps| ==> ps[k] < ps[l]
    ensures forall j :: 0 <= j < |xs| && keep(xs[j]) ==> j in ps
    decreases |xs|
  {
    if xs == [] then []
    else
      var init := Kept(xs[..|xs| - 1], keep);
      assert forall j :: 0 <= j < |xs| - 1 ==> xs[..|xs| - 1][j] == xs[j];
      init + if keep(xs[|xs| - 1]) then [|xs| - 1] else []
  }

  /** `r` holds exactly the elements of `xs` that `keep` accepts, in their order in `xs`. */
  ghost predicate FilterOf<T>(xs: seq<T>, keep: T -> bool, r: seq<T>) {
    var ps := Kept(xs, keep);
    |r| == |ps| && forall k :: 0 <= k < |ps| ==> r[k] == xs[ps[k]]
  }

  /** Extending the input by one element extends its filtered form by that element when it is kept. */
  lemma FilterOfSnoc<T>(xs: seq<T>, x: T, keep: T -> bool, r: seq<T>)
    requires FilterOf(xs, keep, r)
    ensures FilterOf(xs + [x], keep, r + if keep(x) then [x] else [])
  {
    assert (xs + [x])[..|xs|] == xs;
  }
}

=== FILE: food.dfy ===
/**
 * The `restaurants` and `reviews` resources of dlt/dlt-food-pipeline.py: each
 * DictReader row of a Foodpanda export becomes one record. Float parsing and
 * ISO date-time parsing are parameters (None stands for the ValueError they
 * raise); `ast.literal_eval` is one too.
 */
module Food {
  import opened Wrappers
  import opened Text
  import opened Decimal
  import opened Dicts
  import opened Extract
  import opened Csv

  const RestaurantsFile := "ph_restos_2025.csv"
  const ReviewsFile := "ph_reviews_2025.csv"

  const RestaurantsResource := Resource("restaurants", Append, [])
  const ReviewsResource := Resource("reviews", Append, [])

  /** The library parsers the normalisers call. */
  datatype Parsers = Parsers(
    float: string -> Option<real>,       // float(s)
    isoDateTime: string -> Option<int>)  // datetime.fromisoformat(s), as an instant

  /** One reply object of a review, as `ast.literal_eval` would give it. */
  type Reply = Dict<string, string>

  datatype Restaurant = Restaurant(
    storeId: Option<string>,
    name: Option<string>,
    foodType: Option<string>,
    averageRating: Option<real>,
    reviewerCount: Option<int>,
    city: Option<string>)

  datatype Review = Review(
    storeId: Option<string>,
    uuid: Option<string>,
    createdAt: int,
    updatedAt: int,
    text: Option<string>,
    isAnonymous: bool,
    reviewerId: Option<string>,
    replies: seq<Reply>,
    likeCount: int,
    isLiked: bool,
    overallRating: Option<real>,
    riderRating: Option<real>,
    restaurantRating: Option<real>)

  /** Python truthiness of a CSV value: None and '' are false. */
  predicate Truthy(v: Option<string>) {
    v.Some? && v.value != ""
  }

  /** `row[key]`: KeyError when the column is absent. */
  function Index(row: Row, key: string): (r: Result<Option<string>, Error>)
    ensures r.Err? <==> key !in Keys(row)
    ensures r.Err? ==> r.error == KeyError(key)
    ensures r.Ok? ==> Get(row, key) == Some(r.value)
  {
    GetSomeIffKey(row, key);
    match Get(row, key)
    case None => Err(KeyError(key))
    case Some(v) => Ok(v)
  }

  /** `row.get(key, default)`. */
  function GetOr(row: Row, key: string, default: Option<string>): Option<string> {
    match Get(row, key)
    case None => default
    case Some(v) => v
  }

  /** `float(v) if v else None`. */
  function OptionalFloat(v: Option<string>, p: Parsers): (r: Result<Option<real>, Error>)
    ensures !Truthy(v) ==> r == Ok(None)
    ensures Truthy(v) ==> r == (match p.float(v.value) case Some(x) => Ok(Some(x)) case None => Err(ValueError))
  {
    if !Truthy(v) then Ok(None)
    else match p.float(v.value)
      case Some(x) => Ok(Some(x))
      case None => Err(ValueError)
  }

  const Parens: set<char> := {'(', ')'}

  /** Line 59: `int(v.strip("()")) if v else None`. */
  function ReviewerCount(v: Option<string>): (r: Result<Option<int>, Error>)
    ensures !Truthy(v) ==> r == Ok(None)
    ensures Truthy(v) && r.Ok? ==> r.value.Some? && Some(r.value.value) == ParseInt(Strip(v.value, Parens))
    ensures Truthy(v) && r.Err? ==> r.error == ValueError && ParseInt(Strip(v.value, Parens)).None?
  {
    if !Truthy(v) then Ok(None)
    else match ParseInt(Strip(v.value, Parens))
      case Some(n) => Ok(Some(n))
      case None => Err(ValueError)
  }

  /** The columns lines 55-61 index with `row[...]`, in evaluation order. */
  const RestaurantColumns := ["StoreId", "CompleteStoreName", "FoodType", "AverageRating", "Reviewers", "City"]

  /**
   * Lines 55-61: one restaurant record; the fields are evaluated in dict
   * order, so the first failing one decides the error. The record exists
   * exactly when every column is present and both numbers parse; its fields
   * are the cells, the parsed rating and the parsed reviewer count. A missing
   * "StoreId" raises KeyError first, and with every column present only a
   * number that does not parse can raise, with ValueError.
   */
  function NormaliseRestaurant(row: Row, p: Parsers): (r: Result<Restaurant, Error>)
    ensures r.Ok? <==>
      && (forall k :: k in RestaurantColumns ==> k in Keys(row))
      && OptionalFloat(GetOr(row, "AverageRating", None), p).Ok?
      && ReviewerCount(GetOr(row, "Reviewers", None)).Ok?
    ensures r.Ok? ==>
      && Get(row, "StoreId") == Some(r.value.storeId)
      && Get(row, "CompleteStoreName") == Some(r.value.name)
      && Get(row, "FoodType") == Some(r.value.foodType)
      && OptionalFloat(GetOr(row, "AverageRating", None), p) == Ok(r.value.averageRating)
      && ReviewerCount(GetOr(row, "Reviewers", None)) == Ok(r.value.reviewerCount)
      && Get(row, "City") == Some(r.value.city)
    ensures "StoreId" !in Keys(row) ==> r == Err(KeyError("StoreId"))
    ensures r.Err? && (forall k :: k in RestaurantColumns ==> k in Keys(row)) ==> r.error == ValueError
  {
    var storeId :- Index(row, "StoreId");
    var name :- Index(row, "CompleteStoreName");
    var foodType :- Index(row, "FoodType");
    var ratingText :- Index(row, "AverageRating");
    var rating :- OptionalFloat(ratingText, p);
    var reviewersText :- Index(row, "Reviewers");
    var reviewers :- ReviewerCount(reviewersText);
    var city :- Index(row, "City");
    Ok(Restaurant(storeId, name, foodType, rating, reviewers, city))
  }

  /** The text handed to `fromisoformat`: every "Z" becomes "+00:00". */
  function ZuluToOffset(s: string): string {
    ReplaceAll(s, "Z", "+00:00")
  }

  /** No "Z" survives the rewrite, and text without "Z" is left alone. */
  lemma ZuluToOffsetProperties(s: string)
    ensures 'Z' !in ZuluToOffset(s)
    ensures 'Z' !in s ==> ZuluToOffset(s) == s
  {
    ReplaceAllRemovesChar(s, 'Z', "+00:00");
    if 'Z' !in s {
      ReplaceAllNoMatch(s, "Z", "+00:00");
    }
  }

  /** Lines 83-84: `datetime.fromisoformat(row[key].replace("Z", "+00:00"))`. */
  function Timestamp(row: Row, key: string, p: Parsers): (r: Result<int, Error>)
    ensures key !in Keys(row) ==> r == Err(KeyError(key))
    ensures Get(row, key) == Some(None) ==> r == Err(AttributeError)
    ensures r.Ok? ==> exists s :: Get(row, key) == Some(Some(s)) && p.isoDateTime(ZuluToOffset(s)) == Some(r.value)
    ensures forall s :: Get(row, key) == Some(Some(s)) ==>
      r == match p.isoDateTime(ZuluToOffset(s)) case Some(t) => Ok(t) case None => Err(ValueError)
  {
    var v :- Index(row, key);
    match v
    case None => Err(AttributeError)
    case Some(s) =>
      match p.isoDateTime(ZuluToOffset(s))
      case Some(t) => Ok(t)
      case None => Err(ValueError)
  }

  /** Lines 86 and 89: `row.get(key, "false").lower() == "true"`. */
  function Flag(row: Row, key: string): (r: Result<bool, Error>)
    ensures key !in Keys(row) ==> r == Ok(false)
    ensures Get(row, key) == Some(None) ==> r == Err(AttributeError)
    ensures forall s :: Get(row, key) == Some(Some(s)) ==> r == Ok(Lower(s) == "true")
  {
    GetSomeIffKey(row, key);
    match GetOr(row, key, Some("false"))
    case None => Err(AttributeError)
    case Some(s) => Ok(Lower(s) == "true")
  }

  /** Line 87: `row.get("reviewerId") or None`. */
  function ReviewerId(row: Row): (r: Option<string>)
    ensures r.None? <==> !Truthy(GetOr(row, "reviewerId", None))
    ensures r.Some? ==> Get(row, "reviewerId") == Some(r)
  {
    var v := GetOr(row, "reviewerId", None);
    if Truthy(v) then v else None
  }

  /** Line 90: `int(row.get("likeCount", 0))`. */
  function LikeCount(row: Row): (r: Result<int, Error>)
    ensures "likeCount" !in Keys(row) ==> r == Ok(0)
    ensures Get(row, "likeCount") == Some(None) ==> r == Err(TypeError)
    ensures Get(row, "likeCount") == Some(Some("")) ==> r == Err(ValueError)
    ensures forall s :: Get(row, "likeCount") == Some(Some(s)) && ParseInt(s).Some? ==> r == Ok(ParseInt(s).value)
    ensures forall s :: Get(row, "likeCount") == Some(Some(s)) && ParseInt(s).None? ==> r == Err(ValueError)
  {
    GetSomeIffKey(row, "likeCount");
    match Get(row, "likeCount")
    case None => Ok(0)
    case Some(v) =>
      match v
      case None => Err(TypeError)
      case Some(s) =>
        match ParseInt(s)
        case Some(n) => Ok(n)
        case None => Err(ValueError)
  }

  /** Lines 91-93: `float(row.get(key)) if row.get(key) else None`. */
  function Rating(row: Row, key: string, p: Parsers): (r: Result<Option<real>, Error>)
    ensures !Truthy(GetOr(row, key, None)) ==> r == Ok(None)
    ensures Truthy(GetOr(row, key, None)) ==>
      r == match p.float(GetOr(row, key, None).value) case Some(x) => Ok(Some(x)) case None => Err(ValueError)
  {
    OptionalFloat(GetOr(row, key, None), p)
  }

  /**
   * Lines 75-79 as the code means them: `ast.literal_eval(row.get("replies", "[]"))`,
   * and [] when that raises.
   */
  function DecodeReplies(row: Row, literalEval: string -> Option<seq<Reply>>): (r: seq<Reply>)
    ensures forall s, xs :: GetOr(row, "replies", Some("[]")) == Some(s) && literalEval(s) == Some(xs) ==> r == xs
    ensures forall s :: GetOr(row, "replies", Some("[]")) == Some(s) && literalEval(s).None? ==> r == []
    ensures GetOr(row, "replies", Some("[]")).None? ==> r == []
  {
    match GetOr(row, "replies", Some("[]"))
    case None => []
    case Some(raw) => literalEval(raw).GetOr([])
  }

  /**
   * Line 77 as written: `ast` is never imported, so the call raises NameError,
   * which line 78 catches. Modelled as an evaluator that always fails.
   */
  function LiteralEvalAsWritten(raw: string): (r: Option<seq<Reply>>)
    ensures r.None?
  {
    None
  }

  /**
   * Lines 80-94 apart from `replies`: the other twelve fields, evaluated in
   * dict order, so the first failing one decides the error.
   */
  function ReviewFields(row: Row, p: Parsers): Result<Review, Error> {
    var storeId :- Index(row, "StoreId");
    var uuid :- Index(row, "uuid");
    var createdAt :- Timestamp(row, "createdAt", p);
    var updatedAt :- Timestamp(row, "updatedAt", p);
    var text :- Index(row, "text");
    var isAnonymous :- Flag(row, "isAnonymous");
    var reviewerId := ReviewerId(row);
    var likeCount :- LikeCount(row);
    var isLiked :- Flag(row, "isLiked");
    var overall :- Rating(row, "overall", p);
    var rider :- Rating(row, "rider", p);
    var food :- Rating(row, "restaurant_food", p);
    Ok(Review(storeId, uuid, createdAt, updatedAt, text, isAnonymous, reviewerId, [],
              likeCount, isLiked, overall, rider, food))
  }

  /**
   * Lines 72-94: one review record. The replies are decoded first and never
   * raise, so only the other fields can fail the record.
   */
  function NormaliseReview(row: Row, p: Parsers, literalEval: string -> Option<seq<Reply>>): (r: Result<Review, Error>)
    ensures r.Ok? <==>
      && "StoreId" in Keys(row) && "uuid" in Keys(row) && "text" in Keys(row)
      && Timestamp(row, "createdAt", p).Ok? && Timestamp(row, "updatedAt", p).Ok?
      && Flag(row, "isAnonymous").Ok? && LikeCount(row).Ok? && Flag(row, "isLiked").Ok?
      && Rating(row, "overall", p).Ok? && Rating(row, "rider", p).Ok? && Rating(row, "restaurant_food", p).Ok?
    ensures r.Ok? ==>
      && Get(row, "StoreId") == Some(r.value.storeId) && Get(row, "uuid") == Some(r.value.uuid)
      && Timestamp(row, "createdAt", p) == Ok(r.value.createdAt) && Timestamp(row, "updatedAt", p) == Ok(r.value.updatedAt)
      && Get(row, "text") == Some(r.value.text)
      && Flag(row, "isAnonymous") == Ok(r.value.isAnonymous) && r.value.reviewerId == ReviewerId(row)
      && r.value.replies == DecodeReplies(row, literalEval)
      && LikeCount(row) == Ok(r.value.likeCount) && Flag(row, "isLiked") == Ok(r.value.isLiked)
      && Rating(row, "overall", p) == Ok(r.value.overallRating) && Rating(row, "rider", p) == Ok(r.value.riderRating)
      && Rating(row, "restaurant_food", p) == Ok(r.value.restaurantRating)
    ensures "StoreId" !in Keys(row) ==> r == Err(KeyError("StoreId"))
  {
    var replies := DecodeReplies(row, literalEval);
    var review :- ReviewFields(row, p);
    Ok(review.(replies := replies))
  }

  /** As written, every review record carries an empty reply list. */
  lemma RepliesAsWrittenAreEmpty(row: Row, p: Parsers)
    ensures NormaliseReview(row, p, LiteralEvalAsWritten).Ok? ==>
      NormaliseReview(row, p, LiteralEvalAsWritten).value.replies == []
  {
  }

  /**
   * The discrepancy: a row whose replies text the evaluator decodes to a
   * non-empty list loses those replies as written, and keeps them when the
   * evaluator is actually available.
   */
  lemma RepliesLostAsWritten(row: Row, p: Parsers, literalEval: string -> Option<seq<Reply>>, raw: string, xs: seq<Reply>)
    requires Get(row, "replies") == Some(Some(raw)) && literalEval(raw) == Some(xs) && xs != []
    requires NormaliseReview(row, p, literalEval).Ok?
    ensures NormaliseReview(row, p, LiteralEvalAsWritten).Ok?
    ensures NormaliseReview(row, p, literalEval).value.replies == xs
    ensures NormaliseReview(row, p, LiteralEvalAsWritten).value.replies != xs
  {
  }

  /** Lines 52-54: one record per row, in file order, until a row raises. A missing file raises on `open`. */
  function Restaurants(file: Option<CsvFile>, p: Parsers): (r: Run<Restaurant>)
    ensures file.None? ==> r == Run([], Some(FileNotFound(RestaurantsFile)))
    ensures file.Some? ==> RunOver(r, Rows(file.value), row => NormaliseRestaurant(row, p))
  {
    match file
    case None => Run([], Some(FileNotFound(RestaurantsFile)))
    case Some(f) => MapUntilError(Rows(f), row => NormaliseRestaurant(row, p))
  }

  /** Lines 72-94: one record per row, in file order, until a row raises. */
  function Reviews(file: Option<CsvFile>, p: Parsers, literalEval: string -> Option<seq<Reply>>): (r: Run<Review>)
    ensures file.None? ==> r == Run([], Some(FileNotFound(ReviewsFile)))
    ensures file.Some? ==> RunOver(r, Rows(file.value), row => NormaliseReview(row, p, literalEval))
  {
    match file
    case None => Run([], Some(FileNotFound(ReviewsFile)))
    case Some(f) => MapUntilError(Rows(f), row => NormaliseReview(row, p, literalEval))
  }

  /** When no row raises, `restaurants` yields exactly one record per CSV row, in order. */
  lemma RestaurantsOnePerRow(f: CsvFile, p: Parsers)
    requires forall i :: 0 <= i < |Rows(f)| ==> NormaliseRestaurant(Rows(f)[i], p).Ok?
    ensures var run := Restaurants(Some(f), p);
      run.raised.None? && |run.yielded| == |Rows(f)| &&
      forall i :: 0 <= i < |Rows(f)| ==> Ok(run.yielded[i]) == NormaliseRestaurant(Rows(f)[i], p)
  {
  }

  /** When no row raises, `reviews` yields exactly one record per CSV row, in order. */
  lemma ReviewsOnePerRow(f: CsvFile, p: Parsers, literalEval: string -> Option<seq<Reply>>)
    requires forall i :: 0 <= i < |Rows(f)| ==> NormaliseReview(Rows(f)[i], p, literalEval).Ok?
    ensures var run := Reviews(Some(f), p, literalEval);
      run.raised.None? && |run.yielded| == |Rows(f)| &&
      forall i :: 0 <= i < |Rows(f)| ==> Ok(run.yielded[i]) == NormaliseReview(Rows(f)[i], p, literalEval)
  {
  }
}

=== FILE: json.dfy ===
/**
 * Decoded JSON as the loaders handle it after `resp.json()`, with the few
 * Python operations they apply to it: truthiness, `x or default`,
 * subscripting, `dict.get` and iteration. Numbers are integers here.
 */
module Json {
  import opened Wrappers
  import opened Dicts
  import opened Extract

  /**
   * An object's fields stand for the Python dict `json.loads` builds, so its
   * keys are taken to be distinct; the datatype itself does not enforce this.
   */
  datatype Json =
    | Null
    | Bool(b: bool)
    | Num(n: int)
    | Str(s: string)
    | Arr(items: seq<Json>)
    | Obj(fields: Dict<string, Json>)

  /** Python truthiness: null, false, 0 and empty text, lists and objects are false. */
  predicate Truthy(v: Json) {
    match v
    case Null => false
    case Bool(b) => b
    case Num(n) => n != 0
    case Str(s) => s != ""
    case Arr(items) => items != []
    case Obj(fields) => fields != []
  }

  /** `v or default`. */
  function Or(v: Json, default: Json): (r: Json)
    ensures Truthy(v) ==> r == v
    ensures !Truthy(v) ==> r == default
  {
    if Truthy(v) then v else default
  }

  /** `v[key]`: KeyError for a missing key, TypeError when `v` is not an object. */
  function Index(v: Json, key: string): (r: Result<Json, Error>)
    ensures r.Ok? <==> v.Obj? && key in Keys(v.fields)
    ensures r.Ok? ==> Get(v.fields, key) == Some(r.value)
    ensures v.Obj? && r.Err? ==> r.error == KeyError(key)
    ensures !v.Obj? ==> r == Err(TypeError)
  {
    match v
    case Obj(fields) =>
      GetSomeIffKey(fields, key);
      (match Get(fields, key)
       case Some(x) => Ok(x)
       case None => Err(KeyError(key)))
    case _ => Err(TypeError)
  }

  /** `v.get(key, default)`: AttributeError when `v` is not an object. */
  function DictGet(v: Json, key: string, default: Json): (r: Result<Json, Error>)
    ensures v.Obj? ==> r.Ok? && r.value == Get(v.fields, key).GetOr(default)
    ensures !v.Obj? ==> r == Err(AttributeError)
  {
    match v
    case Obj(fields) => Ok(Get(fields, key).GetOr(default))
    case _ => Err(AttributeError)
  }

  /** `for x in v`: list items, object keys or the characters of a string; TypeError otherwise. */
  function Iterate(v: Json): (r: Result<seq<Json>, Error>)
    ensures v.Arr? ==> r == Ok(v.items)
    ensures v.Obj? ==> r.Ok? && |r.value| == |v.fields| && forall i :: 0 <= i < |v.fields| ==> r.value[i] == Str(v.fields[i].0)
    ensures v.Str? ==> r.Ok? && |r.value| == |v.s| && forall i :: 0 <= i < |v.s| ==> r.value[i] == Str([v.s[i]])
    ensures r.Err? <==> v.Null? || v.Bool? || v.Num?
    ensures r.Err? ==> r.error == TypeError
  {
    match v
    case Arr(items) => Ok(items)
    case Obj(fields) => Ok(seq(|fields|, i requires 0 <= i < |fields| => Str(fields[i].0)))
    case Str(s) => Ok(seq(|s|, i requires 0 <= i < |s| => Str([s[i]])))
    case _ => Err(TypeError)
  }
}

=== FILE: lazada.dfy ===
/**
 * The Lazada search scraper in dlt/extract-loads/06-dlt-laz-pipeline.py. The
 * browser is replaced by `site`, which maps each page URL to the page it
 * loads: either a navigation that times out, or the product cards found
 * after scrolling together with the heights the page reports while scrolling.
 */
module Lazada {
  import opened Wrappers
  import opened Text
  import opened Decimal
  import opened Extract

  const SearchUrl := "https://www.lazada.com.ph/catalog/?q=mechanical+keyboard"
  const MaxPages := 5
  const Origin := "https://www.lazada.com.ph"

  const ProductsResource := Resource("lazada_products", Append, [])

  /**
   * `_canonical_url`: protocol-relative links get `https:`, site-absolute
   * paths get the site's origin, anything else is kept; a missing or empty
   * href gives None.
   */
  function CanonicalUrl(href: Option<string>): (r: Option<string>)
    ensures r.None? <==> href.None? || href.value == ""
    ensures r.Some? ==> |r.value| > 0 && !StartsWith(r.value, "/")
    ensures r.Some? ==> |href.value| <= |r.value| && r.value[|r.value| - |href.value|..] == href.value
    ensures r.Some? && !StartsWith(href.value, "/") ==> r.value == href.value
    ensures r.Some? && StartsWith(href.value, "//") ==> r.value == "https:" + href.value
    ensures r.Some? && StartsWith(href.value, "/") && !StartsWith(href.value, "//") ==> r.value == Origin + href.value
  {
    if href.None? || href.value == "" then None
    else if StartsWith(href.value, "//") then
      var u := "https:" + href.value;
      assert u[..1] == "h";
      Some(u)
    else if StartsWith(href.value, "/") then
      var u := Origin + href.value;
      assert u[..1] == "h";
      Some(u)
    else Some(href.value)
  }

  /** A canonical URL is its own canonical form. */
  lemma CanonicalUrlIdempotent(href: Option<string>)
    ensures CanonicalUrl(href).Some? ==> CanonicalUrl(CanonicalUrl(href)) == CanonicalUrl(href)
  {
  }

  /** Line 36: the URL of result page `p`. */
  function PageUrl(p: int): string {
    if p > 1 then SearchUrl + "&page=" + RenderInt(p) else SearchUrl
  }

  /**
   * The first page is fetched from the search URL itself; a later page adds a
   * `page` parameter from which its number reads back.
   */
  lemma PageUrlReadsBack(p: int)
    ensures p <= 1 ==> PageUrl(p) == SearchUrl
    ensures p > 1 ==> var prefix := SearchUrl + "&page=";
      |prefix| < |PageUrl(p)| && PageUrl(p)[..|prefix|] == prefix && ParseInt(PageUrl(p)[|prefix|..]) == Some(p)
  {
    if p > 1 {
      var prefix := SearchUrl + "&page=";
      ParseRenderInt(p);
      assert PageUrl(p)[|prefix|..] == RenderInt(p);
    }
  }

  /** Different pages are fetched from different URLs. */
  lemma PageUrlInjective(p: int, q: int)
    requires 1 <= p && 1 <= q
    ensures PageUrl(p) == PageUrl(q) <==> p == q
  {
    var prefix := SearchUrl + "&page=";
    if p > 1 && q > 1 && PageUrl(p) == PageUrl(q) {
      assert PageUrl(p)[|prefix|..] == Render(p);
      assert PageUrl(q)[|prefix|..] == Render(q);
      RenderInjective(p, q);
    }
  }

  /** The page height before scroll `i`: 0 before the first one. */
  function PrevHeight(heights: nat -> int, i: nat): int {
    if i == 0 then 0 else heights(i - 1)
  }

  /** Each of the first `n` scrolls changed the page height. */
  predicate GrewBefore(heights: nat -> int, n: nat) {
    forall i: nat :: i < n ==> heights(i) != PrevHeight(heights, i)
  }

  /**
   * `_auto_scroll`: scroll at most `maxSteps` times and stop at the first
   * scroll after which `heights` (the page height after each scroll) did not
   * change. Returns how many scrolls were made.
   */
  method AutoScroll(heights: nat -> int, maxSteps: int) returns (steps: nat)
    ensures steps <= if maxSteps < 0 then 0 else maxSteps
    ensures forall i: nat :: i + 1 < steps ==> heights(i) != PrevHeight(heights, i)
    ensures steps < maxSteps ==> steps > 0 && heights(steps - 1) == PrevHeight(heights, steps - 1)
  {
    var lastHeight := 0;
    steps := 0;
    var bound := if maxSteps < 0 then 0 else maxSteps;
    var k := 0;
    while k < bound
      invariant k <= bound && steps == k
      invariant lastHeight == PrevHeight(heights, k)
      invariant GrewBefore(heights, k)
      decreases bound - k
    {
      var newHeight := heights(k);
      steps := k + 1;
      if newHeight == lastHeight {
        return;
      }
      lastHeight := newHeight;
      k := k + 1;
    }
  }

  /** Where, if anywhere, reading a card raises inside the `try`. */
  datatype Failure = NoFailure | FailsBeforeLink | FailsAfterSeen

  /**
   * A product card: the raw `href` of its link, the `title` of its name
   * element and the text of its price element (None where the element or the
   * attribute is missing), and where reading it fails.
   */
  datatype Card = Card(href: Option<string>, title: Option<string>, priceText: Option<string>, failure: Failure)

  /** What navigating to a page URL gives. */
  datatype Page = Loaded(cards: seq<Card>, heights: nat -> int) | TimedOut

  datatype Product = Product(page: int, name: Option<string>, price: Option<string>, url: string)

  /** `price_el.inner_text().strip()`: the price text without surrounding whitespace. */
  function Price(c: Card): (r: Option<string>)
    ensures r.None? <==> c.priceText.None?
    ensures r.Some? ==> TrimmedBy(c.priceText.value, Whitespace, r.value)
  {
    match c.priceText
    case None => None
    case Some(t) =>
      StripIsTrimmedSlice(t, Whitespace);
      Some(Strip(t, Whitespace))
  }

  /** The `seen` set and the products yielded so far. */
  datatype Progress = Progress(seen: set<string>, products: seq<Product>)

  /** Lines 42-59 for one card of page `p`. */
  function VisitCard(st: Progress, p: int, c: Card): Progress {
    if c.failure == FailsBeforeLink then st
    else match CanonicalUrl(c.href)
      case None => st
      case Some(url) =>
        if url in st.seen then st
        else if c.failure == FailsAfterSeen then Progress(st.seen + {url}, st.products)
        else Progress(st.seen + {url}, st.products + [Product(p, c.title, Price(c), url)])
  }

  /** The cards of page `p` visited in order. */
  function VisitCards(st: Progress, p: int, cards: seq<Card>): Progress
    decreases |cards|
  {
    if cards == [] then st
    else VisitCard(VisitCards(st, p, cards[..|cards| - 1]), p, cards[|cards| - 1])
  }

  datatype Scrape = Scrape(progress: Progress, raised: Option<Error>)

  /** Reference definition of the generator over pages 1..k: a page that times out ends it with an error. */
  function ScrapeUpTo(site: string -> Page, k: nat): Scrape
    decreases k
  {
    if k == 0 then Scrape(Progress({}, []), None)
    else
      var s := ScrapeUpTo(site, k - 1);
      if s.raised.Some? then s
      else match site(PageUrl(k))
        case TimedOut => Scrape(s.progress, Some(Timeout))
        case Loaded(cards, _) => Scrape(VisitCards(s.progress, k, cards), None)
  }

  /** Once a page has raised, later pages change nothing. */
  lemma {:induction false} ScrapeStops(site: string -> Page, p: nat, k: nat)
    requires p <= k && ScrapeUpTo(site, p).raised.Some?
    ensures ScrapeUpTo(site, k) == ScrapeUpTo(site, p)
    decreases k
  {
    if p < k {
      ScrapeStops(site, p, k - 1);
      assert ScrapeUpTo(site, k - 1).raised.Some?;
    }
  }

  /** Lines 29-60. */
  method LazadaScrapedData(site: string -> Page) returns (run: Run<Product>)
    ensures run == Run(ScrapeUpTo(site, MaxPages).progress.products, ScrapeUpTo(site, MaxPages).raised)
  {
    var seen: set<string> := {};
    var products: seq<Product> := [];
    for p := 1 to MaxPages + 1
      invariant ScrapeUpTo(site, p - 1) == Scrape(Progress(seen, products), None)
    {
      var page := site(PageUrl(p));
      if page.TimedOut? {
        ScrapeStops(site, p, MaxPages);
        return Run(products, Some(Timeout));
      }
      var scrolls := AutoScroll(page.heights, 12);
      var cards := page.cards;
      ghost var start := Progress(seen, products);
      for i := 0 to |cards|
        invariant Progress(seen, products) == VisitCards(start, p, cards[..i])
      {
        var card := cards[i];
        assert cards[..i + 1][..i] == cards[..i];
        if card.failure == FailsBeforeLink {
          continue;
        }
        var href := CanonicalUrl(card.href);
        if href.None? || href.value in seen {
          continue;
        }
        seen := seen + {href.value};
        if card.failure == FailsAfterSeen {
          continue;
        }
        products := products + [Product(p, card.title, Price(card), href.value)];
      }
      assert cards[..|cards|] == cards;
    }
    return Run(products, None);
  }

  /**
   * What the scraper keeps true: every product's URL is canonical, non-empty,
   * recorded in `seen` and unique; pages lie in 1..maxPage and never decrease.
   */
  predicate Consistent(st: Progress, maxPage: int) {
    && (forall i :: 0 <= i < |st.products| ==>
        && st.products[i].url in st.seen
        && |st.products[i].url| > 0
        && !StartsWith(st.products[i].url, "/")
        && 1 <= st.products[i].page <= maxPage)
    && (forall i, j :: 0 <= i < j < |st.products| ==>
        st.products[i].url != st.products[j].url && st.products[i].page <= st.products[j].page)
  }

  /** Visiting one card keeps the scraper consistent and only adds a product from page `p` with a URL not yet seen. */
  lemma VisitCardKeeps(st: Progress, p: int, c: Card)
    requires 1 <= p && Consistent(st, p)
    ensures var r := VisitCard(st, p, c);
      && Consistent(r, p)
      && st.seen <= r.seen
      && st.products <= r.products
      && |r.products| <= |st.products| + 1
      && forall i :: |st.products| <= i < |r.products| ==> r.products[i].page == p && r.products[i].url !in st.seen
  {
  }

  /**
   * Visiting the cards of page `p` keeps the scraper consistent, only adds to
   * `seen`, only appends products, and every appended product is from page
   * `p` with a URL that was not yet seen (so a card that failed after being
   * recorded still suppresses later duplicates).
   */
  lemma {:induction false} VisitCardsKeeps(st: Progress, p: int, cards: seq<Card>)
    requires 1 <= p && Consistent(st, p)
    ensures var r := VisitCards(st, p, cards);
      && Consistent(r, p)
      && st.seen <= r.seen
      && st.products <= r.products
      && forall i :: |st.products| <= i < |r.products| ==> r.products[i].page == p && r.products[i].url !in st.seen
    decreases |cards|
  {
    if cards != [] {
      VisitCardsKeeps(st, p, cards[..|cards| - 1]);
      VisitCardKeeps(VisitCards(st, p, cards[..|cards| - 1]), p, cards[|cards| - 1]);
    }
  }

  /** A state consistent up to page `m` is consistent up to any later page. */
  lemma ConsistentWiden(st: Progress, m: int, m': int)
    requires Consistent(st, m) && m <= m'
    ensures Consistent(st, m')
  {
  }

  /** Every prefix of the run is consistent. */
  lemma {:induction false} ScrapeConsistent(site: string -> Page, k: nat)
    ensures Consistent(ScrapeUpTo(site, k).progress, k)
    decreases k
  {
    if k > 0 {
      ScrapeConsistent(site, k - 1);
      var s := ScrapeUpTo(site, k - 1);
      ConsistentWiden(s.progress, k - 1, k);
      if s.raised.None? && site(PageUrl(k)).Loaded? {
        VisitCardsKeeps(s.progress, k, site(PageUrl(k)).cards);
      } else {
        assert ScrapeUpTo(site, k).progress == s.progress;
      }
    }
  }

  /** The yielded products have distinct canonical URLs and page numbers 1..5 in non-decreasing order. */
  lemma ScrapedProductsUnique(site: string -> Page)
    ensures var ps := ScrapeUpTo(site, MaxPages).progress.products;
      && (forall i, j :: 0 <= i < j < |ps| ==> ps[i].url != ps[j].url && ps[i].page <= ps[j].page)
      && (forall i :: 0 <= i < |ps| ==> 1 <= ps[i].page <= MaxPages && |ps[i].url| > 0 && !StartsWith(ps[i].url, "/"))
  {
    ScrapeConsistent(site, MaxPages);
  }

  /** A card as visited: the page it was on and the card itself. */
  datatype Visit = Visit(page: int, card: Card)

  /** The URL visiting a card records in `seen`: none when reading it fails before its link is read. */
  function Claim(c: Card): Option<string> {
    if c.failure == FailsBeforeLink then None else CanonicalUrl(c.href)
  }

  /** The product a visited card yields. */
  function ProductOf(v: Visit): Product
    requires Claim(v.card).Some?
  {
    Product(v.page, v.card.title, Price(v.card), Claim(v.card).value)
  }

  /** Card `j` is the first to carry its URL, and reading it does not fail. */
  ghost predicate Wins(vs: seq<Visit>, j: int)
    requires 0 <= j < |vs|
  {
    && vs[j].card.failure == NoFailure
    && Claim(vs[j].card).Some?
    && forall i :: 0 <= i < j ==> Claim(vs[i].card) != Claim(vs[j].card)
  }

  /** Product `p` is the one some winning card yields. */
  ghost predicate YieldedBy(vs: seq<Visit>, p: Product) {
    exists j :: 0 <= j < |vs| && Wins(vs, j) && p == ProductOf(vs[j])
  }

  /** Independent reference for the products: those of the winning cards, in visiting order. */
  ghost function Winners(vs: seq<Visit>): seq<Product>
    decreases |vs|
  {
    if vs == [] then []
    else
      var n := |vs| - 1;
      Winners(vs[..n]) + if Wins(vs, n) then [ProductOf(vs[n])] else []
  }

  /** Every URL some visited card carries. */
  ghost function ClaimedBy(vs: seq<Visit>): set<string> {
    set i | 0 <= i < |vs| && Claim(vs[i].card).Some? :: Claim(vs[i].card).value
  }

  /** The cards of page `p`, tagged with it. */
  function Tag(p: int, cards: seq<Card>): (r: seq<Visit>)
    ensures |r| == |cards| && forall i :: 0 <= i < |cards| ==> r[i] == Visit(p, cards[i])
  {
    seq(|cards|, i requires 0 <= i < |cards| => Visit(p, cards[i]))
  }

  /** Tagging a page's cards one more card at a time. */
  lemma TagSnoc(p: int, cards: seq<Card>)
    requires cards != []
    ensures Tag(p, cards) == Tag(p, cards[..|cards| - 1]) + [Visit(p, cards[|cards| - 1])]
  {
  }

  /** Pages 1..k all load. */
  predicate AllLoaded(site: string -> Page, k: nat) {
    forall q :: 1 <= q <= k ==> site(PageUrl(q)).Loaded?
  }

  /** The cards visited over pages 1..k: those of each page that loads, up to the first that times out. */
  ghost function Visited(site: string -> Page, k: nat): seq<Visit>
    decreases k
  {
    if k == 0 then []
    else if !AllLoaded(site, k) then Visited(site, k - 1)
    else Visited(site, k - 1) + Tag(k, site(PageUrl(k)).cards)
  }

  /**
   * One card: a card that does not fail and carries a URL not yet seen appends
   * its product; any other card appends nothing. Either way the URL it carries
   * (even when reading it fails afterwards) is recorded in `seen`.
   */
  lemma VisitCardEffect(st: Progress, p: int, c: Card)
    ensures var r := VisitCard(st, p, c);
      && r.seen == st.seen + (if Claim(c).Some? then {Claim(c).value} else {})
      && (c.failure == NoFailure && Claim(c).Some? && Claim(c).value !in st.seen ==>
            r.products == st.products + [Product(p, c.title, Price(c), Claim(c).value)])
      && (!(c.failure == NoFailure && Claim(c).Some? && Claim(c).value !in st.seen) ==> r.products == st.products)
  {
  }

  /** The URLs carried by the cards visited so far grow by the one the next card carries. */
  lemma ClaimedBySnoc(vs: seq<Visit>, v: Visit)
    ensures ClaimedBy(vs + [v]) == ClaimedBy(vs) + if Claim(v.card).Some? then {Claim(v.card).value} else {}
  {
    var ws := vs + [v];
    forall u | u in ClaimedBy(ws) ensures u in ClaimedBy(vs) || Claim(v.card) == Some(u) {
      var i :| 0 <= i < |ws| && Claim(ws[i].card).Some? && Claim(ws[i].card).value == u;
      if i < |vs| {
        assert ws[i] == vs[i];
      }
    }
    forall u | u in ClaimedBy(vs) ensures u in ClaimedBy(ws) {
      var i :| 0 <= i < |vs| && Claim(vs[i].card).Some? && Claim(vs[i].card).value == u;
      assert ws[i] == vs[i];
    }
    if Claim(v.card).Some? {
      assert ws[|vs|] == v;
    }
  }

  /** The next card wins exactly when it does not fail and carries a URL no earlier card carries. */
  lemma WinsSnoc(vs: seq<Visit>, v: Visit)
    ensures Wins(vs + [v], |vs|)
        <==> v.card.failure == NoFailure && Claim(v.card).Some? && Claim(v.card).value !in ClaimedBy(vs)
  {
    var ws := vs + [v];
    assert ws[|vs|] == v;
    if Claim(v.card).Some? {
      var u := Claim(v.card).value;
      if u in ClaimedBy(vs) {
        var i :| 0 <= i < |vs| && Claim(vs[i].card).Some? && Claim(vs[i].card).value == u;
        assert ws[i] == vs[i];
      } else {
        forall i | 0 <= i < |vs| ensures Claim(ws[i].card) != Claim(v.card) {
          assert ws[i] == vs[i];
        }
      }
    }
  }

  /** Visiting one more card keeps the scraper's state equal to the reference over the cards visited so far. */
  lemma VisitStep(vs: seq<Visit>, v: Visit)
    ensures VisitCard(Progress(ClaimedBy(vs), Winners(vs)), v.page, v.card)
         == Progress(ClaimedBy(vs + [v]), Winners(vs + [v]))
  {
    var ws := vs + [v];
    assert ws[..|vs|] == vs;
    assert ws[|vs|] == v;
    ClaimedBySnoc(vs, v);
    WinsSnoc(vs, v);
    VisitCardEffect(Progress(ClaimedBy(vs), Winners(vs)), v.page, v.card);
  }

  /** Visiting a page's cards keeps the scraper's state equal to the reference over the cards visited so far. */
  lemma {:induction false} VisitCardsStep(vs: seq<Visit>, p: int, cards: seq<Card>)
    ensures VisitCards(Progress(ClaimedBy(vs), Winners(vs)), p, cards)
         == Progress(ClaimedBy(vs + Tag(p, cards)), Winners(vs + Tag(p, cards)))
    decreases |cards|
  {
    if cards == [] {
      assert vs + Tag(p, cards) == vs;
    } else {
      var init := cards[..|cards| - 1];
      var last := Visit(p, cards[|cards| - 1]);
      var front := Tag(p, init);
      VisitCardsStep(vs, p, init);
      VisitStep(vs + front, last);
      TagSnoc(p, cards);
      assert vs + front + [last] == vs + (front + [last]);
    }
  }

  /** The scraper's state over pages 1..k, in terms of the cards visited. */
  ghost predicate ScrapedAsClaimed(site: string -> Page, k: nat) {
    ScrapeUpTo(site, k) == Scrape(
      Progress(ClaimedBy(Visited(site, k)), Winners(Visited(site, k))),
      if AllLoaded(site, k) then None else Some(Timeout))
  }

  /** A page that loads after pages that all loaded visits its cards. */
  lemma LoadedPageStep(site: string -> Page, k: nat)
    requires k > 0 && AllLoaded(site, k) && ScrapedAsClaimed(site, k - 1)
    ensures ScrapedAsClaimed(site, k)
  {
    assert AllLoaded(site, k - 1);
    var vs := Visited(site, k - 1);
    var cards := site(PageUrl(k)).cards;
    assert Visited(site, k) == vs + Tag(k, cards);
    VisitCardsStep(vs, k, cards);
  }

  /** A page that does not load, or follows one that did not, adds no cards. */
  lemma StalledPageStep(site: string -> Page, k: nat)
    requires k > 0 && !AllLoaded(site, k) && ScrapedAsClaimed(site, k - 1)
    ensures ScrapedAsClaimed(site, k)
  {
    assert Visited(site, k) == Visited(site, k - 1);
    if AllLoaded(site, k - 1) {
      assert site(PageUrl(k)).TimedOut?;
    }
  }

  /**
   * Over pages 1..k the scraper has recorded every URL a visited card carries
   * and yielded exactly the products of the winning cards in visiting order;
   * it has raised Timeout exactly when some page timed out.
   */
  lemma {:induction false} ScrapeIsFirstClaims(site: string -> Page, k: nat)
    ensures ScrapeUpTo(site, k) == Scrape(
      Progress(ClaimedBy(Visited(site, k)), Winners(Visited(site, k))),
      if AllLoaded(site, k) then None else Some(Timeout))
    decreases k
  {
    if k > 0 {
      ScrapeIsFirstClaims(site, k - 1);
      if AllLoaded(site, k) {
        LoadedPageStep(site, k);
      } else {
        StalledPageStep(site, k);
      }
    }
  }

  /** Whether a card wins depends only on the cards visited up to it. */
  lemma WinsPrefix(vs: seq<Visit>, n: nat, j: nat)
    requires j < n <= |vs|
    ensures Wins(vs[..n], j) <==> Wins(vs, j)
  {
    assert vs[..n][j] == vs[j];
    assert forall h :: 0 <= h < j ==> vs[..n][h] == vs[h];
  }

  /** The winning card reference product `i` comes from. */
  lemma {:induction false} WinnerSource(vs: seq<Visit>, i: nat) returns (j: nat)
    requires i < |Winners(vs)|
    ensures j < |vs| && Wins(vs, j) && Winners(vs)[i] == ProductOf(vs[j])
    decreases |vs|
  {
    var n := |vs| - 1;
    var init := vs[..n];
    assert Winners(vs) == Winners(init) + if Wins(vs, n) then [ProductOf(vs[n])] else [];
    if i < |Winners(init)| {
      j := WinnerSource(init, i);
      WinsPrefix(vs, n, j);
      assert vs[j] == init[j];
    } else {
      j := n;
    }
  }

  /** Every reference product comes from a winning card. */
  lemma WinnersSound(vs: seq<Visit>)
    ensures forall i :: 0 <= i < |Winners(vs)| ==> YieldedBy(vs, Winners(vs)[i])
  {
    forall i | 0 <= i < |Winners(vs)| ensures YieldedBy(vs, Winners(vs)[i]) {
      var j := WinnerSource(vs, i);
      assert 0 <= j < |vs| && Wins(vs, j) && Winners(vs)[i] == ProductOf(vs[j]);
    }
  }

  /** Where among the reference products a winning card's product stands. */
  lemma {:induction false} WinnerPosition(vs: seq<Visit>, j: nat) returns (i: nat)
    requires j < |vs| && Wins(vs, j)
    ensures i < |Winners(vs)| && Winners(vs)[i] == ProductOf(vs[j])
    decreases |vs|
  {
    var n := |vs| - 1;
    var init := vs[..n];
    assert Winners(vs) == Winners(init) + if Wins(vs, n) then [ProductOf(vs[n])] else [];
    if j == n {
      i := |Winners(init)|;
    } else {
      WinsPrefix(vs, n, j);
      assert vs[j] == init[j];
      i := WinnerPosition(init, j);
    }
  }

  /** Every winning card's product is among the reference products. */
  lemma WinnersComplete(vs: seq<Visit>)
    ensures forall j :: 0 <= j < |vs| && Wins(vs, j) ==> ProductOf(vs[j]) in Winners(vs)
  {
    forall j | 0 <= j < |vs| && Wins(vs, j) ensures ProductOf(vs[j]) in Winners(vs) {
      var i := WinnerPosition(vs, j);
    }
  }

  /** A URL first carried by a card that fails after being recorded never appears among the products. */
  lemma FailedClaimSuppresses(vs: seq<Visit>, j: nat)
    requires j < |vs| && vs[j].card.failure == FailsAfterSeen && Claim(vs[j].card).Some?
    requires forall i :: 0 <= i < j ==> Claim(vs[i].card) != Claim(vs[j].card)
    ensures forall i :: 0 <= i < |Winners(vs)| ==> Winners(vs)[i].url != Claim(vs[j].card).value
  {
    forall i | 0 <= i < |Winners(vs)| ensures Winners(vs)[i].url != Claim(vs[j].card).value {
      var h := WinnerSource(vs, i);
      assert h != j;
      assert h < j ==> Claim(vs[h].card) != Claim(vs[j].card);
      assert j < h ==> Claim(vs[j].card) != Claim(vs[h].card);
    }
  }

  /**
   * The scraper's products are the winning cards' products, in visiting
   * order: each comes from the first card carrying its URL, that card did not
   * fail, and every such card's product is yielded.
   */
  lemma ScrapedFirstOccurrences(site: string -> Page)
    ensures var vs := Visited(site, MaxPages);
      var ps := ScrapeUpTo(site, MaxPages).progress.products;
      && ps == Winners(vs)
      && (forall i :: 0 <= i < |ps| ==> YieldedBy(vs, ps[i]))
      && (forall j :: 0 <= j < |vs| && Wins(vs, j) ==> ProductOf(vs[j]) in ps)
  {
    var vs := Visited(site, MaxPages);
    var ps := ScrapeUpTo(site, MaxPages).progress.products;
    ScrapeIsFirstClaims(site, MaxPages);
    assert ps == Winners(vs);
    forall i | 0 <= i < |ps| ensures YieldedBy(vs, ps[i]) {
      var j := WinnerSource(vs, i);
      assert 0 <= j < |vs| && Wins(vs, j) && ps[i] == ProductOf(vs[j]);
    }
    WinnersComplete(vs);
  }
}

=== FILE: meteo_manila.dfy ===
/**
 * `manila_historical_weather` in dlt/dlt-meteo-pipeline.py: one archive
 * request for Metro Manila covering the last 365 available days, flattened
 * into one row per day. `fetch` stands for the single `requests.get` (no
 * retry is configured) and `today` for the clock.
 */
module MeteoManila {
  import opened Wrappers
  import opened Extract
  import opened OpenMeteo

  /** 14.5995 N, 120.9842 E, in units of 1/10000 degree. */
  const Latitude := 145995
  const Longitude := 1209842

  const ManilaResource := Resource("manila", Append, [])

  /** Lines 12-14: the 365 days ending two days before `today`. */
  function PastYear(today: int): (w: Window)
    ensures Days(w) == 365 && w.end == today - 2
  {
    WindowEndingTwoDaysAgo(today, 365)
  }

  /** Lines 16-29. */
  function ManilaRequest(today: int): (req: Request)
    ensures req.url == ArchiveUrl && req.window == PastYear(today) && req.daily == DailyParam()
    ensures req.latitude == 145995 && req.longitude == 1209842 && req.timezone == "Asia/Manila"
  {
    ArchiveRequest(Latitude, Longitude, PastYear(today))
  }

  /**
   * Lines 31-48: an error status raises before any row; otherwise one row per
   * entry of `daily.time`, in order, row i holding index i of every array,
   * until an array runs out.
   */
  function ManilaHistoricalWeather(fetch: Request -> Response, today: int): (r: Run<DayRow>)
    ensures var resp := fetch(ManilaRequest(today));
      && (IsErrorStatus(resp.status) ==> r == Run([], Some(HttpError(resp.status))))
      && (r.raised.None? ==>
            && ReadDaily(resp).Ok?
            && var a := ReadDaily(resp).value;
            && |a.tempMin| >= |a.time| && |a.tempMax| >= |a.time|
            && |a.precipitation| >= |a.time| && |a.weatherCode| >= |a.time|
            && |r.yielded| == |a.time|
            && forall i :: 0 <= i < |r.yielded| ==>
                 r.yielded[i] == DayRow(a.time[i], a.tempMin[i], a.tempMax[i], a.precipitation[i], a.weatherCode[i]))
    ensures var resp := fetch(ManilaRequest(today));
      !IsErrorStatus(resp.status) && resp.daily.None? ==> r == Run([], Some(KeyError("daily")))
    ensures var rd := ReadDaily(fetch(ManilaRequest(today)));
      && (rd.Err? ==> r == Run([], Some(rd.error)))
      && (rd.Ok? ==> r == ZipDaily(rd.value))
  {
    DailyRun(fetch(ManilaRequest(today)))
  }
}

=== FILE: meteo_regions.dfy ===
/**
 * `ph_regions_past_week` in dlt/extract-loads/03-dlt-xtra-meteo-ph-regions.py:
 * one archive request per Philippine region for the last seven available
 * days, flattened into one row per region and day. `fetch` stands for the
 * HTTP session and `today` for the clock.
 */
module MeteoRegions {
  import opened Wrappers
  import opened Dicts
  import opened Extract
  import opened OpenMeteo

  /** A region and its representative point, in units of 1/10000 degree. */
  datatype Region = Region(code: string, name: string, lat: int, lon: int)

  const PhRegions: seq<Region> := [
    Region("NCR", "National Capital Region (Metro Manila)", 145995, 1209842),
    Region("I", "Ilocos Region", 166159, 1203167),
    Region("II", "Cagayan Valley", 176131, 1217269),
    Region("III", "Central Luzon", 150333, 1206833),
    Region("IV", "Southern Tagalog", 142117, 1211653),
    Region("V", "Bicol Region", 131390, 1237438),
    Region("VI", "Western Visayas", 107202, 1225621),
    Region("VII", "Central Visayas", 103157, 1238854),
    Region("VIII", "Eastern Visayas", 112440, 1250030),
    Region("IX", "Western Mindanao", 69214, 1220790),
    Region("X", "Northern Mindanao", 84820, 1246472),
    Region("XI", "Southern Mindanao", 71907, 1254557)
  ]

  function Codes(regions: seq<Region>): (codes: seq<string>)
    ensures |codes| == |regions|
    ensures forall j :: 0 <= j < |regions| ==> codes[j] == regions[j].code
  {
    seq(|regions|, j requires 0 <= j < |regions| => regions[j].code)
  }

  /** The region codes of the table, in order. */
  lemma PhRegionCodes()
    ensures Codes(PhRegions) == ["NCR", "I", "II", "III", "IV", "V", "VI", "VII", "VIII", "IX", "X", "XI"]
  {
  }

  /** The table has twelve regions, no two with the same code. */
  lemma PhRegionsTable()
    ensures |PhRegions| == 12 && Distinct(Codes(PhRegions))
  {
    PhRegionCodes();
  }

  /** Lines 30-34: merged on (region_code, date). */
  const RegionsDailyResource := Resource("regions_daily", Merge, ["region_code", "date"])

  /** Lines 40-42: the seven days ending two days before `today`. */
  function PastWeek(today: int): (w: Window)
    ensures Days(w) == 7 && w.end == today - 2
  {
    WindowEndingTwoDaysAgo(today, 7)
  }

  /** Lines 53-60. */
  function RegionRequest(r: Region, w: Window): Request {
    ArchiveRequest(r.lat, r.lon, w)
  }

  /** A yielded row: the region's four fields and the day's five. */
  datatype RegionRow = RegionRow(code: string, name: string, latitude: int, longitude: int, day: DayRow)

  function RegionOf(row: RegionRow): Region {
    Region(row.code, row.name, row.latitude, row.longitude)
  }

  /** Lines 61-82 for one region: its fields copied onto every day of the reply. */
  function RegionRows(r: Region, resp: Response): (rows: Run<RegionRow>)
    ensures rows.raised == DailyRun(resp).raised
    ensures |rows.yielded| == |DailyRun(resp).yielded|
    ensures forall i :: 0 <= i < |rows.yielded| ==>
      RegionOf(rows.yielded[i]) == r && rows.yielded[i].day == DailyRun(resp).yielded[i]
  {
    var days := DailyRun(resp);
    Run(seq(|days.yielded|, i requires 0 <= i < |days.yielded| =>
      RegionRow(r.code, r.name, r.lat, r.lon, days.yielded[i])), days.raised)
  }

  /** Lines 52-82 over a region table: regions in order, stopping at the first one that raises. */
  function RegionsFrom(regions: seq<Region>, fetch: Request -> Response, w: Window): Run<RegionRow>
    decreases |regions|
  {
    if regions == [] then Run([], None)
    else
      var first := RegionRows(regions[0], fetch(RegionRequest(regions[0], w)));
      if first.raised.Some? then first
      else
        var rest := RegionsFrom(regions[1..], fetch, w);
        Run(first.yielded + rest.yielded, rest.raised)
  }

  /** `ph_regions_past_week()`. */
  function PhRegionsPastWeek(fetch: Request -> Response, today: int): Run<RegionRow> {
    RegionsFrom(PhRegions, fetch, PastWeek(today))
  }

  /** The run each region of the table gives on its own, in table order. */
  function RegionRuns(regions: seq<Region>, fetch: Request -> Response, w: Window): (runs: seq<Run<RegionRow>>)
    ensures |runs| == |regions|
    ensures forall j :: 0 <= j < |regions| ==> runs[j] == RegionRows(regions[j], fetch(RegionRequest(regions[j], w)))
  {
    seq(|regions|, j requires 0 <= j < |regions| => RegionRows(regions[j], fetch(RegionRequest(regions[j], w))))
  }

  /** The region at index `j` of the table fails (an error status, a missing key or a short array). */
  predicate RegionFails(regions: seq<Region>, j: int, fetch: Request -> Response, w: Window)
    requires 0 <= j < |regions|
  {
    DailyRun(fetch(RegionRequest(regions[j], w))).raised.Some?
  }

  /** The regions are fetched one after another, and the first one that raises ends the run. */
  lemma {:induction false} RegionsFromIsChain(regions: seq<Region>, fetch: Request -> Response, w: Window)
    ensures RegionsFrom(regions, fetch, w) == Chain(RegionRuns(regions, fetch, w))
    decreases |regions|
  {
    if regions != [] {
      RegionsFromIsChain(regions[1..], fetch, w);
      assert RegionRuns(regions, fetch, w)[1..] == RegionRuns(regions[1..], fetch, w);
    }
  }

  /**
   * With `f` the first region that fails (or the table's length when none
   * does), the run is the rows of the regions before `f`, in table order,
   * followed by what region `f` yields before raising, and it ends with that
   * region's error.
   */
  lemma RegionsFromConcat(regions: seq<Region>, fetch: Request -> Response, w: Window, f: nat)
    requires f <= |regions| && forall j :: 0 <= j < f ==> !RegionFails(regions, j, fetch, w)
    requires f < |regions| ==> RegionFails(regions, f, fetch, w)
    ensures var runs := RegionRuns(regions, fetch, w);
      && (f == |regions| ==> RegionsFrom(regions, fetch, w) == Run(Flatten(runs), None))
      && (f < |regions| ==> RegionsFrom(regions, fetch, w) == Run(Flatten(runs[..f]) + runs[f].yielded, runs[f].raised))
  {
    var runs := RegionRuns(regions, fetch, w);
    forall j | 0 <= j < f ensures runs[j].raised.None? {
      assert !RegionFails(regions, j, fetch, w);
    }
    RegionsFromIsChain(regions, fetch, w);
    ChainConcat(runs, f);
  }

  ghost predicate FromRegion(row: RegionRow, regions: seq<Region>) {
    exists j :: 0 <= j < |regions| && regions[j] == RegionOf(row)
  }

  /**
   * The run finishes without error exactly when no region fails, the first
   * region's rows come first, and every row carries the fields of a region of
   * the table.
   */
  lemma {:induction false} RegionsFromShape(regions: seq<Region>, fetch: Request -> Response, w: Window)
    ensures var run := RegionsFrom(regions, fetch, w);
      && (run.raised.None? <==> forall j :: 0 <= j < |regions| ==> !RegionFails(regions, j, fetch, w))
      && (forall k :: 0 <= k < |run.yielded| ==> FromRegion(run.yielded[k], regions))
      && (regions != [] ==> RegionRows(regions[0], fetch(RegionRequest(regions[0], w))).yielded <= run.yielded)
    decreases |regions|
  {
    if regions != [] {
      RegionsFromShape(regions[1..], fetch, w);
      var run := RegionsFrom(regions, fetch, w);
      var first := RegionRows(regions[0], fetch(RegionRequest(regions[0], w)));
      if first.raised.None? {
        var rest := RegionsFrom(regions[1..], fetch, w);
        forall k | 0 <= k < |run.yielded| ensures FromRegion(run.yielded[k], regions) {
          if k < |first.yielded| {
            assert regions[0] == RegionOf(run.yielded[k]);
          } else {
            assert run.yielded[k] == rest.yielded[k - |first.yielded|];
            var j :| 0 <= j < |regions[1..]| && regions[1..][j] == RegionOf(rest.yielded[k - |first.yielded|]);
            assert regions[j + 1] == RegionOf(run.yielded[k]);
          }
        }
        forall j | 0 <= j < |regions[1..]|
          ensures RegionFails(regions[1..], j, fetch, w) == RegionFails(regions, j + 1, fetch, w)
        {
        }
        if run.raised.None? {
          forall j | 0 <= j < |regions| ensures !RegionFails(regions, j, fetch, w) {
            if j > 0 {
              assert !RegionFails(regions[1..], j - 1, fetch, w);
            }
          }
        } else {
          var j :| 0 <= j < |regions[1..]| && RegionFails(regions[1..], j, fetch, w);
          assert RegionFails(regions, j + 1, fetch, w);
        }
      } else {
        assert RegionFails(regions, 0, fetch, w);
        forall k | 0 <= k < |run.yielded| ensures FromRegion(run.yielded[k], regions) {
          assert regions[0] == RegionOf(run.yielded[k]);
        }
      }
    }
  }

  /** The reply for a region lists each date at most once. */
  predicate DatesDistinct(resp: Response) {
    resp.daily.Some? && resp.daily.value.time.Some? ==>
      forall i, j :: 0 <= i < j < |resp.daily.value.time.value| ==> resp.daily.value.time.value[i] != resp.daily.value.time.value[j]
  }

  /** No two rows share the merge key (region_code, date). */
  predicate KeysUnique(rows: seq<RegionRow>) {
    forall a, b :: 0 <= a < b < |rows| ==> rows[a].code != rows[b].code || rows[a].day.date != rows[b].day.date
  }

  /** Rows of one region followed by rows of other regions keep unique keys when each part does. */
  lemma ConcatKeysUnique(xs: seq<RegionRow>, ys: seq<RegionRow>, code: string)
    requires KeysUnique(xs) && KeysUnique(ys)
    requires forall a :: 0 <= a < |xs| ==> xs[a].code == code
    requires forall b :: 0 <= b < |ys| ==> ys[b].code != code
    ensures KeysUnique(xs + ys)
  {
    var zs := xs + ys;
    forall a, b | 0 <= a < b < |zs| ensures zs[a].code != zs[b].code || zs[a].day.date != zs[b].day.date {
      if b < |xs| {
        assert zs[a] == xs[a] && zs[b] == xs[b];
      } else if a < |xs| {
        assert zs[a] == xs[a] && zs[b] == ys[b - |xs|];
      } else {
        assert zs[a] == ys[a - |xs|] && zs[b] == ys[b - |xs|];
      }
    }
  }

  /** Dropping the first region keeps the codes distinct, and none of the others has its code. */
  lemma TailCodes(regions: seq<Region>)
    requires regions != [] && Distinct(Codes(regions))
    ensures Distinct(Codes(regions[1..]))
    ensures forall j :: 0 <= j < |regions[1..]| ==> regions[1..][j].code != regions[0].code
  {
    var tail := regions[1..];
    forall a, b | 0 <= a < b < |tail| ensures Codes(tail)[a] != Codes(tail)[b] {
      assert Codes(regions)[a + 1] != Codes(regions)[b + 1];
    }
    forall j | 0 <= j < |tail| ensures tail[j].code != regions[0].code {
      assert Codes(regions)[0] != Codes(regions)[j + 1];
    }
  }

  /** The rows of one region's reply have unique keys when the reply lists each date once. */
  lemma RegionRowsKeysUnique(r: Region, resp: Response)
    requires DatesDistinct(resp)
    ensures KeysUnique(RegionRows(r, resp).yielded)
    ensures forall a :: 0 <= a < |RegionRows(r, resp).yielded| ==> RegionRows(r, resp).yielded[a].code == r.code
  {
    if ReadDaily(resp).Ok? {
      DailyRunDatesDistinct(resp);
    }
  }

  /** A run over some regions only holds their codes. */
  lemma RunCodes(regions: seq<Region>, fetch: Request -> Response, w: Window, code: string)
    requires forall j :: 0 <= j < |regions| ==> regions[j].code != code
    ensures forall b :: 0 <= b < |RegionsFrom(regions, fetch, w).yielded| ==> RegionsFrom(regions, fetch, w).yielded[b].code != code
  {
    var rows := RegionsFrom(regions, fetch, w).yielded;
    RegionsFromShape(regions, fetch, w);
    forall b | 0 <= b < |rows| ensures rows[b].code != code {
      assert FromRegion(rows[b], regions);
      var j :| 0 <= j < |regions| && regions[j] == RegionOf(rows[b]);
    }
  }

  /**
   * With distinct region codes, and replies that list each date once, no two
   * rows of the run share the merge key (region_code, date).
   */
  lemma {:induction false} MergeKeysUnique(regions: seq<Region>, fetch: Request -> Response, w: Window)
    requires Distinct(Codes(regions))
    requires forall j :: 0 <= j < |regions| ==> DatesDistinct(fetch(RegionRequest(regions[j], w)))
    ensures KeysUnique(RegionsFrom(regions, fetch, w).yielded)
    decreases |regions|
  {
    if regions != [] {
      var resp := fetch(RegionRequest(regions[0], w));
      var first := RegionRows(regions[0], resp);
      RegionRowsKeysUnique(regions[0], resp);
      if first.raised.None? {
        var tail := regions[1..];
        TailCodes(regions);
        forall j | 0 <= j < |tail| ensures DatesDistinct(fetch(RegionRequest(tail[j], w))) {
          assert tail[j] == regions[j + 1];
        }
        MergeKeysUnique(tail, fetch, w);
        RunCodes(tail, fetch, w, regions[0].code);
        var rest := RegionsFrom(tail, fetch, w);
        ConcatKeysUnique(first.yielded, rest.yielded, regions[0].code);
        assert RegionsFrom(regions, fetch, w).yielded == first.yielded + rest.yielded;
      }
    }
  }

  /**
   * `ph_regions_past_week()` over the literal twelve-region table: when each
   * reply lists each date once, no two rows share the merge key, and the run
   * finishes without error exactly when no region fails.
   */
  lemma PhRegionsPastWeekKeysUnique(fetch: Request -> Response, today: int)
    requires forall j :: 0 <= j < |PhRegions| ==> DatesDistinct(fetch(RegionRequest(PhRegions[j], PastWeek(today))))
    ensures KeysUnique(PhRegionsPastWeek(fetch, today).yielded)
    ensures PhRegionsPastWeek(fetch, today).raised.None? <==>
      forall j :: 0 <= j < |PhRegions| ==> !RegionFails(PhRegions, j, fetch, PastWeek(today))
  {
    PhRegionsTable();
    MergeKeysUnique(PhRegions, fetch, PastWeek(today));
    RegionsFromShape(PhRegions, fetch, PastWeek(today));
  }
}

=== FILE: open_meteo.dfy ===
/**
 * What the two Open-Meteo loaders share: the archive request, the `daily`
 * block of its JSON reply as parallel arrays, and the flattening of those
 * arrays into one row per day. Dates are day numbers; temperatures and
 * precipitation are copied through as they arrive (a number or null).
 */
module OpenMeteo {
  import opened Wrappers
  import opened Text
  import opened Extract

  const ArchiveUrl := "https://archive-api.open-meteo.com/v1/archive"
  const Timezone := "Asia/Manila"

  /** The four daily variables, in the order they are requested. */
  const DailyVariables: seq<string> := ["weather_code", "temperature_2m_min", "temperature_2m_max", "precipitation_sum"]

  /** The `daily` request parameter: the variable names joined by commas. */
  function DailyParam(): string {
    Join(DailyVariables, ',')
  }

  /** The `daily` parameter names exactly the four variables, in order. */
  lemma DailyParamNamesVariables()
    ensures Split(DailyParam(), ',') == DailyVariables
  {
    SplitJoin(DailyVariables, ',');
  }

  /** An inclusive range of days. */
  datatype Window = Window(start: int, end: int)

  function Days(w: Window): int {
    w.end - w.start + 1
  }

  /** The archive lags two days behind: the window ends on `today - 2` and spans `days` days. */
  function WindowEndingTwoDaysAgo(today: int, days: nat): (w: Window)
    requires days > 0
    ensures Days(w) == days
    ensures w.end < today && today - w.end == 2
  {
    var end := today - 2;
    Window(end - (days - 1), end)
  }

  /** An archive request. Coordinates are in units of 1/10000 degree. */
  datatype Request = Request(url: string, latitude: int, longitude: int, window: Window, daily: string, timezone: string)

  function ArchiveRequest(latitude: int, longitude: int, w: Window): Request {
    Request(ArchiveUrl, latitude, longitude, w, DailyParam(), Timezone)
  }

  /** The `daily` object of a reply; each array is None when its key is missing. */
  datatype DailyJson = DailyJson(
    time: Option<seq<string>>,
    tempMin: Option<seq<Option<real>>>,
    tempMax: Option<seq<Option<real>>>,
    precipitation: Option<seq<Option<real>>>,
    weatherCode: Option<seq<Option<int>>>)

  /** A reply: its HTTP status and, when the body has one, its `daily` object. */
  datatype Response = Response(status: int, daily: Option<DailyJson>)

  /** The five parallel arrays once they have all been read. */
  datatype Arrays = Arrays(
    time: seq<string>,
    tempMin: seq<Option<real>>,
    tempMax: seq<Option<real>>,
    precipitation: seq<Option<real>>,
    weatherCode: seq<Option<int>>)

  /**
   * `resp.raise_for_status()` and the five `payload["daily"][...]` lookups, in
   * source order: an error status, then a missing `daily`, then the first
   * missing array raises.
   */
  function ReadDaily(resp: Response): (r: Result<Arrays, Error>)
    ensures IsErrorStatus(resp.status) ==> r == Err(HttpError(resp.status))
    ensures !IsErrorStatus(resp.status) && resp.daily.None? ==> r == Err(KeyError("daily"))
    ensures r.Ok? <==>
      && !IsErrorStatus(resp.status) && resp.daily.Some?
      && resp.daily.value.time.Some? && resp.daily.value.tempMin.Some? && resp.daily.value.tempMax.Some?
      && resp.daily.value.precipitation.Some? && resp.daily.value.weatherCode.Some?
    ensures r.Ok? ==> var d := resp.daily.value;
      r.value == Arrays(d.time.value, d.tempMin.value, d.tempMax.value, d.precipitation.value, d.weatherCode.value)
    ensures r.Err? && !IsErrorStatus(resp.status) ==> r.error.KeyError?
  {
    if IsErrorStatus(resp.status) then Err(HttpError(resp.status))
    else match resp.daily
      case None => Err(KeyError("daily"))
      case Some(d) =>
        if d.time.None? then Err(KeyError("time"))
        else if d.tempMin.None? then Err(KeyError("temperature_2m_min"))
        else if d.tempMax.None? then Err(KeyError("temperature_2m_max"))
        else if d.precipitation.None? then Err(KeyError("precipitation_sum"))
        else if d.weatherCode.None? then Err(KeyError("weather_code"))
        else Ok(Arrays(d.time.value, d.tempMin.value, d.tempMax.value, d.precipitation.value, d.weatherCode.value))
  }

  /** The five fields yielded for one day. */
  datatype DayRow = DayRow(date: string, tempMin: Option<real>, tempMax: Option<real>, precipitation: Option<real>, weatherCode: Option<int>)

  function Min(a: nat, b: nat): nat {
    if a < b then a else b
  }

  /** How many leading days every array covers. */
  function Covered(a: Arrays): nat {
    Min(Min(Min(Min(|a.time|, |a.tempMin|), |a.tempMax|), |a.precipitation|), |a.weatherCode|)
  }

  /**
   * `for i, dt in enumerate(times): yield {...}`: row i takes index i of every
   * array; the first index past the end of a shorter array raises IndexError.
   */
  function ZipDaily(a: Arrays): (r: Run<DayRow>)
    ensures |r.yielded| <= |a.time|
    ensures forall i :: 0 <= i < |r.yielded| ==>
      && i < |a.tempMin| && i < |a.tempMax| && i < |a.precipitation| && i < |a.weatherCode|
      && r.yielded[i] == DayRow(a.time[i], a.tempMin[i], a.tempMax[i], a.precipitation[i], a.weatherCode[i])
    ensures r.raised.None? <==>
      |a.tempMin| >= |a.time| && |a.tempMax| >= |a.time| && |a.precipitation| >= |a.time| && |a.weatherCode| >= |a.time|
    ensures r.raised.None? ==> |r.yielded| == |a.time|
    ensures r.raised.Some? ==> r.raised.value == IndexError
    ensures r.raised.Some? ==>
      || |r.yielded| == |a.tempMin| || |r.yielded| == |a.tempMax|
      || |r.yielded| == |a.precipitation| || |r.yielded| == |a.weatherCode|
  {
    var m := Covered(a);
    var rows := seq(m, i requires 0 <= i < m =>
      DayRow(a.time[i], a.tempMin[i], a.tempMax[i], a.precipitation[i], a.weatherCode[i]));
    Run(rows, if m < |a.time| then Some(IndexError) else None)
  }

  /** The rows of one reply: read the arrays, then flatten them. */
  function DailyRun(resp: Response): (r: Run<DayRow>)
    ensures ReadDaily(resp).Err? ==> r == Run([], Some(ReadDaily(resp).error))
    ensures ReadDaily(resp).Ok? ==> r == ZipDaily(ReadDaily(resp).value)
  {
    match ReadDaily(resp)
    case Err(e) => Run([], Some(e))
    case Ok(a) => ZipDaily(a)
  }

  /** Distinct dates in `time` give distinct dates in the yielded rows. */
  lemma DailyRunDatesDistinct(resp: Response)
    requires resp.daily.Some? && resp.daily.value.time.Some?
    requires forall i, j :: 0 <= i < j < |resp.daily.value.time.value| ==> resp.daily.value.time.value[i] != resp.daily.value.time.value[j]
    ensures var rows := DailyRun(resp).yielded;
      forall i, j :: 0 <= i < j < |rows| ==> rows[i].date != rows[j].date
  {
  }
}

=== FILE: oulad.dfy ===
/**
 * The OULAD loaders in dlt/extract-loads/Grp2-dlt-student-pipeline.py. The
 * staging directory is given as its entries (file name and the table
 * `pd.read_csv` reads from it, in listing order); each loaded table becomes a
 * DataFrame object that the loader tags in place with its source file.
 */
module Oulad {
  import opened Wrappers
  import opened Text
  import opened Dicts
  import opened Extract
  import opened Filters

  /** A table as `pd.read_csv` returns it: column names and rows of cells. */
  datatype Table = Table(columns: seq<string>, rows: seq<map<string, string>>)

  /** Reference definition of `df[name] = value`: the column is added (at the end) or overwritten in every row. */
  function WithColumn(t: Table, name: string, value: string): Table {
    Table(if name in t.columns then t.columns else t.columns + [name],
          seq(|t.rows|, i requires 0 <= i < |t.rows| => t.rows[i][name := value]))
  }

  /** After `df[name] = value` every row holds `value` under `name` and keeps its other cells; no column is lost. */
  lemma WithColumnShape(t: Table, name: string, value: string)
    ensures var r := WithColumn(t, name, value);
      && name in r.columns
      && (forall c :: c in t.columns ==> c in r.columns)
      && |r.columns| <= |t.columns| + 1
      && |r.rows| == |t.rows|
      && forall i :: 0 <= i < |t.rows| ==>
           r.rows[i][name] == value && r.rows[i].Keys == t.rows[i].Keys + {name}
           && forall c :: c in t.rows[i] && c != name ==> r.rows[i][c] == t.rows[i][c]
  {
  }

  /** A pandas DataFrame, updated in place. */
  class DataFrame {
    var columns: seq<string>
    var rows: seq<map<string, string>>

    function Value(): Table
      reads this
    {
      Table(columns, rows)
    }

    constructor (t: Table)
      ensures Value() == t
    {
      columns := t.columns;
      rows := t.rows;
    }

    /** `df[name] = value` with a scalar value. */
    method SetColumn(name: string, value: string)
      modifies this
      ensures Value() == WithColumn(old(Value()), name, value)
    {
      if name !in columns {
        columns := columns + [name];
      }
      var current := rows;
      rows := seq(|current|, i requires 0 <= i < |current| => current[i][name := value]);
    }
  }

  /** Lines 10-18: the files loaded together, in this order. */
  const CsvFiles: seq<string> := [
    "assessments.csv", "courses.csv", "studentAssessment.csv", "studentInfo.csv",
    "studentRegistration.csv", "vle.csv", "studentVle.csv"]

  const SourceColumn := "_source_file"

  /** `os.path.join(a, b)`: an absolute `b` replaces `a`; otherwise one '/' separates them. */
  function PathJoin(a: string, b: string): string {
    if StartsWith(b, "/") then b
    else if a == "" || a[|a| - 1] == '/' then a + b
    else a + "/" + b
  }

  /** `os.path.join(ROOT_DIR, "staging", "oulad")` for the script's directory `root`. */
  function StagingDir(root: string): string {
    PathJoin(PathJoin(root, "staging"), "oulad")
  }

  /** The `_source_file` tag: the file name with every ".csv" removed. */
  function SourceTag(name: string): string {
    ReplaceAll(name, ".csv", "")
  }

  /** A name with no '.' before its ".csv" suffix is tagged with exactly that stem. */
  lemma SourceTagOfStem(stem: string)
    requires '.' !in stem
    ensures SourceTag(stem + ".csv") == stem
  {
    ReplaceAllDropsSuffix(stem, ".csv");
  }

  /** Each listed file is tagged with its name minus ".csv". */
  lemma ListedTags()
    ensures forall i :: 0 <= i < |CsvFiles| ==> SourceTag(CsvFiles[i]) + ".csv" == CsvFiles[i]
  {
    var stems := ["assessments", "courses", "studentAssessment", "studentInfo", "studentRegistration", "vle", "studentVle"];
    forall i | 0 <= i < |CsvFiles| ensures SourceTag(CsvFiles[i]) + ".csv" == CsvFiles[i] {
      assert CsvFiles[i] == stems[i] + ".csv";
      SourceTagOfStem(stems[i]);
    }
  }

  /** The names among `names` that exist in the directory, in list order. */
  function Present(dir: Dict<string, Table>, names: seq<string>): seq<string>
    decreases |names|
  {
    if names == [] then []
    else
      var init := Present(dir, names[..|names| - 1]);
      if Get(dir, names[|names| - 1]).Some? then init + [names[|names| - 1]] else init
  }

  /** The warnings printed for the names that do not exist, in list order. */
  function Warnings(dir: Dict<string, Table>, names: seq<string>): seq<string>
    decreases |names|
  {
    if names == [] then []
    else
      var init := Warnings(dir, names[..|names| - 1]);
      var n := names[|names| - 1];
      if Get(dir, n).Some? then init else init + ["Warning: File " + n + " not found"]
  }

  /** What `oulad_all_files` yields for the `j`-th present file. */
  function TaggedFile(dir: Dict<string, Table>, name: string): Table
    requires Get(dir, name).Some?
  {
    WithColumn(Get(dir, name).value, SourceColumn, SourceTag(name))
  }

  /** Every name is either loaded or warned about, never both; loaded names exist and keep list order. */
  lemma {:induction false} PresentSplit(dir: Dict<string, Table>, names: seq<string>)
    ensures |Present(dir, names)| + |Warnings(dir, names)| == |names|
    ensures forall k :: 0 <= k < |Present(dir, names)| ==> Get(dir, Present(dir, names)[k]).Some?
    ensures forall n :: n in names ==> (n in Present(dir, names) <==> Get(dir, n).Some?)
    decreases |names|
  {
    if names != [] {
      var init := names[..|names| - 1];
      PresentSplit(dir, init);
      assert names == init + [names[|names| - 1]];
    }
  }

  /** The tagged tables for the names that exist, in list order. */
  function Tagged(dir: Dict<string, Table>, names: seq<string>): seq<Table>
    decreases |names|
  {
    if names == [] then []
    else
      var init := Tagged(dir, names[..|names| - 1]);
      var n := names[|names| - 1];
      match Get(dir, n)
      case Some(t) => init + [WithColumn(t, SourceColumn, SourceTag(n))]
      case None => init
  }

  /** The tagged tables are the present files, each tagged with its own name. */
  lemma {:induction false} TaggedPresent(dir: Dict<string, Table>, names: seq<string>)
    ensures |Tagged(dir, names)| == |Present(dir, names)|
    ensures forall j :: 0 <= j < |Present(dir, names)| ==>
      Get(dir, Present(dir, names)[j]).Some? && Tagged(dir, names)[j] == TaggedFile(dir, Present(dir, names)[j])
    decreases |names|
  {
    if names != [] {
      TaggedPresent(dir, names[..|names| - 1]);
    }
  }

  /** Lines 22-24: read one file into a new frame and tag it with its name. */
  method LoadTagged(t: Table, name: string) returns (df: DataFrame)
    ensures fresh(df)
    ensures df.Value() == WithColumn(t, SourceColumn, SourceTag(name))
  {
    df := new DataFrame(t);
    df.SetColumn(SourceColumn, SourceTag(name));
  }

  /**
   * Lines 19-27 over a list of file names: load each one that exists, tag it
   * with its name, and print a warning for each one that does not.
   */
  method LoadListed(dir: Dict<string, Table>, names: seq<string>) returns (frames: seq<DataFrame>, warnings: seq<string>)
    ensures |frames| == |Present(dir, names)|
    ensures forall j :: 0 <= j < |frames| ==>
      Get(dir, Present(dir, names)[j]).Some? && frames[j].Value() == TaggedFile(dir, Present(dir, names)[j])
    ensures warnings == Warnings(dir, names)
  {
    frames, warnings := [], [];
    ghost var tables: seq<Table> := [];
    for i := 0 to |names|
      invariant |frames| == |tables|
      invariant forall j :: 0 <= j < |frames| ==> frames[j].Value() == tables[j]
      invariant tables == Tagged(dir, names[..i])
      invariant warnings == Warnings(dir, names[..i])
    {
      var name := names[i];
      assert names[..i + 1][..i] == names[..i];
      var content := Get(dir, name);
      if content.Some? {
        var df := LoadTagged(content.value, name);
        frames := frames + [df];
        tables := tables + [df.Value()];
      } else {
        warnings := warnings + ["Warning: File " + name + " not found"];
      }
    }
    assert names[..|names|] == names;
    TaggedPresent(dir, names);
  }

  /** Lines 7-27: the seven listed files; a missing file is warned about and never raises. */
  method OuladAllFiles(dir: Dict<string, Table>) returns (frames: seq<DataFrame>, warnings: seq<string>)
    ensures |frames| == |Present(dir, CsvFiles)|
    ensures forall j :: 0 <= j < |frames| ==>
      Get(dir, Present(dir, CsvFiles)[j]).Some? && frames[j].Value() == TaggedFile(dir, Present(dir, CsvFiles)[j])
    ensures warnings == Warnings(dir, CsvFiles)
  {
    frames, warnings := LoadListed(dir, CsvFiles);
  }

  /** At most seven frames, and exactly one for each listed file that exists. */
  lemma AllFilesBound(dir: Dict<string, Table>)
    ensures |Present(dir, CsvFiles)| <= 7
    ensures forall n :: n in CsvFiles ==> (n in Present(dir, CsvFiles) <==> Get(dir, n).Some?)
  {
    PresentSplit(dir, CsvFiles);
  }

  /** `glob("*.csv")` matches a name that ends in ".csv" and does not start with '.'. */
  predicate MatchesCsvGlob(name: string) {
    |name| >= 4 && name[|name| - 4..] == ".csv" && !StartsWith(name, ".")
  }

  /** A directory entry whose name `glob("*.csv")` matches. */
  predicate GlobbedEntry(e: (string, Table)) {
    MatchesCsvGlob(e.0)
  }

  /** The directory entries `glob` returns: every entry matching `*.csv`, in listing order. */
  function Globbed(dir: Dict<string, Table>): (g: Dict<string, Table>)
    ensures |g| <= |dir|
    ensures forall k :: 0 <= k < |g| ==> MatchesCsvGlob(g[k].0) && g[k] in dir
    decreases |dir|
  {
    if dir == [] then []
    else
      var init := Globbed(dir[..|dir| - 1]);
      if MatchesCsvGlob(dir[|dir| - 1].0) then init + [dir[|dir| - 1]] else init
  }

  /** `glob` keeps every entry matching `*.csv`, and only those, in listing order. */
  lemma {:induction false} GlobbedKeepsInOrder(dir: Dict<string, Table>)
    ensures FilterOf(dir, GlobbedEntry, Globbed(dir))
    decreases |dir|
  {
    if dir != [] {
      var init := dir[..|dir| - 1];
      var last := dir[|dir| - 1];
      GlobbedKeepsInOrder(init);
      FilterOfSnoc(init, last, GlobbedEntry, Globbed(init));
      assert init + [last] == dir;
    }
  }

  /** Lines 75-86: every globbed file, tagged with its base name minus ".csv". */
  method OuladDynamic(dir: Dict<string, Table>) returns (frames: seq<DataFrame>)
    ensures |frames| == |Globbed(dir)|
    ensures forall j :: 0 <= j < |frames| ==>
      frames[j].Value() == WithColumn(Globbed(dir)[j].1, SourceColumn, SourceTag(Globbed(dir)[j].0))
  {
    frames := [];
    for i := 0 to |dir|
      invariant |frames| == |Globbed(dir[..i])|
      invariant forall j :: 0 <= j < |frames| ==>
        frames[j].Value() == WithColumn(Globbed(dir[..i])[j].1, SourceColumn, SourceTag(Globbed(dir[..i])[j].0))
    {
      assert dir[..i + 1][..i] == dir[..i];
      var (name, content) := dir[i];
      if MatchesCsvGlob(name) {
        var df := new DataFrame(content);
        df.SetColumn(SourceColumn, SourceTag(name));
        frames := frames + [df];
      }
    }
    assert dir[..|dir|] == dir;
  }

  /** Lines 29-71: the resource name and file of each per-file resource. */
  const PerFileResources: seq<(string, string)> := [
    ("assessments", "assessments.csv"), ("courses", "courses.csv"),
    ("student_assessment", "studentAssessment.csv"), ("student_info", "studentInfo.csv"),
    ("student_registration", "studentRegistration.csv"), ("vle", "vle.csv"),
    ("student_vle", "studentVle.csv")]

  /** One per-file resource: read the file with no existence check, untagged. */
  function PerFile(root: string, dir: Dict<string, Table>, file: string): (r: Run<Table>)
    ensures Get(dir, file).None? ==> r == Run([], Some(FileNotFound(PathJoin(StagingDir(root), file))))
    ensures Get(dir, file).Some? ==> r == Run([Get(dir, file).value], None)
  {
    match Get(dir, file)
    case None => Run([], Some(FileNotFound(PathJoin(StagingDir(root), file))))
    case Some(t) => Run([t], None)
  }

  /** The per-file resources cover the same seven files, in the same order. */
  lemma PerFileMatchesList()
    ensures |PerFileResources| == |CsvFiles|
    ensures forall i :: 0 <= i < |CsvFiles| ==> PerFileResources[i].1 == CsvFiles[i]
  {
  }
}

=== FILE: poke.dfy ===
/**
 * `gen1_pokemon` in dlt/extract-loads/05-dlt-poke-pipeline.py: request the
 * first 151 Pokémon one id at a time, shape each reply into a record, and
 * skip any id whose request or shaping raises. `fetch` stands for
 * `requests.get`.
 */
module Poke {
  import opened Wrappers
  import opened Decimal
  import opened Dicts
  import opened Extract
  import opened Json

  const PokeApiBase := "https://pokeapi.co/api/v2"

  /** `range(1, 152)`. */
  const FirstId := 1
  const EndId := 152

  const Gen1Resource := Resource("gen1", Append, [])

  /** Line 14. */
  function DetailUrl(id: int): string {
    PokeApiBase + "/pokemon/" + RenderInt(id)
  }

  /** What the GET gives: no connection, or a status and a body (None when it is not JSON). */
  datatype Reply = ConnectionFailed | Reply(status: int, body: Option<Json>)

  /** The yielded record. `base_stats` is kept as the dict that is dumped to JSON text. */
  datatype Pokemon = Pokemon(
    id: Json,
    name: Json,
    height: Json,
    weight: Json,
    types: seq<Json>,
    abilities: seq<Json>,
    baseStats: Dict<Json, Json>,
    spriteUrl: Json)

  /** `x[key]["name"]`. */
  function NameAt(x: Json, key: string): Result<Json, Error> {
    var inner :- Index(x, key);
    Index(inner, "name")
  }

  /**
   * `[x[key]["name"] for x in v]`: one name per element of `v`, in order;
   * the first element without one raises.
   */
  function NamesOf(v: Json, key: string): (r: Result<seq<Json>, Error>)
    ensures r.Ok? ==> Iterate(v).Ok? && |r.value| == |Iterate(v).value|
    ensures r.Ok? ==> forall i :: 0 <= i < |r.value| ==> NameAt(Iterate(v).value[i], key) == Ok(r.value[i])
    ensures r.Err? <==> Iterate(v).Err? || exists i :: 0 <= i < |Iterate(v).value| && NameAt(Iterate(v).value[i], key).Err?
  {
    var items :- Iterate(v);
    var run := MapUntilError(items, (x: Json) => NameAt(x, key));
    if run.raised.Some? then Err(run.raised.value) else Ok(run.yielded)
  }

  /** Only JSON scalars can be dict keys: a list or object key raises TypeError (unhashable). */
  predicate Hashable(k: Json) {
    !k.Arr? && !k.Obj?
  }

  /**
   * Python's `==` on hashable keys, as a representative per group of equal
   * keys: `True == 1` and `False == 0`, so a boolean stands for its number.
   */
  function KeyClass(k: Json): Json {
    match k
    case Bool(b) => Num(if b then 1 else 0)
    case _ => k
  }

  /** One item of the `base_stats` comprehension: `s["stat"]["name"]: s["base_stat"]`. */
  function StatPair(s: Json): (r: Result<(Json, Json), Error>)
    ensures r.Ok? ==> Hashable(r.value.0) && NameAt(s, "stat") == Ok(r.value.0) && Index(s, "base_stat") == Ok(r.value.1)
    ensures r.Err? <==> NameAt(s, "stat").Err? || Index(s, "base_stat").Err? || !Hashable(NameAt(s, "stat").value)
  {
    var k :- NameAt(s, "stat");
    var v :- Index(s, "base_stat");
    if Hashable(k) then Ok((k, v)) else Err(TypeError)
  }

  /** `pairs` holds the stat pair of each item, in order. */
  predicate StatPairsOf(items: seq<Json>, pairs: seq<(Json, Json)>) {
    |pairs| == |items| && forall i :: 0 <= i < |items| ==> StatPair(items[i]) == Ok(pairs[i])
  }

  /**
   * `{s["stat"]["name"]: s["base_stat"] for s in v}`: a later stat whose name
   * equals an earlier one overwrites its value and keeps the earlier name.
   */
  function BaseStats(v: Json): (r: Result<Dict<Json, Json>, Error>)
    ensures r.Ok? ==> Iterate(v).Ok? && exists pairs :: StatPairsOf(Iterate(v).value, pairs) && r.value == FromPairsAs(pairs, KeyClass)
    ensures r.Err? <==> Iterate(v).Err? || exists i :: 0 <= i < |Iterate(v).value| && StatPair(Iterate(v).value[i]).Err?
  {
    var items :- Iterate(v);
    var run := MapUntilError(items, StatPair);
    if run.raised.Some? then Err(run.raised.value) else Ok(FromPairsAs(run.yielded, KeyClass))
  }

  /** One `stats` item naming stat `name` with value `value`. */
  function StatItem(name: Json, value: Json): Json {
    Obj([("stat", Obj([("name", name)])), ("base_stat", value)])
  }

  /** A stat named `true` and one named `1` are one dict key: the first name stays, the last value wins. */
  lemma BaseStatsTrueIsOne()
    ensures BaseStats(Arr([StatItem(Bool(true), Num(1)), StatItem(Num(1), Num(2))])) == Ok([(Bool(true), Num(2))])
  {
    var items := [StatItem(Bool(true), Num(1)), StatItem(Num(1), Num(2))];
    assert StatPair(items[0]) == Ok((Bool(true), Num(1)));
    assert StatPair(items[1]) == Ok((Num(1), Num(2)));
    var run := MapUntilError(items, StatPair);
    assert run.yielded == [(Bool(true), Num(1)), (Num(1), Num(2))];
    assert run.raised == None;
    var ps := run.yielded;
    assert ps[..1] == [(Bool(true), Num(1))];
    assert ps[..1][..0] == [];
    assert FromPairsAs(ps[..1], KeyClass) == [(Bool(true), Num(1))];
    assert KeyClass(Bool(true)) == KeyClass(Num(1));
    assert AssignAs([(Bool(true), Num(1))], Num(1), Num(2), KeyClass) == [(Bool(true), Num(2))];
    assert FromPairsAs(ps, KeyClass) == [(Bool(true), Num(2))];
  }

  /** Lines 19-30: the record built from one decoded reply, fields evaluated in source order. */
  function Shape(data: Json): (r: Result<Pokemon, Error>)
    ensures r.Ok? <==>
      && Index(data, "id").Ok? && Index(data, "name").Ok?
      && Index(data, "height").Ok? && Index(data, "weight").Ok?
      && Index(data, "types").Ok? && NamesOf(Index(data, "types").value, "type").Ok?
      && Index(data, "abilities").Ok? && NamesOf(Index(data, "abilities").value, "ability").Ok?
      && Index(data, "stats").Ok? && BaseStats(Index(data, "stats").value).Ok?
      && Index(data, "sprites").Ok? && Index(Index(data, "sprites").value, "front_default").Ok?
    ensures r.Ok? ==> data.Obj?
    ensures r.Ok? ==> Index(data, "types").Ok? && NamesOf(Index(data, "types").value, "type") == Ok(r.value.types)
    ensures r.Ok? ==> Index(data, "abilities").Ok? && NamesOf(Index(data, "abilities").value, "ability") == Ok(r.value.abilities)
    ensures r.Ok? ==> Index(data, "sprites").Ok? && var front := Index(Index(data, "sprites").value, "front_default");
      && front.Ok?
      && (!Truthy(front.value) ==> r.value.spriteUrl == Str(""))
      && (Truthy(front.value) ==> r.value.spriteUrl == front.value)
    ensures r.Ok? ==> Index(data, "id") == Ok(r.value.id) && Index(data, "name") == Ok(r.value.name)
    ensures r.Ok? ==> Index(data, "height") == Ok(r.value.height) && Index(data, "weight") == Ok(r.value.weight)
    ensures r.Ok? ==> Index(data, "stats").Ok? && BaseStats(Index(data, "stats").value) == Ok(r.value.baseStats)
  {
    var id :- Index(data, "id");
    var name :- Index(data, "name");
    var height :- Index(data, "height");
    var weight :- Index(data, "weight");
    var typesJson :- Index(data, "types");
    var types :- NamesOf(typesJson, "type");
    var abilitiesJson :- Index(data, "abilities");
    var abilities :- NamesOf(abilitiesJson, "ability");
    var statsJson :- Index(data, "stats");
    var stats :- BaseStats(statsJson);
    var sprites :- Index(data, "sprites");
    var front :- Index(sprites, "front_default");
    Ok(Pokemon(id, name, height, weight, types, abilities, stats, Or(front, Str(""))))
  }

  /** Lines 16-30 for one reply: connection failure, error status or undecodable body raise before shaping. */
  function Fetched(reply: Reply): (r: Result<Pokemon, Error>)
    ensures reply.ConnectionFailed? ==> r == Err(ConnectionError)
    ensures reply.Reply? && IsErrorStatus(reply.status) ==> r == Err(HttpError(reply.status))
    ensures r.Ok? ==> reply.Reply? && reply.body.Some? && Shape(reply.body.value) == r
    ensures reply.Reply? && !IsErrorStatus(reply.status) ==>
      r == if reply.body.Some? then Shape(reply.body.value) else Err(ValueError)
  {
    match reply
    case ConnectionFailed => Err(ConnectionError)
    case Reply(status, body) =>
      if IsErrorStatus(status) then Err(HttpError(status))
      else match body
        case None => Err(ValueError)
        case Some(data) => Shape(data)
  }

  /** What the loop body does for one id: request the detail URL and shape the reply. */
  function Attempt(fetch: string -> Reply): int -> Result<Pokemon, Error> {
    id => Fetched(fetch(DetailUrl(id)))
  }

  /** The ids in [lo, hi) whose attempt succeeds, each with its record, in id order. */
  function Successes(attempt: int -> Result<Pokemon, Error>, lo: int, hi: int): seq<(int, Pokemon)>
    decreases hi - lo
  {
    if lo >= hi then []
    else
      var rest := Successes(attempt, lo + 1, hi);
      match attempt(lo)
      case Ok(p) => [(lo, p)] + rest
      case Err(_) => rest
  }

  function Records(s: seq<(int, Pokemon)>): (r: seq<Pokemon>)
    ensures |r| == |s| && forall k :: 0 <= k < |s| ==> r[k] == s[k].1
  {
    seq(|s|, k requires 0 <= k < |s| => s[k].1)
  }

  /** Lines 13-34: what the generator yields. */
  function Gen1Pokemon(fetch: string -> Reply): seq<Pokemon> {
    Records(Successes(Attempt(fetch), FirstId, EndId))
  }

  ghost predicate Succeeded(s: seq<(int, Pokemon)>, id: int) {
    exists k :: 0 <= k < |s| && s[k].0 == id
  }

  /**
   * The successes lie in [lo, hi), in strictly increasing id order (so each
   * id at most once), each with the record its attempt gives.
   */
  lemma {:induction false} SuccessesOrdered(attempt: int -> Result<Pokemon, Error>, lo: int, hi: int)
    ensures var s := Successes(attempt, lo, hi);
      && |s| <= (if lo < hi then hi - lo else 0)
      && (forall k :: 0 <= k < |s| ==> lo <= s[k].0 < hi && attempt(s[k].0) == Ok(s[k].1))
      && (forall k, m :: 0 <= k < m < |s| ==> s[k].0 < s[m].0)
    decreases hi - lo
  {
    if lo < hi {
      SuccessesOrdered(attempt, lo + 1, hi);
    }
  }

  /**
   * An id in [lo, hi) is among the successes exactly when its attempt does
   * not raise: a failing id is skipped and the loop goes on.
   */
  lemma {:induction false} SuccessesComplete(attempt: int -> Result<Pokemon, Error>, lo: int, hi: int, id: int)
    requires lo <= id < hi
    ensures Succeeded(Successes(attempt, lo, hi), id) <==> attempt(id).Ok?
    decreases hi - lo
  {
    var s := Successes(attempt, lo, hi);
    var rest := Successes(attempt, lo + 1, hi);
    if id > lo {
      SuccessesComplete(attempt, lo + 1, hi, id);
    }
    if attempt(lo).Ok? {
      assert s == [s[0]] + rest && s[0].0 == lo;
      if id > lo {
        if Succeeded(s, id) {
          var k :| 0 <= k < |s| && s[k].0 == id;
          assert rest[k - 1].0 == id;
        }
        if Succeeded(rest, id) {
          var k :| 0 <= k < |rest| && rest[k].0 == id;
          assert s[k + 1].0 == id;
        }
      }
    } else {
      assert s == rest;
      if id == lo {
        SuccessesOrdered(attempt, lo + 1, hi);
        assert forall k :: 0 <= k < |s| ==> s[k].0 != id;
      }
    }
  }

  /** At most 151 records are yielded, and one for every id whose request succeeds. */
  lemma Gen1Bound(fetch: string -> Reply)
    ensures |Gen1Pokemon(fetch)| <= 151
    ensures forall id :: FirstId <= id < EndId ==>
      (Succeeded(Successes(Attempt(fetch), FirstId, EndId), id) <==> Fetched(fetch(DetailUrl(id))).Ok?)
  {
    SuccessesOrdered(Attempt(fetch), FirstId, EndId);
    forall id | FirstId <= id < EndId
      ensures Succeeded(Successes(Attempt(fetch), FirstId, EndId), id) <==> Fetched(fetch(DetailUrl(id))).Ok?
    {
      SuccessesComplete(Attempt(fetch), FirstId, EndId, id);
    }
  }

  /**
   * When the API answers every successful request for id i with a record
   * whose `id` is i, the yielded records come in strictly increasing id order.
   */
  lemma Gen1IdsIncrease(fetch: string -> Reply)
    requires forall i :: FirstId <= i < EndId && Fetched(fetch(DetailUrl(i))).Ok? ==>
      Fetched(fetch(DetailUrl(i))).value.id == Num(i)
    ensures var rs := Gen1Pokemon(fetch);
      forall k, m :: 0 <= k < m < |rs| ==> rs[k].id.Num? && rs[m].id.Num? && rs[k].id.n < rs[m].id.n
  {
    SuccessesOrdered(Attempt(fetch), FirstId, EndId);
  }

  /** Each id is requested at its own URL. */
  lemma DetailUrlInjective(a: int, b: int)
    requires a >= 0 && b >= 0
    ensures DetailUrl(a) == DetailUrl(b) <==> a == b
  {
    var prefix := PokeApiBase + "/pokemon/";
    if DetailUrl(a) == DetailUrl(b) {
      assert DetailUrl(a)[|prefix|..] == Render(a);
      assert DetailUrl(b)[|prefix|..] == Render(b);
      RenderInjective(a, b);
    }
  }
}

=== FILE: student_local.dfy ===
/**
 * `Grp2_StudentInfo` in run_student_pipeline_local.py: read studentInfo.csv
 * with DictReader and copy each row into a new dict whose keys are cleaned
 * for the warehouse and whose empty values become ''.
 */
module StudentLocal {
  import opened Wrappers
  import opened Text
  import opened Dicts
  import opened Extract
  import opened Csv

  const CsvPath := "/home/runner/work/ftw-de-bootcamp/ftw-de-bootcamp/data/studentInfo.csv"

  /** `key.replace(' ', '_').replace('-', '_').lower()`. */
  function CleanKey(key: string): (r: string)
    ensures |r| == |key|
    ensures forall i :: 0 <= i < |key| ==>
      r[i] == if key[i] == ' ' || key[i] == '-' then '_' else LowerChar(key[i])
    ensures ' ' !in r && '-' !in r
    ensures IsLower(r)
  {
    Lower(ReplaceChar(ReplaceChar(key, ' ', '_'), '-', '_'))
  }

  /** Cleaning a cleaned key changes nothing. */
  lemma CleanKeyIdempotent(key: string)
    ensures CleanKey(CleanKey(key)) == CleanKey(key)
  {
    var once := CleanKey(key);
    forall i | 0 <= i < |once| ensures CleanKey(once)[i] == once[i] {
      assert !IsUpper(once[i]);
    }
  }

  /** `value if value else ''`: None and '' become ''. */
  function Default(value: Option<string>): (r: string)
    ensures value.Some? && value.value != "" ==> r == value.value
    ensures value.None? || value.value == "" ==> r == ""
  {
    if value.Some? && value.value != "" then value.value else ""
  }

  /** The assignments the inner loop makes to `clean_row`, in the row's item order. */
  function CleanedItems(row: Row): (items: seq<(string, string)>)
    ensures |items| == |row|
  {
    seq(|row|, i requires 0 <= i < |row| => (CleanKey(row[i].0), Default(row[i].1)))
  }

  /** Lines 29-32: build `clean_row` key by key. */
  method CleanRow(row: Row) returns (clean: Dict<string, string>)
    ensures clean == FromPairs(CleanedItems(row))
  {
    clean := [];
    ghost var items := CleanedItems(row);
    for i := 0 to |row|
      invariant clean == FromPairs(items[..i])
    {
      var (key, value) := row[i];
      assert items[..i + 1][..i] == items[..i];
      clean := Assign(clean, CleanKey(key), Default(value));
    }
    assert items[..|row|] == items;
  }

  /**
   * What a cleaned row holds: cleaned keys only, each once; each key holds the
   * defaulted value of the LAST raw key that cleans to it; and two raw keys that
   * clean alike leave the row with fewer keys.
   */
  lemma {:induction false} CleanRowShape(row: Row)
    ensures var clean := FromPairs(CleanedItems(row));
      && Distinct(Keys(clean))
      && |clean| <= |row|
      && (forall k :: k in Keys(clean) ==> ' ' !in k && '-' !in k && IsLower(k))
      && (forall k :: Get(clean, k) == LastValue(CleanedItems(row), k))
  {
    var items := CleanedItems(row);
    FromPairsKeys(items);
    forall k | k in Keys(FromPairs(items)) ensures ' ' !in k && '-' !in k && IsLower(k) {
      assert HasKey(items, k);
      var i :| 0 <= i < |items| && items[i].0 == k;
    }
    forall k ensures Get(FromPairs(items), k) == LastValue(items, k) {
      FromPairsLastWins(items, k);
    }
  }

  lemma CleanRowCollision(row: Row, i: nat, j: nat)
    requires i < j < |row| && CleanKey(row[i].0) == CleanKey(row[j].0)
    ensures |FromPairs(CleanedItems(row))| < |row|
  {
    FromPairsCollision(CleanedItems(row), i, j);
  }

  /** The cleaned row for one data record. */
  function CleanRecord(names: seq<string>, rec: seq<string>): Dict<string, string> {
    FromPairs(CleanedItems(DictRow(names, rec)))
  }

  /** `rows` holds one cleaned row per record, in order. */
  predicate CleanedAll(names: seq<string>, recs: seq<seq<string>>, rows: seq<Dict<string, string>>) {
    |rows| == |recs| && forall i :: 0 <= i < |recs| ==> rows[i] == CleanRecord(names, recs[i])
  }

  /** Some data record is longer than the header. */
  predicate AnyRestKey(names: seq<string>, recs: seq<seq<string>>) {
    exists r :: r in recs && HasRestKey(names, r)
  }

  /**
   * Lines 16-48. A missing file raises FileNotFoundError before anything is
   * read; an empty file has no field names and `list(None)` raises TypeError; a
   * record longer than the header gives DictReader the key None, whose
   * `.replace` raises AttributeError. Otherwise one cleaned row per data record,
   * in file order.
   */
  method Grp2StudentInfo(file: Option<CsvFile>) returns (result: Result<seq<Dict<string, string>>, Error>)
    ensures file.None? ==> result == Err(FileNotFound(CsvPath))
    ensures file.Some? && FieldNames(file.value).None? ==> result == Err(TypeError)
    ensures file.Some? && FieldNames(file.value).Some? ==>
      var names, recs := FieldNames(file.value).value, DataRecords(file.value);
      if AnyRestKey(names, recs) then result == Err(AttributeError)
      else result.Ok? && CleanedAll(names, recs, result.value)
  {
    if file.None? {
      return Err(FileNotFound(CsvPath));
    }
    var names := FieldNames(file.value);
    if names.None? {
      return Err(TypeError);
    }
    result := CleanRecords(names.value, DataRecords(file.value));
    CleanedRecordsAll(names.value, DataRecords(file.value));
  }

  /** `f` applied to each record, in order. */
  function MapRecords(f: seq<string> -> Dict<string, string>, recs: seq<seq<string>>): seq<Dict<string, string>>
    decreases |recs|
  {
    if recs == [] then [] else MapRecords(f, recs[..|recs| - 1]) + [f(recs[|recs| - 1])]
  }

  /** Mapping keeps the number of records and puts the image of record i at position i. */
  lemma {:induction false} MapRecordsAt(f: seq<string> -> Dict<string, string>, recs: seq<seq<string>>)
    ensures |MapRecords(f, recs)| == |recs|
    ensures forall i :: 0 <= i < |recs| ==> MapRecords(f, recs)[i] == f(recs[i])
    decreases |recs|
  {
    if recs != [] {
      var init := recs[..|recs| - 1];
      MapRecordsAt(f, init);
      forall i | 0 <= i < |init| ensures init[i] == recs[i] { }
    }
  }

  /** Reference definition of the rows the loop collects: one cleaned row per record, in order. */
  function CleanedRecords(names: seq<string>, recs: seq<seq<string>>): seq<Dict<string, string>> {
    MapRecords(rec => CleanRecord(names, rec), recs)
  }

  /** The collected rows are exactly the cleaned records, position by position. */
  lemma CleanedRecordsAll(names: seq<string>, recs: seq<seq<string>>)
    ensures CleanedAll(names, recs, CleanedRecords(names, recs))
  {
    MapRecordsAt(rec => CleanRecord(names, rec), recs);
  }

  /** One more record adds its cleaned row at the end. */
  lemma CleanedRecordsSnoc(names: seq<string>, recs: seq<seq<string>>, i: nat)
    requires i < |recs|
    ensures CleanedRecords(names, recs[..i + 1]) == CleanedRecords(names, recs[..i]) + [CleanRecord(names, recs[i])]
  {
    assert recs[..i + 1][..i] == recs[..i];
  }

  /** Lines 28-32 for one data record. */
  method CleanRecordRow(names: seq<string>, rec: seq<string>) returns (clean: Dict<string, string>)
    ensures clean == CleanRecord(names, rec)
  {
    clean := CleanRow(DictRow(names, rec));
  }

  /** Lines 27-33: the row loop, which stops at the first record longer than the header. */
  method CleanRecords(names: seq<string>, recs: seq<seq<string>>) returns (result: Result<seq<Dict<string, string>>, Error>)
    ensures AnyRestKey(names, recs) ==> result == Err(AttributeError)
    ensures !AnyRestKey(names, recs) ==> result == Ok(CleanedRecords(names, recs))
  {
    var data: seq<Dict<string, string>> := [];
    for i := 0 to |recs|
      invariant data == CleanedRecords(names, recs[..i])
      invariant !AnyRestKey(names, recs[..i])
    {
      var cleanRow := CleanRecordRow(names, recs[i]);
      if HasRestKey(names, recs[i]) {
        assert AnyRestKey(names, recs);
        return Err(AttributeError);
      }
      CleanedRecordsSnoc(names, recs, i);
      assert recs[..i + 1] == recs[..i] + [recs[i]];
      data := data + [cleanRow];
    }
    assert recs[..|recs|] == recs;
    return Ok(data);
  }
}

=== FILE: text.dfy ===
/**
 * The few Python `str` operations the loaders use, on strings as sequences of
 * characters. Case mapping is ASCII only.
 */
module Text {

  /** `s.startswith(prefix)`. */
  predicate StartsWith(s: string, prefix: string) {
    |prefix| <= |s| && s[..|prefix|] == prefix
  }

  predicate IsUpper(c: char) {
    'A' <= c <= 'Z'
  }

  function LowerChar(c: char): char {
    if IsUpper(c) then (c as int + 32) as char else c
  }

  /** `s.lower()` on ASCII letters; every other character is kept. */
  function Lower(s: string): (r: string)
    ensures |r| == |s|
    ensures forall i :: 0 <= i < |s| ==> r[i] == LowerChar(s[i])
  {
    seq(|s|, i requires 0 <= i < |s| => LowerChar(s[i]))
  }

  predicate IsLower(s: string) {
    forall i :: 0 <= i < |s| ==> !IsUpper(s[i])
  }

  /** `s.replace(a, b)` for one-character `a` and `b`. */
  function ReplaceChar(s: string, a: char, b: char): (r: string)
    ensures |r| == |s|
    ensures forall i :: 0 <= i < |s| ==> r[i] == if s[i] == a then b else s[i]
  {
    seq(|s|, i requires 0 <= i < |s| => if s[i] == a then b else s[i])
  }

  /**
   * `s.replace(pat, rep)`: occurrences are found left to right and do not
   * overlap; the text after a replaced occurrence is scanned again.
   */
  function ReplaceAll(s: string, pat: string, rep: string): string
    requires |pat| > 0
    decreases |s|
  {
    if |s| < |pat| then s
    else if s[..|pat|] == pat then rep + ReplaceAll(s[|pat|..], pat, rep)
    else [s[0]] + ReplaceAll(s[1..], pat, rep)
  }

  /** A string in which the first character of `pat` never occurs has nothing to replace. */
  lemma {:induction false} ReplaceAllNoMatch(s: string, pat: string, rep: string)
    requires |pat| > 0 && pat[0] !in s
    ensures ReplaceAll(s, pat, rep) == s
    decreases |s|
  {
    if |s| >= |pat| {
      assert s[..|pat|][0] == s[0] != pat[0];
      ReplaceAllNoMatch(s[1..], pat, rep);
    }
  }

  /** Replacing a character by text that does not contain it leaves no occurrence behind. */
  lemma {:induction false} ReplaceAllRemovesChar(s: string, c: char, rep: string)
    requires c !in rep
    ensures c !in ReplaceAll(s, [c], rep)
    decreases |s|
  {
    if |s| >= 1 {
      ReplaceAllRemovesChar(s[1..], c, rep);
      if s[..1] == [c] {
        assert ReplaceAll(s, [c], rep) == rep + ReplaceAll(s[1..], [c], rep);
      } else {
        assert s[0] != c by { assert s[..1][0] == s[0]; }
        assert ReplaceAll(s, [c], rep) == [s[0]] + ReplaceAll(s[1..], [c], rep);
      }
    }
  }

  /**
   * Removing a suffix with `replace(suffix, '')` gives back the stem when the
   * suffix's first character does not occur in the stem.
   */
  lemma {:induction false} ReplaceAllDropsSuffix(stem: string, suffix: string)
    requires |suffix| > 0 && suffix[0] !in stem
    ensures ReplaceAll(stem + suffix, suffix, "") == stem
    decreases |stem|
  {
    var s := stem + suffix;
    if stem == [] {
      assert s == suffix && s[..|suffix|] == suffix;
      assert s[|suffix|..] == [];
    } else {
      assert s[..|suffix|][0] == stem[0] != suffix[0];
      assert s[1..] == stem[1..] + suffix;
      ReplaceAllDropsSuffix(stem[1..], suffix);
      assert [stem[0]] + stem[1..] == stem;
    }
  }

  function StripLeft(s: string, cs: set<char>): (r: string)
    decreases |s|
  {
    if |s| > 0 && s[0] in cs then StripLeft(s[1..], cs) else s
  }

  function StripRight(s: string, cs: set<char>): (r: string)
    decreases |s|
  {
    if |s| > 0 && s[|s| - 1] in cs then StripRight(s[..|s| - 1], cs) else s
  }

  /**
   * The characters `str.strip()` removes when given no argument, those for
   * which `str.isspace()` holds: tab through carriage return, the information
   * separators 0x1C-0x1F, space, NEL, no-break space, the Ogham space mark,
   * the spaces 0x2000-0x200A, the line and paragraph separators, the narrow
   * no-break space, the medium mathematical space and the ideographic space.
   */
  const Whitespace: set<char> := {
    '\t', '\n', '\U{000B}', '\U{000C}', '\r',
    '\U{001C}', '\U{001D}', '\U{001E}', '\U{001F}', ' ',
    '\U{0085}', '\U{00A0}', '\U{1680}',
    '\U{2000}', '\U{2001}', '\U{2002}', '\U{2003}', '\U{2004}', '\U{2005}',
    '\U{2006}', '\U{2007}', '\U{2008}', '\U{2009}', '\U{200A}',
    '\U{2028}', '\U{2029}', '\U{202F}', '\U{205F}', '\U{3000}'
  }

  /** `s.strip(chars)`: drop every leading and trailing character in `cs`. */
  function Strip(s: string, cs: set<char>): string {
    StripRight(StripLeft(s, cs), cs)
  }

  /** `str.strip()` removes the ASCII separators and Unicode spaces too. */
  lemma StripSeparatorsAndUnicodeSpaces()
    ensures Strip("\U{001C}\U{00A0}12\U{3000}\U{001F}", Whitespace) == "12"
  {
    var s := "\U{001C}\U{00A0}12\U{3000}\U{001F}";
    assert s[0] in Whitespace && s[1..] == "\U{00A0}12\U{3000}\U{001F}";
    assert s[1..][0] in Whitespace && s[1..][1..] == "12\U{3000}\U{001F}";
    assert s[2..][0] !in Whitespace;
    assert StripLeft(s, Whitespace) == "12\U{3000}\U{001F}";
    var t := "12\U{3000}\U{001F}";
    assert t[|t| - 1] in Whitespace && t[..|t| - 1] == "12\U{3000}";
    var u := "12\U{3000}";
    assert u[|u| - 1] in Whitespace && u[..|u| - 1] == "12";
    assert "12"[1] !in Whitespace;
    assert StripRight(t, Whitespace) == "12";
  }

  /**
   * `r` is `s` with a prefix and a suffix made only of characters in `cs`
   * removed, and neither end of `r` is in `cs`.
   */
  ghost predicate TrimmedBy(s: string, cs: set<char>, r: string) {
    exists i, j :: TrimmedAt(s, cs, r, i, j)
  }

  /** `r` is `s[i..j]`, every character outside it is in `cs`, and its ends are not. */
  ghost predicate TrimmedAt(s: string, cs: set<char>, r: string, i: int, j: int) {
    && 0 <= i <= j <= |s| && r == s[i..j]
    && (forall k :: 0 <= k < i ==> s[k] in cs)
    && (forall k :: j <= k < |s| ==> s[k] in cs)
    && (|r| > 0 ==> r[0] !in cs && r[|r| - 1] !in cs)
  }

  /** `Strip` gives exactly the trimmed form of `s`: it is one, and no other text is. */
  lemma StripIsTrimmedSlice(s: string, cs: set<char>)
    ensures forall r :: TrimmedBy(s, cs, r) <==> r == Strip(s, cs)
  {
    var l, i := StripLeftSlice(s, cs);
    var r, j := StripRightSlice(l, cs);
    assert r == s[i..i + j];
    if |r| > 0 {
      assert r[0] == l[0];
    }
    forall k | i + j <= k < |s| ensures s[k] in cs {
      assert s[k] == l[k - i];
    }
    assert TrimmedAt(s, cs, r, i, i + j);
    forall r' | TrimmedBy(s, cs, r') ensures r' == r {
      TrimmedUnique(s, cs, r, r');
    }
  }

  /** At most one text is a trimmed form of `s`. */
  lemma TrimmedUnique(s: string, cs: set<char>, r: string, r': string)
    requires TrimmedBy(s, cs, r) && TrimmedBy(s, cs, r')
    ensures r == r'
  {
    var i, j :| TrimmedAt(s, cs, r, i, j);
    var i', j' :| TrimmedAt(s, cs, r', i', j');
    assert |r| > 0 ==> s[i] == r[0] && s[j - 1] == r[|r| - 1];
    assert |r'| > 0 ==> s[i'] == r'[0] && s[j' - 1] == r'[|r'| - 1];
  }

  lemma {:induction false} StripLeftSlice(s: string, cs: set<char>) returns (l: string, i: nat)
    ensures l == StripLeft(s, cs) && i <= |s| && l == s[i..]
    ensures forall k :: 0 <= k < i ==> s[k] in cs
    ensures |l| > 0 ==> l[0] !in cs
    decreases |s|
  {
    if |s| > 0 && s[0] in cs {
      var l', i' := StripLeftSlice(s[1..], cs);
      l, i := l', i' + 1;
      forall k | 1 <= k < i ensures s[k] in cs {
        assert s[k] == s[1..][k - 1];
      }
    } else {
      l, i := s, 0;
    }
  }

  lemma {:induction false} StripRightSlice(s: string, cs: set<char>) returns (r: string, j: nat)
    ensures r == StripRight(s, cs) && j <= |s| && r == s[..j]
    ensures forall k :: j <= k < |s| ==> s[k] in cs
    ensures |r| > 0 ==> r[|r| - 1] !in cs
    decreases |s|
  {
    if |s| > 0 && s[|s| - 1] in cs {
      var r', j' := StripRightSlice(s[..|s| - 1], cs);
      r, j := r', j';
      forall k | j <= k < |s| - 1 ensures s[k] in cs {
        assert s[k] == s[..|s| - 1][k];
      }
    } else {
      r, j := s, |s|;
    }
  }

  /** `sep.join(parts)` with a one-character separator. */
  function Join(parts: seq<string>, sep: char): string
    decreases |parts|
  {
    if |parts| == 0 then ""
    else if |parts| == 1 then parts[0]
    else parts[0] + [sep] + Join(parts[1..], sep)
  }

  /** `s.split(sep)` with a one-character separator. */
  function Split(s: string, sep: char): (r: seq<string>)
    ensures |r| > 0
    decreases |s|
  {
    if s == [] then [""]
    else
      var rest := Split(s[1..], sep);
      if s[0] == sep then [""] + rest else [[s[0]] + rest[0]] + rest[1..]
  }

  lemma {:induction false} SplitPiece(p: string, t: string, sep: char)
    requires sep !in p
    ensures Split(p + [sep] + t, sep) == [p] + Split(t, sep)
    decreases |p|
  {
    if p == [] {
      assert p + [sep] + t == [sep] + t;
      assert ([sep] + t)[1..] == t;
    } else {
      assert (p + [sep] + t)[1..] == p[1..] + [sep] + t;
      SplitPiece(p[1..], t, sep);
      assert [p[0]] + p[1..] == p;
    }
  }

  lemma {:induction false} SplitLast(p: string, sep: char)
    requires sep !in p
    ensures Split(p, sep) == [p]
    decreases |p|
  {
    if p != [] {
      SplitLast(p[1..], sep);
      assert [p[0]] + p[1..] == p;
    }
  }

  /** Splitting a join on its separator gives back the parts when no part contains the separator. */
  lemma {:induction false} SplitJoin(parts: seq<string>, sep: char)
    requires |parts| > 0
    requires forall i :: 0 <= i < |parts| ==> sep !in parts[i]
    ensures Split(Join(parts, sep), sep) == parts
    decreases |parts|
  {
    if |parts| == 1 {
      SplitLast(parts[0], sep);
    } else {
      SplitJoin(parts[1..], sep);
      SplitPiece(parts[0], Join(parts[1..], sep), sep);
      assert [parts[0]] + parts[1..] == parts;
    }
  }
}

=== FILE: wmo_codes.dfy ===
/**
 * `wmo_code_descriptions` in dlt/extract-loads/03-dlt-wmo-codes-pipeline.py:
 * fetch the WMO weather-code table (code to day and night description and
 * icon) and flatten it into one row per code. `reply` is what the session's
 * GET returned.
 */
module WmoCodes {
  import opened Wrappers
  import opened Decimal
  import opened Dicts
  import opened Extract
  import opened Json

  const WmoCodesUrl := "https://gist.githubusercontent.com/stellasphere/9490c195ed2b53c707087c8c2db4ec0c/raw/76b0cb0ef0bfd8a2ec988aa54e30ecd1b483495d/descriptions.json"

  /** Lines 18-22: merged on weather_code. */
  const WmoResource := Resource("wmo_codes", Merge, ["weather_code"])

  /** The HTTP status and the decoded body of the reply. */
  datatype Reply = Reply(status: int, body: Json)

  /** One yielded row; a description or icon that is absent is `Null`. */
  datatype WmoRow = WmoRow(
    weatherCode: int,
    dayDescription: Json,
    dayIconUrl: Json,
    nightDescription: Json,
    nightIconUrl: Json,
    sourceUrl: string)

  /**
   * Lines 30-31: `(v or {}).get(half, {}) or {}`. A falsy entry, or a half
   * that is missing or falsy, gives the empty object; a truthy entry that is
   * not an object raises AttributeError.
   */
  function HalfOf(v: Json, half: string): (r: Result<Json, Error>)
    ensures !Truthy(v) ==> r == Ok(Obj([]))
    ensures Truthy(v) && !v.Obj? ==> r == Err(AttributeError)
    ensures v.Obj? ==> r.Ok?
    ensures v.Obj? && (Get(v.fields, half).None? || !Truthy(Get(v.fields, half).value)) ==> r == Ok(Obj([]))
    ensures v.Obj? && Get(v.fields, half).Some? && Truthy(Get(v.fields, half).value) ==> r == Ok(Get(v.fields, half).value)
  {
    var h :- DictGet(Or(v, Obj([])), half, Obj([]));
    Ok(Or(h, Obj([])))
  }

  /** `int(k)`. */
  function IntOf(k: string): (r: Result<int, Error>)
    ensures r.Ok? <==> ParseInt(k).Some?
    ensures r.Ok? ==> ParseInt(k) == Some(r.value)
    ensures r.Err? ==> r.error == ValueError
  {
    match ParseInt(k)
    case Some(n) => Ok(n)
    case None => Err(ValueError)
  }

  /** `(v or {}).get(half, {}) or {}` supports `.get`: the half is absent, falsy or an object. */
  predicate HalfIsDict(fields: Dict<string, Json>, half: string) {
    Get(fields, half).None? || !Truthy(Get(fields, half).value) || Get(fields, half).value.Obj?
  }

  /**
   * Lines 30-39 for one entry of the table, evaluated in source order (a
   * `.get` on a half that is not an object raises AttributeError). The row
   * exists exactly when the key is an integer and each half supports
   * `.get`; its descriptions and icons are the halves' "description" and
   * "image" entries, Null where absent.
   */
  function CodeRow(k: string, v: Json): (r: Result<WmoRow, Error>)
    ensures r.Ok? <==> ParseInt(k).Some? && (Truthy(v) ==> v.Obj? && HalfIsDict(v.fields, "day") && HalfIsDict(v.fields, "night"))
    ensures v.Obj? && Get(v.fields, "day").Some? && Truthy(Get(v.fields, "day").value) && r.Ok? ==>
      var d := Get(v.fields, "day").value;
      r.value.dayDescription == Get(d.fields, "description").GetOr(Null) && r.value.dayIconUrl == Get(d.fields, "image").GetOr(Null)
    ensures v.Obj? && Get(v.fields, "night").Some? && Truthy(Get(v.fields, "night").value) && r.Ok? ==>
      var n := Get(v.fields, "night").value;
      r.value.nightDescription == Get(n.fields, "description").GetOr(Null) && r.value.nightIconUrl == Get(n.fields, "image").GetOr(Null)
    ensures r.Ok? ==> ParseInt(k) == Some(r.value.weatherCode) && r.value.sourceUrl == WmoCodesUrl
    ensures ParseInt(k).None? ==> r.Err?
    ensures !Truthy(v) && ParseInt(k).Some? ==> r == Ok(WmoRow(ParseInt(k).value, Null, Null, Null, Null, WmoCodesUrl))
    ensures v.Obj? && (Get(v.fields, "day").None? || !Truthy(Get(v.fields, "day").value)) && r.Ok? ==>
      r.value.dayDescription == Null && r.value.dayIconUrl == Null
    ensures v.Obj? && (Get(v.fields, "night").None? || !Truthy(Get(v.fields, "night").value)) && r.Ok? ==>
      r.value.nightDescription == Null && r.value.nightIconUrl == Null
  {
    var day :- HalfOf(v, "day");
    var night :- HalfOf(v, "night");
    var code :- IntOf(k);
    match (day, night)
    case (Obj(d), Obj(n)) =>
      Ok(WmoRow(code, Get(d, "description").GetOr(Null), Get(d, "image").GetOr(Null),
        Get(n, "description").GetOr(Null), Get(n, "image").GetOr(Null), WmoCodesUrl))
    case _ => Err(AttributeError)
  }

  /**
   * Lines 25-39: an error status raises before any row; a body that is not
   * an object has no `.items()`; otherwise one row per entry in order, until
   * an entry raises.
   */
  function WmoCodeDescriptions(reply: Reply): (r: Run<WmoRow>)
    ensures IsErrorStatus(reply.status) ==> r == Run([], Some(HttpError(reply.status)))
    ensures !IsErrorStatus(reply.status) && !reply.body.Obj? ==> r == Run([], Some(AttributeError))
    ensures !IsErrorStatus(reply.status) && reply.body.Obj? ==>
      var entries := reply.body.fields;
      && |r.yielded| <= |entries|
      && (r.raised.None? ==> |r.yielded| == |entries|)
      && (r.raised.Some? ==> |r.yielded| < |entries| && CodeRow(entries[|r.yielded|].0, entries[|r.yielded|].1) == Err(r.raised.value))
      && forall i :: 0 <= i < |r.yielded| ==> CodeRow(entries[i].0, entries[i].1) == Ok(r.yielded[i])
  {
    if IsErrorStatus(reply.status) then Run([], Some(HttpError(reply.status)))
    else match reply.body
      case Obj(entries) => MapUntilError(entries, (e: (string, Json)) => CodeRow(e.0, e.1))
      case _ => Run([], Some(AttributeError))
  }

  /** Every yielded row's weather_code is its key read as an integer, and its source_url is the table's URL. */
  lemma RowsCarryKeys(reply: Reply)
    requires !IsErrorStatus(reply.status) && reply.body.Obj?
    ensures var rows := WmoCodeDescriptions(reply).yielded;
      forall i :: 0 <= i < |rows| ==>
        ParseInt(reply.body.fields[i].0) == Some(rows[i].weatherCode) && rows[i].sourceUrl == WmoCodesUrl
  {
  }

  /**
   * When the table's keys are distinct and each is written the way Python
   * prints its integer, the yielded rows have pairwise distinct merge keys.
   */
  lemma {:induction false} CanonicalKeysGiveDistinctCodes(reply: Reply)
    requires !IsErrorStatus(reply.status) && reply.body.Obj?
    requires Distinct(Keys(reply.body.fields))
    requires forall i :: 0 <= i < |reply.body.fields| ==> IsCanonical(reply.body.fields[i].0)
    ensures var rows := WmoCodeDescriptions(reply).yielded;
      forall i, j :: 0 <= i < j < |rows| ==> rows[i].weatherCode != rows[j].weatherCode
  {
    var entries := reply.body.fields;
    var rows := WmoCodeDescriptions(reply).yielded;
    forall i, j | 0 <= i < j < |rows| ensures rows[i].weatherCode != rows[j].weatherCode {
      assert RenderInt(rows[i].weatherCode) == entries[i].0;
      assert RenderInt(rows[j].weatherCode) == entries[j].0;
      assert Keys(entries)[i] != Keys(entries)[j];
    }
  }

  /** Without canonical keys the merge key can repeat: "1" and "01" both give weather_code 1. */
  lemma NonCanonicalKeysCollide()
    ensures var rows := WmoCodeDescriptions(Reply(200, Obj([("1", Null), ("01", Null)]))).yielded;
      |rows| == 2 && rows[0].weatherCode == rows[1].weatherCode == 1
  {
    assert ParseInt("1") == Some(1);
    assert ParseInt("01") == Some(1) by {
      assert Value("01") == Value("0") * 10 + 1;
    }
  }
}

=== FILE: wrappers.dfy ===
/** Optional values and results, used where the scripts return None or raise. */
module Wrappers {

  datatype Option<+T> = None | Some(value: T) {

    /** Python's `x or default` for an optional value. */
    function GetOr(default: T): T {
      match this
      case Some(v) => v
      case None => default
    }
  }

  /** A computation that either produced a value or raised an error. */
  datatype Result<+T, +E> = Ok(value: T) | Err(error: E) {

    predicate IsFailure() {
      Err?
    }

    function PropagateFailure<U>(): Result<U, E>
      requires Err?
    {
      Err(error)
    }

    function Extract(): T
      requires Ok?
    {
      value
    }
  }
}
